=== FILE: README.md ===
# MediStock Manager — verified model of the inventory rules

MediStock Manager is a pharmacy inventory client over a hosted database. Its
screens rely on a small set of business rules, and this project models them
in Dafny and proves their properties:

- the **status rule**, which classifies a medicine as in stock, low stock, out
  of stock, expired or expiring soon;
- the **stock operation**, which adds or removes stock and writes a movement
  to the ledger;
- the **medicine list hook**, which builds the paged query with its filter
  gating and recomputes status on add and update;
- the **analytics reductions**, which turn raw query rows into charts and
  tables: daily stock trends, category distribution, fast and slow movers,
  near-expiry loss, supplier performance and dashboard counters;
- the **route gate**, which decides between a spinner, sign-in, pending
  approval, access denied and the page, driven by the route table;
- the **client-side helpers**: list filters, sort and page-window arithmetic,
  the stock form and barcode validation, the mock medicine list, alert read
  state, the expiry badge, and the two CSV exports.

Conventions of the model:

- Calendar dates are integer day indices, and "today" is a parameter.
- Money is integer cents.
- Backend queries become given sequences. Backend failures become explicit
  `Faults` flags or a `Failed` response.
- `parseInt` is modelled exactly on decimal text: an optional sign, then the
  longest run of digits. No digits at all gives `None`, the model's NaN.

Modules follow the source files one for one:

- `Domain`: shared record and enum types
- `Text`: case folding, substring search, number rendering, split/join, `parseInt`
- `Csv`: the comma-separated export
- `StockOperations`: `src/hooks/useStockOperations.ts`
- `MedicinesHook`: `src/hooks/useMedicines.ts`
- `Analytics`: `src/hooks/useAnalytics.ts`
- `ProtectedRoute`: `src/components/auth/ProtectedRoute.tsx`
- `AppRoutes`: `src/App.tsx`
- `MedicineTable`: `src/components/medicines/MedicineTable.tsx`
- `MedicineTableEnhanced`: `src/components/medicines/MedicineTableEnhanced.tsx`
- `StockOperationForm`: `src/components/stock/StockOperationForm.tsx`
- `QuickStockScanner`: `src/components/barcode/QuickStockScanner.tsx`
- `MedicinesPage`: `src/pages/Medicines.tsx`
- `AlertsPage`: `src/pages/Alerts.tsx`
- `ExpiryBadge`: `src/components/medicines/ExpiryBadge.tsx`
- `ExpiryLossTable`: `src/components/analytics/ExpiryLossTable.tsx`
- `SupplierPerformanceTable`: `src/components/analytics/SupplierPerformanceTable.tsx`

Code that updates state in place is modelled as classes:

- `StockOperations.Inventory` holds the medicine map and the movement ledger.
- `MedicinesHook.MedicinesState`, `MedicineTableEnhanced.TableState`,
  `StockOperationForm.Form`, `QuickStockScanner.Scanner`, `MedicinesPage.Page`
  and `AlertsPage.Page` hold the React state of their component.

Each method of these classes states its whole new state. Where the source has a pure counterpart, the method is tied to it: a specification function, or a verdict function, or the filter it applies.

The loops of the analytics hook are methods with loop invariants:

- the per-day buckets;
- the category grouping;
- the movement totals;
- the midpoint labelling;
- the delivery-day counters.

## Model

| member | source | states |
|---|---|---|
| Domain.StatusNameInjective | src/types/medicine.ts:14 | the five status strings are pairwise distinct, so filtering by the stored name is filtering by status |
| StockOperations.CalculateStatus | src/hooks/useStockOperations.ts:96-108 | the first-match chain as a partition: expired iff days < 0; expiring soon iff 0..30 days, whatever the quantity; past 30 days, out of stock iff quantity 0, low iff 0 ≠ q ≤ min, in stock iff q > min |
| StockOperations.StatusAfterRestock | src/hooks/useStockOperations.ts:103-107 | past the expiry window, adding stock to a non-negative quantity never gives out-of-stock and never demotes an in-stock medicine |
| StockOperations.NewQuantity | src/hooks/useStockOperations.ts:40-42 | the new quantity differs from the current one by exactly the requested amount, upward for stock-in and downward for stock-out |
| StockOperations.ApplyUpdate | src/hooks/useStockOperations.ts:48-55 | applying the update changes quantity and status, and the batch only when the update carries one; every other column is unchanged |
| StockOperations.Updated | src/hooks/useStockOperations.ts:40-55 | the updated row has the new quantity and its recomputed status; the batch changes only on stock-in with a non-empty batch, which it then holds; id, minimum and expiry are unchanged |
| StockOperations.MovementFor | src/hooks/useStockOperations.ts:65-72 | the movement carries the requested id, type, quantity and reason; its batch is the supplied one if non-empty, else the medicine's; performed_by is the user id when there is one, else null |
| StockOperations.UnknownMedicineFails | src/hooks/useStockOperations.ts:20-27 | an unknown id fails with the store untouched: no update and no movement |
| StockOperations.StockOutNeverNegative | src/hooks/useStockOperations.ts:30-37 | a stock-out above the current quantity fails before any write; a successful stock-out never leaves a negative quantity |
| StockOperations.SuccessKeepsLedgerInStep | src/hooks/useStockOperations.ts:40-81 | after a success, the medicine existed, other medicines are untouched, exactly one movement is appended, and the quantity changed by that movement's signed amount |
| StockOperations.StepPreservesConsistency | src/hooks/useStockOperations.ts:44-60 | if every stored status agrees with the status rule, it still does after any operation, successful or not |
| StockOperations.InsertFailureLeavesPartialWrite | src/hooks/useStockOperations.ts:57-74 | for any existing medicine and any non-zero quantity in either direction (a stock-out within the stock), when the movement insert fails after the update, the call reports failure yet the quantity has already changed and no movement is recorded |
| StockOperations.StockInThenOutRestores | src/hooks/useStockOperations.ts:30-72 | stock-in of n followed by stock-out of n, on the same day, both succeed, restore quantity and status, and append exactly two movements |
| StockOperations.Step | src/hooks/useStockOperations.ts:17-91 | defines one `performStockOperation` call on the store; its properties are stated by UnknownMedicineFails, StockOutNeverNegative, SuccessKeepsLedgerInStep, StepPreservesConsistency, InsertFailureLeavesPartialWrite and StockInThenOutRestores |
| StockOperations.Inventory.PerformStockOperation | src/hooks/useStockOperations.ts:17-91 | the new store and the result are those of the specification function `Step` applied to the old store |
| MedicinesHook.SameStatusRule | src/hooks/useMedicines.ts:233-245 | this copy of the status rule agrees with the one in useStockOperations on every input |
| MedicinesHook.CalculateStatus | src/hooks/useMedicines.ts:240-244 | defines the hook's status rule on a day count; SameStatusRule states that it agrees with the useStockOperations rule, whose own contract partitions the inputs |
| MedicinesHook.PageRange | src/hooks/useMedicines.ts:92-93 | defines the `from`/`to` range of a page; PagesAreAdjacent and EachIndexOnOnePage state its properties |
| MedicinesHook.PagesAreAdjacent | src/hooks/useMedicines.ts:92-94 | a page's range spans exactly pageSize indices, and the next page starts right after it |
| MedicinesHook.EachIndexOnOnePage | src/hooks/useMedicines.ts:92-94 | every row index lies on exactly one page, page i / pageSize + 1 |
| MedicinesHook.WithDefaults | src/hooks/useMedicines.ts:54-62 | missing options default to page 1, 10 rows, sort by name ascending, no search, category and status "all"; every supplied option is kept as given |
| MedicinesHook.BuildQuery | src/hooks/useMedicines.ts:69-94 | a row passes the built query iff it is selected by the options: the search clause only for a non-empty term, category and status only when neither empty nor "all"; order and range follow the options |
| MedicinesHook.AppendClause | src/hooks/useMedicines.ts:73-86 | each added clause narrows the selection to the rows that also meet it |
| MedicinesHook.NoFilterSelectsAll | src/hooks/useMedicines.ts:74-86 | with no term and the "all" filters, every row is selected |
| MedicinesHook.TotalCountOf | src/hooks/useMedicines.ts:101 | a missing count becomes 0; a reported count is kept |
| MedicinesHook.RowMatches | src/hooks/useMedicines.ts:73-86 | defines which rows satisfy every filter clause of the query; BuildQuery and AppendClause state that the clauses built select exactly the rows Selected describes |
| MedicinesHook.Selected | src/hooks/useMedicines.ts:74-86 | defines the selection promised for a search term and two filters; BuildQuery ties it to the query, NoFilterSelectsAll shows that no filter selects every row |
| MedicinesHook.FindById | src/hooks/useMedicines.ts:162 | finds the first row with the id, and finds nothing iff no row has it |
| MedicinesHook.NullIfEmpty | src/hooks/useMedicines.ts:123-132 | an absent or empty optional string is stored as null, anything else as given |
| MedicinesHook.InsertRow | src/hooks/useMedicines.ts:121-133 | the inserted row carries the submitted name, category, batch number, unit price, quantity, minimum and expiry; its status is the status rule applied to that quantity, minimum and expiry; empty optional strings become null |
| MedicinesHook.MedicinesState.constructor | src/hooks/useMedicines.ts:49-52 | the hook starts empty, with count 0, loading and no error |
| MedicinesHook.MedicinesState.FetchMedicines | src/hooks/useMedicines.ts:64-113 | builds the query selecting exactly the optioned rows, with a search clause iff a term is given, ordered by the sort column in the sort direction, on the page's range; on success it stores the rows and count, on failure it keeps them and records the message; loading ends either way |
| MedicinesHook.MedicinesState.UpdatePayloadFor | src/hooks/useMedicines.ts:156-170 | the payload carries the supplied fields; a status is added iff quantity, minimum or expiry is supplied and the record is on the loaded page, and is the rule applied with missing values taken from that record |
| Analytics.QuietDayIsZero | src/hooks/useAnalytics.ts:76-92 | a day with no movements has zero stock-in and zero stock-out |
| Analytics.InOnDay | src/hooks/useAnalytics.ts:76-77 | defines the stock-in total of a day; QuietDayIsZero, StockTrends and TrendShape state its properties |
| Analytics.OutOnDay | src/hooks/useAnalytics.ts:78-80 | defines the total of every other movement type on a day; QuietDayIsZero, StockTrends and TrendShape state its properties |
| Analytics.StockTrends | src/hooks/useAnalytics.ts:69-94 | one entry per day of the window, the i-th for day from + i, holding that day's stock-in total and the total of every other movement type |
| Analytics.TrendShape | src/hooks/useAnalytics.ts:84-94 | the entries run on consecutive days, first from and last to |
| Analytics.RevenueTrend | src/hooks/useAnalytics.ts:280-303 | one revenue entry per day of the window, each the sum of that day's sales, 0 for a day without sales |
| Analytics.RevenueOnDay | src/hooks/useAnalytics.ts:283-289 | defines the sales total of a day; RevenueTrend states that each reported day carries it |
| Analytics.CountAcrossCovers | src/hooks/useAnalytics.ts:110-118 | when every medicine's category is listed once, the per-category counts add up to the number of medicines |
| Analytics.SumCountsIsCountAcross | src/hooks/useAnalytics.ts:120-124 | the sum of the listed counts is the sum of the per-category counts of their categories |
| Analytics.GroupByCategory | src/hooks/useAnalytics.ts:110-118 | the grouping holds one entry per category present, each with that category's count (at least 1) and stock value |
| Analytics.GroupStep | src/hooks/useAnalytics.ts:112-118 | one more row adds one to its category's count and its quantity times price to its value, opening the category the first time it is seen |
| Analytics.DistributionSums | src/hooks/useAnalytics.ts:120-124 | the listed counts add up to the number of rows |
| Analytics.CategoryDistributionOf | src/hooks/useAnalytics.ts:110-124 | each category is listed once, with its count and value; every medicine's category is listed; the counts sum to the number of medicines |
| Analytics.MovementTotals | src/hooks/useAnalytics.ts:147-154 | one total per medicine that moved, holding the sum of its quantities in both directions |
| Analytics.WithMovementExact | src/hooks/useAnalytics.ts:157-158 | a medicine is kept iff it was queried and has at least one movement |
| Analytics.WithMovement | src/hooks/useAnalytics.ts:157-158 | defines the moved-medicines filter; WithMovementExact and CollectIsWithMovement state its properties |
| Analytics.Collect | src/hooks/useAnalytics.ts:157-164 | each collected item carries its medicine's movement total and starts out fast |
| Analytics.CollectIsWithMovement | src/hooks/useAnalytics.ts:157-164 | the collected items are exactly the medicines that moved, in query order |
| Analytics.InsertKeepsOrder | src/hooks/useAnalytics.ts:165 | inserting into a non-increasing list keeps it non-increasing |
| Analytics.InsertByMovement | src/hooks/useAnalytics.ts:165 | defines one insertion step of the sort; InsertKeepsOrder, InsertKeepsItems and InsertIsStable state its properties |
| Analytics.SortByMovement | src/hooks/useAnalytics.ts:165 | defines the descending sort by total movement; SortIsOrdered, SortIsPermutation, SortKeepsRefs, SortKeepsTallies and SortIsStable state its properties |
| Analytics.InsertKeepsItems | src/hooks/useAnalytics.ts:165 | inserting adds exactly the one item |
| Analytics.SortIsOrdered | src/hooks/useAnalytics.ts:165 | the sorted list is non-increasing by total movement |
| Analytics.SortIsPermutation | src/hooks/useAnalytics.ts:165 | the sorted list is a permutation of its input |
| Analytics.SortKeepsRefs | src/hooks/useAnalytics.ts:165 | sorting keeps the same medicines |
| Analytics.SortKeepsTallies | src/hooks/useAnalytics.ts:165 | sorting keeps the length and each item's total |
| Analytics.InsertIsStable | src/hooks/useAnalytics.ts:165 | an inserted item comes before every item with its total that was already placed, and changes no other total group |
| Analytics.SortIsStable | src/hooks/useAnalytics.ts:165 | the sort is stable: for each total, the items with that total are in their original order |
| Analytics.WithTotalIgnoresLabels | src/hooks/useAnalytics.ts:167-173 | relabelling fast and slow leaves the medicines of each total where they were |
| Analytics.CollectWithTotal | src/hooks/useAnalytics.ts:157-164 | the collected items with a given total are the medicines, in query order, whose movements add up to it |
| Analytics.LabelHalves | src/hooks/useAnalytics.ts:167-173 | items from index floor(n/2) on become slow and the rest are unchanged |
| Analytics.MovingItems | src/hooks/useAnalytics.ts:147-173 | the items are exactly the medicines that moved, each with its total over both directions; the list is non-increasing; items with equal totals keep query order; the first floor(n/2) items are fast and the rest slow |
| Analytics.MidpointSplit | src/hooks/useAnalytics.ts:168-173 | a single item is slow; with two or more, the first is fast and the last slow |
| Analytics.ExpiryLoss | src/hooks/useAnalytics.ts:194-205 | one result per query row, in query order, keeping its id, name, date text, quantity and price; days until expiry is the expiry day less today and the loss is quantity times price |
| Analytics.ExpiryCandidate | src/hooks/useAnalytics.ts:188-189 | defines the query filter (expiring within thirty days, stock on hand); ExpiryLossBounds states what the selected rows give |
| Analytics.ExpiryLossOf | src/hooks/useAnalytics.ts:194-204 | defines the result for one row; ExpiryLoss states each of its fields |
| Analytics.ExpiryLossBounds | src/hooks/useAnalytics.ts:185-203 | for rows the query selects, days until expiry is at most 30 and the loss is quantity times price, at least the price when that is positive |
| Analytics.ExpiryLossOrdered | src/hooks/useAnalytics.ts:190-195 | rows ordered by expiry date give non-decreasing day counts |
| Analytics.RoundDiv | src/hooks/useAnalytics.ts:249 | `Math.round(a / b)` for b > 0 is the integer nearest a / b, halves rounded up |
| Analytics.RoundDivUnique | src/hooks/useAnalytics.ts:249 | the nearest integer is unique |
| Analytics.OrdersOf | src/hooks/useAnalytics.ts:226 | an order is among the supplier's orders exactly when it is among all orders and carries the supplier's id |
| Analytics.OrdersOfInOrder | src/hooks/useAnalytics.ts:226 | a supplier's orders keep the query order |
| Analytics.Delivered | src/hooks/useAnalytics.ts:227 | an order is delivered exactly when it is among the given ones with status "delivered" |
| Analytics.DeliveredInOrder | src/hooks/useAnalytics.ts:227 | the delivered orders keep their order |
| Analytics.AverageDeliveryDays | src/hooks/useAnalytics.ts:230-249 | 0 without dated deliveries; otherwise the rounded mean of the delivery days of the delivered orders carrying both dates |
| Analytics.DaySumBounds | src/hooks/useAnalytics.ts:233-242 | if every dated delivery took between lo and hi days, the day total lies between count × lo and count × hi |
| Analytics.AverageWithinBounds | src/hooks/useAnalytics.ts:230-249 | the rounded average lies between the shortest and longest delivery |
| Analytics.SupplierPerformanceOf | src/hooks/useAnalytics.ts:225-252 | one row per supplier, in order, with its order count, its delivered count (never more than the total), the summed amount and the average delivery days |
| Analytics.OrderCountsAddUp | src/hooks/useAnalytics.ts:225-226 | the suppliers' order counts add up to all orders less those whose supplier id names none of them, so unmatched orders are counted for nobody |
| Analytics.ExpiryCountsDisjoint | src/hooks/useAnalytics.ts:326-329 | expired (on or before today) and expiring soon (after today, within 30 days) never overlap, so together they are at most the total |
| Analytics.LowStockAtMostAll | src/hooks/useAnalytics.ts:325 | the low-stock count is at most the number of medicines |
| Analytics.LowStockIsStrict | src/hooks/useAnalytics.ts:325 | a medicine adds one to the low-stock count exactly when its stock is above zero and strictly below its minimum; otherwise it adds nothing |
| Analytics.DashboardStatsOf | src/hooks/useAnalytics.ts:322-353 | the total is the number of medicines; total stock, stock value and today's sales are the sums of quantities, quantity times price and sale amounts; low-stock, expired and expiring-soon are the counts of rows meeting each rule; expired plus expiring soon fit in the total; the low-stock count is between 0 and it |
| Analytics.StockSum | src/hooks/useAnalytics.ts:323 | defines the total stock; DashboardStatsOf states that the dashboard reports it |
| Analytics.ValueSum | src/hooks/useAnalytics.ts:324 | defines the total stock value; DashboardStatsOf states that the dashboard reports it |
| Analytics.LowStockCount | src/hooks/useAnalytics.ts:325 | defines the low-stock count; LowStockAtMostAll, LowStockIsStrict and DashboardStatsOf state its properties |
| Analytics.IsLowStock | src/hooks/useAnalytics.ts:325 | defines the low-stock test; LowStockIsStrict states both directions of it through LowStockCount |
| Analytics.IsExpired | src/hooks/useAnalytics.ts:326 | defines the expired test; ExpiryCountsDisjoint states that it excludes IsExpiringSoon |
| Analytics.IsExpiringSoon | src/hooks/useAnalytics.ts:327-329 | defines the expiring-soon test; ExpiryCountsDisjoint states that it excludes IsExpired |
| Analytics.ExpiredCount | src/hooks/useAnalytics.ts:326 | defines the expired count; ExpiryCountsDisjoint and DashboardStatsOf state its properties |
| Analytics.ExpiringSoonCount | src/hooks/useAnalytics.ts:327-329 | defines the expiring-soon count; ExpiryCountsDisjoint and DashboardStatsOf state its properties |
| Analytics.SalesSum | src/hooks/useAnalytics.ts:343 | defines today's sales total; DashboardStatsOf states that the dashboard reports it |
| ProtectedRoute.LoadingFirst | src/components/auth/ProtectedRoute.tsx:20-29 | the spinner shows iff auth is loading, before any other check |
| ProtectedRoute.SignedOutRedirects | src/components/auth/ProtectedRoute.tsx:32-34 | the redirect to /auth happens iff loading is done and there is no user |
| ProtectedRoute.NonStaffPending | src/components/auth/ProtectedRoute.tsx:37-59 | pending approval shows iff a signed-in user is not staff, whatever roles are required |
| ProtectedRoute.NoRolesRequired | src/components/auth/ProtectedRoute.tsx:62-89 | a staff user is granted when no roles or an empty list are required |
| ProtectedRoute.RoleModes | src/components/auth/ProtectedRoute.tsx:15-89 | any-of mode, the default, grants iff some required role is held; all-of mode grants iff every one is; otherwise access is denied |
| ProtectedRoute.MoreRolesKeepGrant | src/components/auth/ProtectedRoute.tsx:63-65 | holding more roles never turns a grant into a denial |
| ProtectedRoute.SingleRoleModesAgree | src/components/auth/ProtectedRoute.tsx:63-65 | with one required role, any-of, all-of and the default decide alike |
| ProtectedRoute.HasAccess | src/components/auth/ProtectedRoute.tsx:62-66 | defines the role check; RoleModes, MoreRolesKeepGrant, SingleRoleModesAgree and NoRolesRequired state its properties through Decide |
| ProtectedRoute.Decide | src/components/auth/ProtectedRoute.tsx:20-89 | defines the gate's decision in order; LoadingFirst, SignedOutRedirects, NonStaffPending, NoRolesRequired and RoleModes state each branch |
| AppRoutes.UnguardedPaths | src/App.tsx:29-71 | /auth and unknown paths show their page even while loading or signed out |
| AppRoutes.StaffOnlyPaths | src/App.tsx:30-59 | /, /alerts and /reports are granted iff the user is signed-in staff |
| AppRoutes.InventoryPaths | src/App.tsx:35-49 | for staff, /medicines, /stock-in and /stock-out are granted iff admin, pharmacist or store manager is held |
| AppRoutes.AdministrationPaths | src/App.tsx:60-69 | for staff, /suppliers needs admin or store manager, and /settings needs admin |
| AppRoutes.AdminEverywhere | src/App.tsx:29-71 | an admin staff user is granted every path |
| AppRoutes.DoctorOnlyDenied | src/App.tsx:35-69 | a staff user whose only role is doctor is denied medicines, stock-in, stock-out, suppliers and settings |
| AppRoutes.PageFor | src/App.tsx:29-71 | defines which page each path shows; UnguardedPaths and the path lemmas state its properties through Navigate |
| AppRoutes.GuardFor | src/App.tsx:30-69 | defines the gate props each page is declared with; StaffOnlyPaths, InventoryPaths and AdministrationPaths state their effect |
| AppRoutes.Navigate | src/App.tsx:29-71 | defines what navigating to a path shows; UnguardedPaths, StaffOnlyPaths, InventoryPaths, AdministrationPaths, AdminEverywhere and DoctorOnlyDenied state its properties |
| MedicineTable.Filtered | src/components/medicines/MedicineTable.tsx:50-59 | every shown medicine is in the list and passes the search, category and status tests, so the shown count is at most the total |
| MedicineTable.FilteredComplete | src/components/medicines/MedicineTable.tsx:50-59 | every listed medicine that passes the tests is shown |
| MedicineTable.FilteredIsSubsequence | src/components/medicines/MedicineTable.tsx:50 | the shown list keeps the list order |
| MedicineTable.FilteredIdempotent | src/components/medicines/MedicineTable.tsx:50-59 | filtering the shown list again changes nothing |
| MedicineTable.NoFilterShowsAll | src/components/medicines/MedicineTable.tsx:51-56 | an empty search with both filters on "all" shows every medicine |
| MedicineTable.Matches | src/components/medicines/MedicineTable.tsx:51-58 | defines the three filters; Filtered and FilteredComplete state that exactly the matching medicines are shown |
| MedicineTableEnhanced.NextSort | src/components/medicines/MedicineTableEnhanced.tsx:83-90 | sorting a column selects it; the same column flips the order, a new column sorts ascending |
| MedicineTableEnhanced.ToggleTwice | src/components/medicines/MedicineTableEnhanced.tsx:83-90 | clicking the sorted column twice restores the sort |
| MedicineTableEnhanced.PageCount | src/components/medicines/MedicineTableEnhanced.tsx:62-76 | the page count is the ceiling of count / 10: enough pages for every row, and no empty last page |
| MedicineTableEnhanced.PageWindowShape | src/components/medicines/MedicineTableEnhanced.tsx:293-303 | the window holds min(5, pages) consecutive page numbers |
| MedicineTableEnhanced.PageWindowInRange | src/components/medicines/MedicineTableEnhanced.tsx:293-303 | for a valid current page, every window number is a real page and the window contains the current page |
| MedicineTableEnhanced.PageNumber | src/components/medicines/MedicineTableEnhanced.tsx:294-303 | defines the number on each page link; PageWindowShape and PageWindowInRange state its properties through PageWindow |
| MedicineTableEnhanced.PageWindow | src/components/medicines/MedicineTableEnhanced.tsx:293-303 | defines the page window; PageWindowShape and PageWindowInRange state its properties |
| MedicineTableEnhanced.ColumnOf | src/components/medicines/MedicineTableEnhanced.tsx:48 | defines the column name each sort field passes to the hook; TableState.Options states that it is used |
| MedicineTableEnhanced.TableState.constructor | src/components/medicines/MedicineTableEnhanced.tsx:56-62 | starts on page 1, sorted by name ascending, with no search and the "all" filters |
| MedicineTableEnhanced.TableState.Options | src/components/medicines/MedicineTableEnhanced.tsx:66-74 | the hook is asked for the current page in pages of 10, sorted by the column name of the current sort field in the current order, with the current search term and both filters passed through unchanged |
| MedicineTableEnhanced.TableState.HandleSort | src/components/medicines/MedicineTableEnhanced.tsx:83-90 | the sort becomes the next sort for the column, and nothing else changes |
| MedicineTableEnhanced.TableState.Previous | src/components/medicines/MedicineTableEnhanced.tsx:288 | moves back one page but never below 1 |
| MedicineTableEnhanced.TableState.Next | src/components/medicines/MedicineTableEnhanced.tsx:319 | moves forward one page but never beyond the page count |
| MedicineTableEnhanced.TableState.GoTo | src/components/medicines/MedicineTableEnhanced.tsx:307 | a window link jumps to its page |
| MedicineTableEnhanced.TableState.SetFilters | src/components/medicines/MedicineTableEnhanced.tsx:78-81 | changing search, category or status resets to page 1; re-setting the same values keeps the page |
| MedicineTableEnhanced.TableState.Loaded | src/components/medicines/MedicineTableEnhanced.tsx:66-76 | a new count from the hook changes only the count |
| MedicineTableEnhanced.TableState.ShowsPagination | src/components/medicines/MedicineTableEnhanced.tsx:283 | the pagination is shown exactly when the count exceeds one page of 10 |
| StockOperationForm.FindMedicine | src/components/stock/StockOperationForm.tsx:38 | finds the first medicine with the id, and finds nothing iff none has it |
| StockOperationForm.Validate | src/components/stock/StockOperationForm.tsx:40-59 | defines the submit checks in order; SubmittedIsValid, StockInUnbounded and StockOutPreviewNonNegative state their properties |
| StockOperationForm.SubmittedIsValid | src/components/stock/StockOperationForm.tsx:43-50 | a submission goes through only with a selected medicine and a positive quantity |
| StockOperationForm.StockInUnbounded | src/components/stock/StockOperationForm.tsx:52-59 | stock-in is never rejected for insufficient stock, and any selected medicine with a positive quantity submits |
| StockOperationForm.StockOutPreviewNonNegative | src/components/stock/StockOperationForm.tsx:52-59 | a stock-out that submits leaves a non-negative remaining quantity in the preview |
| StockOperationForm.Preview | src/components/stock/StockOperationForm.tsx:166-168 | the preview is current plus quantity for stock-in and current minus quantity for stock-out |
| StockOperationForm.PickerMatches | src/components/stock/StockOperationForm.tsx:33-36 | defines the picker search; PickerFiltered, PickerInOrder and PickerIgnoresBatch state its properties |
| StockOperationForm.PickerFiltered | src/components/stock/StockOperationForm.tsx:33-36 | a medicine is listed exactly when it is in the list and its name or generic name contains the search, ignoring case |
| StockOperationForm.PickerInOrder | src/components/stock/StockOperationForm.tsx:33-36 | the picker keeps the list order |
| StockOperationForm.PickerIgnoresBatch | src/components/stock/StockOperationForm.tsx:33-36 | changing one medicine's batch number keeps whether it matches, and the picker lists the same medicines in the same order apart from batch numbers |
| StockOperationForm.EmptyPickerSearch | src/components/stock/StockOperationForm.tsx:30-36 | an empty picker search lists every medicine |
| StockOperationForm.Form.constructor | src/components/stock/StockOperationForm.tsx:26-30 | the form starts with no medicine, quantity 0 and empty batch, reason and search |
| StockOperationForm.Form.SetQuantity | src/components/stock/StockOperationForm.tsx:160 | an unparsable or zero quantity is stored as 0 |
| StockOperationForm.Form.HandleSubmit | src/components/stock/StockOperationForm.tsx:40-71 | returns the validation verdict; a submission resets medicine, quantity, batch and reason; a rejection changes nothing; no inventory is touched |
| StockOperationForm.Form.Clear | src/components/stock/StockOperationForm.tsx:205-210 | resets the same four fields as a successful submission |
| QuickStockScanner.ProceedOnlyWhenValid | src/components/barcode/QuickStockScanner.tsx:77-107 | an operation is requested only for a scanned medicine and a quantity that parses to a positive number, at most the scanned stock for a stock-out; it carries the medicine's batch, and a reason defaulting to "Quick <type> via barcode" |
| QuickStockScanner.DefaultReason | src/components/barcode/QuickStockScanner.tsx:105 | defines the reason sent when none was typed; ProceedOnlyWhenValid states that a request never carries an empty reason |
| QuickStockScanner.Decide | src/components/barcode/QuickStockScanner.tsx:77-107 | defines the checks of the submit handler and the request it builds; ProceedOnlyWhenValid, DefaultQuantityIsOne and SnapshotCheckKeepsStock state its properties |
| QuickStockScanner.DefaultQuantityIsOne | src/components/barcode/QuickStockScanner.tsx:37-80 | the initial quantity text "1" is accepted as one unit |
| QuickStockScanner.SnapshotCheckKeepsStock | src/components/barcode/QuickStockScanner.tsx:90-107 | whatever the scanned snapshot said, the stock operation it requests never leaves a negative quantity |
| QuickStockScanner.Scanner.constructor | src/components/barcode/QuickStockScanner.tsx:35-40 | starts closed, with no medicine, quantity "1", no reason and not loading |
| QuickStockScanner.Scanner.HandleScan | src/components/barcode/QuickStockScanner.tsx:44-75 | a found medicine is selected and the scanner closes; not found or a failed lookup leaves the selection; searching ends; quantity, reason and the loading flag are unchanged |
| QuickStockScanner.Scanner.HandleSubmit | src/components/barcode/QuickStockScanner.tsx:77-130 | a rejected submission leaves the inventory alone; otherwise the inventory takes one stock-operation step; success resets medicine, quantity and reason, failure keeps them; the scanner and searching flags are unchanged |
| QuickStockScanner.Scanner.HandleClose | src/components/barcode/QuickStockScanner.tsx:132-137 | resets medicine, quantity and reason; the loading, searching and scanner flags are unchanged |
| MedicinesPage.Without | src/pages/Medicines.tsx:25-26 | deletion keeps only medicines with another id, all taken from the list |
| MedicinesPage.WithoutKeepsOthers | src/pages/Medicines.tsx:26 | every medicine with another id survives deletion |
| MedicinesPage.WithoutInOrder | src/pages/Medicines.tsx:26 | the medicines that stay keep their order |
| MedicinesPage.WithoutAbsentId | src/pages/Medicines.tsx:26 | deleting an id nobody has leaves the list as it was |
| MedicinesPage.Apply | src/pages/Medicines.tsx:45 | an edit keeps the id, status and creation time and stamps the update time; each supplied field replaces the old value and each omitted field keeps it |
| MedicinesPage.Edited | src/pages/Medicines.tsx:43-47 | an edit keeps the length and changes only entries with the selected id |
| MedicinesPage.EditKeepsIds | src/pages/Medicines.tsx:43-47 | an edit never changes any id |
| MedicinesPage.NewMedicine | src/pages/Medicines.tsx:55-71 | a new medicine takes the given id and time and status in-stock; each of the ten data fields is the supplied value, or "" or 0 when omitted; the barcode is passed through |
| MedicinesPage.AddedIsAlwaysInStock | src/pages/Medicines.tsx:68 | a medicine added with zero quantity is still marked in-stock |
| MedicinesPage.AddLosesDialogFields | src/pages/Medicines.tsx:55-66 | as written, for every dialog submission, a medicine added through the dialog has an empty generic name, batch and expiry date and a zero minimum level and price, so a typed batch or non-zero price never survives |
| MedicinesPage.AddLosesTypedValues | src/pages/Medicines.tsx:55-66 | an example: a dialog with batch "B-17", minimum 10, price 250, an expiry and a generic name gives a medicine that differs from it in all five |
| MedicinesPage.EditIgnoresDialogFields | src/pages/Medicines.tsx:43-47 | as written, an edit through the dialog keeps the old generic name, batch, minimum level, price and expiry date whatever was typed |
| MedicinesPage.AddKeepsDialogFields | src/components/medicines/MedicineFormDialog.tsx:38-50 | with the corrected field mapping, every dialog field reaches the new medicine |
| MedicinesPage.EditKeepsDialogFields | src/pages/Medicines.tsx:43-47 | with the corrected mapping, an edit through the dialog stores the typed batch, minimum, price, expiry and generic name |
| MedicinesPage.PatchAsWritten | src/pages/Medicines.tsx:40-66 | defines the submission as the page reads it; AddLosesDialogFields and EditIgnoresDialogFields state what it loses |
| MedicinesPage.DialogPatch | src/components/medicines/MedicineFormDialog.tsx:38-50 | defines the submission with every dialog field under its page name; AddKeepsDialogFields and EditKeepsDialogFields state what it keeps |
| MedicinesPage.Page.constructor | src/pages/Medicines.tsx:11-13 | starts with the given medicines, the dialog closed and nothing selected |
| MedicinesPage.Page.HandleAddNew | src/pages/Medicines.tsx:15-18 | clears the selection and opens the dialog, so the next submit adds |
| MedicinesPage.Page.HandleEdit | src/pages/Medicines.tsx:20-23 | selects the medicine and opens the dialog, so the next submit edits |
| MedicinesPage.Page.HandleDelete | src/pages/Medicines.tsx:25-31 | the list loses every medicine with that id |
| MedicinesPage.Page.HandleSubmit | src/pages/Medicines.tsx:40-78 | with a selection, edits that entry in place; without one, prepends exactly one new medicine |
| MedicinesPage.Page.SubmitDialog | src/pages/Medicines.tsx:40-78 | the corrected submission path: an add prepends the medicine built from the full dialog patch, which keeps the typed batch; an edit applies the full dialog patch; the selection and dialog flag are unchanged |
| AlertsPage.MarkedRead | src/pages/Alerts.tsx:52-56 | marks read exactly the alerts with the id, keeping length and order |
| AlertsPage.AllRead | src/pages/Alerts.tsx:58-59 | marks every alert read, keeping length and order |
| AlertsPage.MarkedReadIdempotent | src/pages/Alerts.tsx:52-56 | marking the same alert read twice is the same as once |
| AlertsPage.MarkedReadOnlyTouchesId | src/pages/Alerts.tsx:52-56 | other alerts are untouched, and the marked ones are read |
| AlertsPage.AllReadLeavesNoneUnread | src/pages/Alerts.tsx:58-66 | after marking all read the unread list is empty |
| AlertsPage.MarkedReadShrinksUnread | src/pages/Alerts.tsx:52-66 | marking one read removes exactly the unread alerts with that id from the unread tab, and never grows it |
| AlertsPage.TabsAtMostAll | src/pages/Alerts.tsx:67-68 | expiry and stock tabs are disjoint, so together they hold at most all alerts, and fewer when any system alert exists |
| AlertsPage.Unread | src/pages/Alerts.tsx:66 | defines the unread alerts; AllReadLeavesNoneUnread and MarkedReadShrinksUnread state its properties |
| AlertsPage.ExpiryTab | src/pages/Alerts.tsx:67 | defines the expiry tab; TabsAtMostAll states its bound |
| AlertsPage.StockTab | src/pages/Alerts.tsx:68 | defines the stock tab; TabsAtMostAll states its bound |
| AlertsPage.Page.constructor | src/pages/Alerts.tsx:15 | starts with the given alerts |
| AlertsPage.Page.MarkAsRead | src/pages/Alerts.tsx:52-56 | the alerts become those with the one id marked read |
| AlertsPage.Page.MarkAllAsRead | src/pages/Alerts.tsx:58-64 | every alert becomes read and none is left unread |
| ExpiryBadge.BadgeFor | src/components/medicines/ExpiryBadge.tsx:10-87 | the tone bands partition the inputs: invalid or over 90 days muted, negative expired, 0..7 critical, 8..30 warning, 31..90 low stock; an invalid date says "Invalid Date" |
| ExpiryBadge.OnlyInvalidDateSaysSo | src/components/medicines/ExpiryBadge.tsx:13-19 | no valid day count is labelled "Invalid Date" |
| ExpiryBadge.ExpiredLabel | src/components/medicines/ExpiryBadge.tsx:26-35 | a negative count reads "Expired " followed by its absolute value |
| ExpiryBadge.DayLabelShowsCount | src/components/medicines/ExpiryBadge.tsx:48-79 | between 1 and 90 days, the label starts with the day count itself |
| ExpiryBadge.SingularOnlyForOne | src/components/medicines/ExpiryBadge.tsx:48-57 | "day" is singular exactly for one day |
| ExpiryBadge.MonthLabel | src/components/medicines/ExpiryBadge.tsx:81-86 | past 90 days the label counts whole 30-day months, always at least 3, as "N months left" |
| ExpiryLossTable.TotalLossAppend | src/components/analytics/ExpiryLossTable.tsx:22 | the total of two runs of rows is the sum of their totals |
| ExpiryLossTable.TotalLossBounds | src/components/analytics/ExpiryLossTable.tsx:22 | with no negative loss, the total is non-negative and at least every single loss |
| ExpiryLossTable.QueryTotalBoundsEachLoss | src/components/analytics/ExpiryLossTable.tsx:22 | for the rows the expiry query yields, the headline total bounds every row's loss |
| ExpiryLossTable.SeverityOf | src/components/analytics/ExpiryLossTable.tsx:46-56 | the four bands partition the day counts: ≤ 0 expired, 1..7 critical, 8..14 warning, ≥ 15 soon |
| ExpiryLossTable.SeverityMonotone | src/components/analytics/ExpiryLossTable.tsx:46-56 | fewer days left never gives a milder badge |
| ExpiryLossTable.ExpiryDayDisagreesWithBadge | src/components/analytics/ExpiryLossTable.tsx:47-48 | on the expiry day this table says "Expired" while the inventory badge says "Expires Today" |
| ExpiryLossTable.TotalLoss | src/components/analytics/ExpiryLossTable.tsx:22 | defines the total potential loss; TotalLossAppend, TotalLossBounds and QueryTotalBoundsEachLoss state its properties |
| ExpiryLossTable.Cells | src/components/analytics/ExpiryLossTable.tsx:27-34 | six cells per row, one per header column; CellsPlain, CellsReadBack and ExportColumns state their properties |
| ExpiryLossTable.DataRows | src/components/analytics/ExpiryLossTable.tsx:27-34 | one row of cells per data row, in order |
| ExpiryLossTable.ExportCsv | src/components/analytics/ExpiryLossTable.tsx:25-37 | defines the exported text; ExportColumns states its properties |
| ExpiryLossTable.CellsPlain | src/components/analytics/ExpiryLossTable.tsx:26-33 | the rendered numbers and amounts hold no comma or line break, so a row is separator-free when its name and date are |
| ExpiryLossTable.CellsReadBack | src/components/analytics/ExpiryLossTable.tsx:28-31 | the quantity and day columns read back as the row's numbers; the price and loss columns are the row's price and loss in dollars |
| ExpiryLossTable.ExportColumns | src/components/analytics/ExpiryLossTable.tsx:24-37 | with separator-free names and dates, the export has one line per row after the header; each line splits back into exactly that row's six cells in header order; the numeric columns read back as the row's values and the money columns are its price and loss in dollars |
| SupplierPerformanceTable.DeliveryRate | src/components/analytics/SupplierPerformanceTable.tsx:96-99 | with orders, the rate is the nearest whole percent of delivered over total; without, 0 |
| SupplierPerformanceTable.DeliveryRateBounds | src/components/analytics/SupplierPerformanceTable.tsx:96-99 | when delivered ≤ total the rate is between 0 and 100, exactly 100 when all were delivered, and 0 when none were |
| SupplierPerformanceTable.QueryRatesArePercentages | src/components/analytics/SupplierPerformanceTable.tsx:96-99 | every row with delivered ≤ total has a rate between 0 and 100 |
| SupplierPerformanceTable.RatingOf | src/components/analytics/SupplierPerformanceTable.tsx:45-55 | the four bands partition the rates: ≥ 90 excellent, 70..89 good, 50..69 average, below 50 poor |
| SupplierPerformanceTable.RatingMonotone | src/components/analytics/SupplierPerformanceTable.tsx:45-55 | a higher rate never gets a worse rating |
| SupplierPerformanceTable.PerformanceCell | src/components/analytics/SupplierPerformanceTable.tsx:105-107 | defines the performance cell; PerformanceCellShape states its properties |
| SupplierPerformanceTable.AvgDaysCell | src/components/analytics/SupplierPerformanceTable.tsx:108-110 | defines the average-days cell; AvgDaysCellShape states its properties |
| SupplierPerformanceTable.RateCell | src/components/analytics/SupplierPerformanceTable.tsx:28-30 | defines the exported rate cell; RateCellShape states its properties |
| SupplierPerformanceTable.Cells | src/components/analytics/SupplierPerformanceTable.tsx:24-33 | six cells per row, one per header column; CellsPlain, CellsReadBack and ExportColumns state their properties |
| SupplierPerformanceTable.DataRows | src/components/analytics/SupplierPerformanceTable.tsx:24-33 | one row of cells per supplier, in order |
| SupplierPerformanceTable.ExportCsv | src/components/analytics/SupplierPerformanceTable.tsx:22-36 | defines the exported text; ExportColumns states its properties |
| SupplierPerformanceTable.PerformanceCellShape | src/components/analytics/SupplierPerformanceTable.tsx:105-107 | the performance cell is "-" iff there are no orders; a supplier who delivered everything is excellent |
| SupplierPerformanceTable.AvgDaysCellShape | src/components/analytics/SupplierPerformanceTable.tsx:108-110 | a positive average shows its own day count, anything else a dash |
| SupplierPerformanceTable.RateCellShape | src/components/analytics/SupplierPerformanceTable.tsx:28-30 | the export's rate cell is "N/A" iff there are no orders, and otherwise reads back as the rate |
| SupplierPerformanceTable.CellsPlain | src/components/analytics/SupplierPerformanceTable.tsx:25-33 | the rendered counts, rate and amount hold no comma or line break, so a row is separator-free when its name is |
| SupplierPerformanceTable.CellsReadBack | src/components/analytics/SupplierPerformanceTable.tsx:25-32 | the order counts and average read back as the row's numbers; the rate cell is "N/A" exactly without orders and otherwise reads back as the rounded delivery rate; the amount cell is the total in dollars |
| SupplierPerformanceTable.ExportColumns | src/components/analytics/SupplierPerformanceTable.tsx:21-36 | with separator-free names, the export has one line per supplier after the header; each line splits back into exactly that supplier's six cells; the counts read back; the rate column is "N/A" exactly without orders and otherwise reads back as the rounded delivery rate; the amount column is the total in dollars |
| Csv.Lines | src/components/analytics/ExpiryLossTable.tsx:36 | each row becomes its cells joined by commas |
| Csv.RenderSplits | src/components/analytics/ExpiryLossTable.tsx:25-37 | when no cell holds a separator, splitting the export at line breaks and then commas gives the table back |
| Csv.UnquotedCommaSplitsCell | src/components/analytics/ExpiryLossTable.tsx:27-36 | for any separator-free strings a, b and c, a row whose first cell is a + "," + b comes back as the three cells a, b, c, because the export does not quote |
| Text.Lower | src/components/medicines/MedicineTable.tsx:51-53 | lower-casing keeps the length and maps each character |
| Text.ContainsIgnoreCase | src/components/medicines/MedicineTable.tsx:51-53 | defines `toLowerCase().includes(...)`, also used by the picker search of StockOperationForm.tsx:33-36; EmptyNeedle states that the empty term is found in every string |
| Text.EmptyNeedle | src/components/medicines/MedicineTable.tsx:51-53 | every text contains the empty search |
| Text.NatToString | src/components/analytics/ExpiryLossTable.tsx:29 | a count renders as a non-empty run of digits, one digit exactly below 10 |
| Text.IntToString | src/components/analytics/ExpiryLossTable.tsx:32 | an integer renders as a non-empty string whose first character is a minus sign exactly when the integer is negative, all other characters being digits |
| Text.Dollars | src/components/analytics/ExpiryLossTable.tsx:30-33 | a dollar amount starts with "$" and never holds a comma or line break |
| Text.DollarsReadBack | src/components/analytics/ExpiryLossTable.tsx:30-33 | after the "$", the minus sign appears exactly for negative amounts and the text reads back as the whole-dollar part of the amount, sign included |
| Text.DollarsCents | src/components/analytics/ExpiryLossTable.tsx:30-33 | the last three characters are "." and the two cent digits of the amount, as `toFixed(2)` prints them |
| Text.NaNExactly | src/components/barcode/QuickStockScanner.tsx:80-81 | `parseInt` is NaN iff no digit follows the optional sign |
| Text.ParseInt | src/components/barcode/QuickStockScanner.tsx:80 | defines `parseInt`, also used by the quantity field of StockOperationForm.tsx:160; NaNExactly, ParseIntToString, ParseLeadingCount, ParseLeadingNegative and ParseLeadingInt state its properties |
| Text.ParseLeadingNegative | src/components/analytics/ExpiryLossTable.tsx:31 | a minus sign before a rendered count followed by a non-digit reads back as the negated count |
| Text.ParseIntToString | src/components/analytics/ExpiryLossTable.tsx:28-31 | `parseInt` reads the rendering of any integer back as that integer |
| Text.ParseLeadingCount | src/components/barcode/QuickStockScanner.tsx:80 | parsing a rendered count followed by a non-digit gives the count back |
| Text.ParseLeadingInt | src/components/analytics/SupplierPerformanceTable.tsx:29 | parsing a rendered integer followed by a non-digit gives the integer back, sign included |

## Left out

- Date arithmetic is not modelled: `new Date`, `setHours`, the millisecond ceiling in the status rule, date-fns `differenceInDays`, `parseISO`, `format` and time zones. Day counts are integers supplied by the caller. `differenceInDays` against the current time of day can differ by one from the midnight-based count; that difference is not modelled.
- Floating point is not modelled. Prices and amounts are integer cents, so `toFixed(2)` is exact. `toLocaleString` formatting is not modelled.
- SupplierPerformanceTable.DeliveryRate: computed exactly on rationals. The source's floating-point `(delivered / total) * 100` can round differently at exact halves.
- The `inventoryCost` column of the revenue data is not modelled. It divides a floating-point total evenly across days. Only the revenue bucketing is.
- Category distribution is listed in first-seen order. `Object.entries` puts integer-like keys first in ascending order; that ordering is not modelled.
- Analytics.MovingItems: the sort is modelled as a stable insertion sort, as ECMAScript 2019 and later require of `Array.prototype.sort`. An older engine with an unstable sort could order equal totals differently and so move an item across the fast/slow split.
- Query execution is not modelled: PostgREST filter syntax, `ilike` wildcards inside a search term, sorting and range slicing. The hook's contract stops at the query it builds.
- `deleteMedicine` and the `addMedicine`/`updateMedicine` round trips to the database are not modelled beyond the row and payload they send. They are backend calls followed by a refetch.
- Case folding covers ASCII letters only. Full Unicode lower-casing is not modelled.
- MedicinesPage.MedicinePartial: a submission carries only the eleven fields the form dialog can send. `Partial<Medicine>` also admits `id`, `status`, `createdAt` and `updatedAt`; a caller passing those would overwrite them in an edit. So MedicinesPage.Apply and MedicinesPage.EditKeepsIds hold for the dialog's submissions only.
- Text.ParseInt: leading whitespace and `0x` prefixes, which `parseInt` also accepts, are not modelled.
- AppRoutes.PageFor matches paths exactly. React Router's case-insensitive and trailing-slash matching is not modelled.
- ExpiryBadge.BadgeFor: its own contract states the "Invalid Date" label in one direction only. The converse is the separate lemma `ExpiryBadge.OnlyInvalidDateSaysSo`.
- The auth context is an input. The user, roles, `isStaff` and the loading flag come as a `Session`.
- The barcode camera scanner and the product lookup are not modelled. A scan is given as its lookup outcome.
- QuickStockScanner.Scanner.HandleSubmit: the `catch` branch for an exception thrown by the stock operation is not modelled. The operation reports failure through its result instead.
- Toasts, debouncing, React effects, navigation callbacks (`onComplete`, `onClose`), browser `required`/`min` validation, charts and PNG export are not modelled.
- Concurrency is not modelled. Two sessions doing read-then-write on the same medicine can race.

## Findings

| source | as written | input that shows it | evidently intended | confidence | as-written member | corrected member |
|---|---|---|---|---|---|---|
| src/pages/Medicines.tsx:55-66 | The form dialog (src/components/medicines/MedicineFormDialog.tsx) submits snake_case keys (`batch_number`, `min_stock_level`, `unit_price`, `expiry_date`, `generic_name`). The page reads camelCase keys, so those five fields are dropped on add and ignored on edit. | Add "Amoxicillin" with batch "B-17", minimum 10, price 250, expiry "2026-01-31": the stored medicine has generic name "", batch "", minimum 0, price 0 and expiry "". Editing with the same values leaves the old ones in place. | Every field typed into the dialog is stored. | high, not executed | MedicinesPage.AddLosesDialogFields | MedicinesPage.AddKeepsDialogFields |

=== FILE: alerts_page.dfy ===
/**
 * The alerts page: marking one alert or all alerts as read, and the
 * unread, expiry and stock tabs.
 */
module AlertsPage {
  import opened Domain

  /** `prev.map(a => a.id === id ? { ...a, isRead: true } : a)` */
  function MarkedRead(alerts: seq<Alert>, id: string): (r: seq<Alert>)
    ensures |r| == |alerts|
    ensures forall i :: 0 <= i < |alerts| ==> r[i] == if alerts[i].id == id then alerts[i].(isRead := true) else alerts[i]
  {
    seq(|alerts|, i requires 0 <= i < |alerts| => if alerts[i].id == id then alerts[i].(isRead := true) else alerts[i])
  }

  /** `prev.map(a => ({ ...a, isRead: true }))` */
  function AllRead(alerts: seq<Alert>): (r: seq<Alert>)
    ensures |r| == |alerts|
    ensures forall i :: 0 <= i < |alerts| ==> r[i] == alerts[i].(isRead := true)
  {
    seq(|alerts|, i requires 0 <= i < |alerts| => alerts[i].(isRead := true))
  }

  function Unread(alerts: seq<Alert>): seq<Alert> {
    if alerts == [] then []
    else (if !alerts[0].isRead then [alerts[0]] else []) + Unread(alerts[1..])
  }

  function ExpiryTab(alerts: seq<Alert>): seq<Alert> {
    if alerts == [] then []
    else (if alerts[0].kind == ExpiryAlert then [alerts[0]] else []) + ExpiryTab(alerts[1..])
  }

  function StockTab(alerts: seq<Alert>): seq<Alert> {
    if alerts == [] then []
    else (if alerts[0].kind == LowStockAlert || alerts[0].kind == OutOfStockAlert then [alerts[0]] else [])
         + StockTab(alerts[1..])
  }

  /** Marking the same alert read twice is the same as once. */
  lemma MarkedReadIdempotent(alerts: seq<Alert>, id: string)
    ensures MarkedRead(MarkedRead(alerts, id), id) == MarkedRead(alerts, id)
  {
  }

  /** Only alerts with that id change, and only in their read flag; ids and order stay. */
  lemma MarkedReadOnlyTouchesId(alerts: seq<Alert>, id: string)
    ensures forall i :: 0 <= i < |alerts| ==>
              MarkedRead(alerts, id)[i].id == alerts[i].id
              && (alerts[i].id != id ==> MarkedRead(alerts, id)[i] == alerts[i])
              && (alerts[i].id == id ==> MarkedRead(alerts, id)[i].isRead)
  {
  }

  /** After marking everything read, the unread tab is empty. */
  lemma {:induction false} AllReadLeavesNoneUnread(alerts: seq<Alert>)
    ensures Unread(AllRead(alerts)) == []
  {
    if alerts != [] {
      AllReadLeavesNoneUnread(alerts[1..]);
      assert AllRead(alerts)[1..] == AllRead(alerts[1..]);
    }
  }

  /** Marking one alert read removes exactly the unread alerts with that id from the unread tab. */
  lemma {:induction false} MarkedReadShrinksUnread(alerts: seq<Alert>, id: string)
    ensures |Unread(MarkedRead(alerts, id))| <= |Unread(alerts)|
    ensures forall a :: a in Unread(MarkedRead(alerts, id)) <==> a in Unread(alerts) && a.id != id
  {
    if alerts != [] {
      MarkedReadShrinksUnread(alerts[1..], id);
      assert MarkedRead(alerts, id)[1..] == MarkedRead(alerts[1..], id);
    }
  }

  /** System alerts sit in neither tab, so the expiry and stock tabs together hold at most every alert. */
  lemma {:induction false} TabsAtMostAll(alerts: seq<Alert>)
    ensures |ExpiryTab(alerts)| + |StockTab(alerts)| <= |alerts|
    ensures (exists i :: 0 <= i < |alerts| && alerts[i].kind == SystemAlert) ==>
              |ExpiryTab(alerts)| + |StockTab(alerts)| < |alerts|
  {
    if alerts != [] {
      TabsAtMostAll(alerts[1..]);
      if exists i :: 0 <= i < |alerts| && alerts[i].kind == SystemAlert {
        var i :| 0 <= i < |alerts| && alerts[i].kind == SystemAlert;
        if i > 0 {
          assert alerts[1..][i - 1].kind == SystemAlert;
        }
      }
    }
  }

  class Page {
    var alerts: seq<Alert>

    constructor (initial: seq<Alert>)
      ensures alerts == initial
    {
      alerts := initial;
    }

    method MarkAsRead(alertId: string)
      modifies this
      ensures alerts == MarkedRead(old(alerts), alertId)
    {
      alerts := MarkedRead(alerts, alertId);
    }

    method MarkAllAsRead()
      modifies this
      ensures alerts == AllRead(old(alerts))
      ensures Unread(alerts) == []
    {
      alerts := AllRead(alerts);
      AllReadLeavesNoneUnread(old(alerts));
    }
  }
}

=== FILE: analytics.dfy ===
/**
 * The post-query reductions of the `useAnalytics` hook: per-day stock and
 * revenue buckets, category distribution, fast/slow moving items, expiry
 * loss rows, supplier performance and the dashboard counters.
 *
 * Each query's rows are given as a sequence (the backend's filtering by the
 * date window is not modelled); a row's `created_at` is given as the day
 * index it formats to, and money is in cents.
 */
module Analytics {
  import opened Domain

  // ===========================================================================
  // Stock trends: per-day stock-in / stock-out totals, zero-filled

  /** A `stock_movements` row as the trend query reads it. */
  datatype TrendMovement = TrendMovement(day: int, kind: MovementType, quantity: int)

  datatype StockTrendData = StockTrendData(date: int, stockIn: int, stockOut: int)

  /** Total stock-in quantity recorded on day d. */
  function InOnDay(ms: seq<TrendMovement>, d: int): int {
    if ms == [] then 0
    else
      var m := ms[|ms| - 1];
      InOnDay(ms[..|ms| - 1], d) + (if m.day == d && m.kind == StockIn then m.quantity else 0)
  }

  /** Total quantity of every other movement type recorded on day d. */
  function OutOnDay(ms: seq<TrendMovement>, d: int): int {
    if ms == [] then 0
    else
      var m := ms[|ms| - 1];
      OutOnDay(ms[..|ms| - 1], d) + (if m.day == d && m.kind != StockIn then m.quantity else 0)
  }

  /** A day on which nothing moved has zero stock-in and zero stock-out. */
  lemma {:induction false} QuietDayIsZero(ms: seq<TrendMovement>, d: int)
    requires forall k :: 0 <= k < |ms| ==> ms[k].day != d
    ensures InOnDay(ms, d) == 0 && OutOnDay(ms, d) == 0
  {
    if ms != [] {
      QuietDayIsZero(ms[..|ms| - 1], d);
    }
  }

  /** Number of days in the inclusive window [from, to] (none when to < from). */
  function WindowLength(from: int, to: int): nat {
    if to - from + 1 > 0 then to - from + 1 else 0
  }

  datatype Bucket = Bucket(stockIn: int, stockOut: int)

  /**
   * `stockTrends`: group the movements by day, then emit one entry per day
   * of the window in ascending order, `stockIn`/`stockOut` defaulting to 0.
   */
  method StockTrends(movements: seq<TrendMovement>, from: int, to: int) returns (result: seq<StockTrendData>)
    ensures |result| == WindowLength(from, to)
    ensures forall i :: 0 <= i < |result| ==>
              result[i] == StockTrendData(from + i, InOnDay(movements, from + i), OutOnDay(movements, from + i))
  {
    var grouped: map<int, Bucket> := map[];
    var k := 0;
    while k < |movements|
      invariant 0 <= k <= |movements|
      invariant forall d :: d in grouped ==>
                  grouped[d] == Bucket(InOnDay(movements[..k], d), OutOnDay(movements[..k], d))
      invariant forall d :: d !in grouped ==> InOnDay(movements[..k], d) == 0 && OutOnDay(movements[..k], d) == 0
    {
      var m := movements[k];
      assert movements[..k + 1][..k] == movements[..k];
      if m.day !in grouped {
        grouped := grouped[m.day := Bucket(0, 0)];
      }
      if m.kind == StockIn {
        grouped := grouped[m.day := grouped[m.day].(stockIn := grouped[m.day].stockIn + m.quantity)];
      } else {
        grouped := grouped[m.day := grouped[m.day].(stockOut := grouped[m.day].stockOut + m.quantity)];
      }
      k := k + 1;
    }
    assert movements[..k] == movements;

    result := [];
    var days := to - from + 1;
    var i := 0;
    while i < days
      invariant 0 <= i && |result| == i
      invariant i <= WindowLength(from, to)
      invariant forall j :: 0 <= j < i ==>
                  result[j] == StockTrendData(from + j, InOnDay(movements, from + j), OutOnDay(movements, from + j))
    {
      var date := to - (days - 1 - i);
      var b := if date in grouped then grouped[date] else Bucket(0, 0);
      result := result + [StockTrendData(date, b.stockIn, b.stockOut)];
      i := i + 1;
    }
  }

  /** The trend ends on `to` and its dates ascend by exactly one day. */
  lemma TrendShape(result: seq<StockTrendData>, movements: seq<TrendMovement>, from: int, to: int)
    requires |result| == WindowLength(from, to)
    requires forall i :: 0 <= i < |result| ==>
               result[i] == StockTrendData(from + i, InOnDay(movements, from + i), OutOnDay(movements, from + i))
    ensures |result| > 0 ==> result[|result| - 1].date == to && result[0].date == from
    ensures forall i :: 0 < i < |result| ==> result[i].date == result[i - 1].date + 1
  {
  }

  // ===========================================================================
  // Revenue: per-day sales totals, zero-filled

  /** A `sales` row: the day it was recorded and its amount in cents. */
  datatype Sale = Sale(day: int, totalAmount: int)

  /** The bucketed part of `RevenueData` (the inventory cost column is not modelled). */
  datatype RevenuePoint = RevenuePoint(date: int, revenue: int)

  function RevenueOnDay(sales: seq<Sale>, d: int): int {
    if sales == [] then 0
    else
      var s := sales[|sales| - 1];
      RevenueOnDay(sales[..|sales| - 1], d) + (if s.day == d then s.totalAmount else 0)
  }

  /** `revenueData` bucketing: one entry per day of the window, 0 when nothing was sold. */
  method RevenueTrend(sales: seq<Sale>, from: int, to: int) returns (result: seq<RevenuePoint>)
    ensures |result| == WindowLength(from, to)
    ensures forall i :: 0 <= i < |result| ==> result[i] == RevenuePoint(from + i, RevenueOnDay(sales, from + i))
  {
    var grouped: map<int, int> := map[];
    var k := 0;
    while k < |sales|
      invariant 0 <= k <= |sales|
      invariant forall d :: d in grouped ==> grouped[d] == RevenueOnDay(sales[..k], d)
      invariant forall d :: d !in grouped ==> RevenueOnDay(sales[..k], d) == 0
    {
      var s := sales[k];
      assert sales[..k + 1][..k] == sales[..k];
      if s.day !in grouped {
        grouped := grouped[s.day := 0];
      }
      grouped := grouped[s.day := grouped[s.day] + s.totalAmount];
      k := k + 1;
    }
    assert sales[..k] == sales;

    result := [];
    var days := to - from + 1;
    var i := 0;
    while i < days
      invariant 0 <= i && |result| == i
      invariant i <= WindowLength(from, to)
      invariant forall j :: 0 <= j < i ==> result[j] == RevenuePoint(from + j, RevenueOnDay(sales, from + j))
    {
      var date := to - (days - 1 - i);
      result := result + [RevenuePoint(date, if date in grouped then grouped[date] else 0)];
      i := i + 1;
    }
  }

  // ===========================================================================
  // Category distribution

  /** A `medicines` row as the distribution query reads it. */
  datatype CategoryRow = CategoryRow(category: string, quantity: int, unitPrice: int)

  datatype CategoryDistribution = CategoryDistribution(category: string, count: int, value: int)

  function CountIn(meds: seq<CategoryRow>, c: string): nat {
    if meds == [] then 0
    else CountIn(meds[..|meds| - 1], c) + (if meds[|meds| - 1].category == c then 1 else 0)
  }

  function ValueIn(meds: seq<CategoryRow>, c: string): int {
    if meds == [] then 0
    else
      var m := meds[|meds| - 1];
      ValueIn(meds[..|meds| - 1], c) + (if m.category == c then m.quantity * m.unitPrice else 0)
  }

  predicate DistinctStrings(keys: seq<string>) {
    forall i, j :: 0 <= i < j < |keys| ==> keys[i] != keys[j]
  }

  function SumCounts(result: seq<CategoryDistribution>): int {
    if result == [] then 0 else result[0].count + SumCounts(result[1..])
  }

  /** Sum of the per-category counts for a list of categories. */
  function CountAcross(keys: seq<string>, meds: seq<CategoryRow>): int {
    if keys == [] then 0 else CountIn(meds, keys[0]) + CountAcross(keys[1..], meds)
  }

  /** One more row adds one to the sum exactly when its category is listed. */
  lemma {:induction false} CountAcrossSnoc(keys: seq<string>, meds: seq<CategoryRow>, m: CategoryRow)
    requires DistinctStrings(keys)
    ensures CountAcross(keys, meds + [m]) == CountAcross(keys, meds) + (if m.category in keys then 1 else 0)
  {
    if keys != [] {
      assert (meds + [m])[..|meds + [m]| - 1] == meds;
      CountAcrossSnoc(keys[1..], meds, m);
      assert m.category in keys[1..] ==> m.category != keys[0];
      assert m.category in keys <==> m.category == keys[0] || m.category in keys[1..];
    }
  }

  /** Over distinct categories covering every row, the counts add up to the number of rows. */
  lemma {:induction false} CountAcrossCovers(keys: seq<string>, meds: seq<CategoryRow>)
    requires DistinctStrings(keys)
    requires forall k :: 0 <= k < |meds| ==> meds[k].category in keys
    ensures CountAcross(keys, meds) == |meds|
  {
    if meds == [] {
      CountAcrossEmpty(keys);
    } else {
      var init := meds[..|meds| - 1];
      CountAcrossCovers(keys, init);
      CountAcrossSnoc(keys, init, meds[|meds| - 1]);
      assert init + [meds[|meds| - 1]] == meds;
    }
  }

  lemma {:induction false} CountAcrossEmpty(keys: seq<string>)
    ensures CountAcross(keys, []) == 0
  {
    if keys != [] {
      CountAcrossEmpty(keys[1..]);
    }
  }

  /** The categories of a distribution, in its order. */
  function CategoriesOf(result: seq<CategoryDistribution>): (r: seq<string>)
    ensures |r| == |result|
    ensures forall i :: 0 <= i < |result| ==> r[i] == result[i].category
  {
    if result == [] then [] else [result[0].category] + CategoriesOf(result[1..])
  }

  lemma {:induction false} SumCountsIsCountAcross(result: seq<CategoryDistribution>, meds: seq<CategoryRow>)
    requires forall i :: 0 <= i < |result| ==> result[i].count == CountIn(meds, result[i].category)
    ensures SumCounts(result) == CountAcross(CategoriesOf(result), meds)
  {
    if result != [] {
      SumCountsIsCountAcross(result[1..], meds);
      assert CategoriesOf(result)[1..] == CategoriesOf(result[1..]);
    }
  }

  /** Taking one more row adds that row to its own category's count and value and nothing else. */
  lemma {:induction false} SnocCounts(prefix: seq<CategoryRow>, med: CategoryRow)
    ensures forall c :: CountIn(prefix + [med], c) == CountIn(prefix, c) + (if med.category == c then 1 else 0)
    ensures forall c :: ValueIn(prefix + [med], c) ==
              ValueIn(prefix, c) + (if med.category == c then med.quantity * med.unitPrice else 0)
  {
    assert (prefix + [med])[..|prefix|] == prefix;
  }

  /**
   * The state of the grouping loop after the rows of `prefix`: `keys` lists
   * each category seen once, in first-seen order, and `grouped` holds the
   * count and value of each.
   */
  ghost predicate Grouped(prefix: seq<CategoryRow>, keys: seq<string>, grouped: map<string, CategoryDistribution>) {
    && DistinctStrings(keys)
    && (forall c :: c in grouped <==> c in keys)
    && (forall c :: c in grouped ==>
          grouped[c] == CategoryDistribution(c, CountIn(prefix, c), ValueIn(prefix, c)) && grouped[c].count >= 1)
    && (forall c :: c !in grouped ==> CountIn(prefix, c) == 0 && ValueIn(prefix, c) == 0)
    && (forall j :: 0 <= j < |prefix| ==> prefix[j].category in keys)
  }

  /** One iteration of the grouping loop keeps `Grouped`, one row further on. */
  lemma {:induction false} GroupStep(prefix: seq<CategoryRow>, med: CategoryRow, keys: seq<string>, grouped: map<string, CategoryDistribution>,
                  keys': seq<string>, grouped': map<string, CategoryDistribution>)
    requires Grouped(prefix, keys, grouped)
    requires keys' == if med.category in grouped then keys else keys + [med.category]
    requires var g := if med.category in grouped then grouped[med.category] else CategoryDistribution(med.category, 0, 0);
             grouped' == grouped[med.category := g.(count := g.count + 1, value := g.value + med.quantity * med.unitPrice)]
    ensures Grouped(prefix + [med], keys', grouped')
  {
    SnocCounts(prefix, med);
    var all := prefix + [med];
    var c0 := med.category;
    if c0 !in grouped {
      assert c0 !in keys;
      forall i, j | 0 <= i < j < |keys'| ensures keys'[i] != keys'[j] {
        if j == |keys| {
          assert keys'[i] == keys[i] && keys[i] in keys;
        }
      }
    }
    forall c | c in grouped'
      ensures grouped'[c] == CategoryDistribution(c, CountIn(all, c), ValueIn(all, c)) && grouped'[c].count >= 1
    {
      if c != c0 {
        assert grouped'[c] == grouped[c];
      }
    }
    forall j | 0 <= j < |all| ensures all[j].category in keys' {
      if j < |prefix| {
        assert all[j] == prefix[j];
      }
    }
  }

  /** The grouping loop of `categoryDistribution`: first-seen categories and their buckets. */
  method GroupByCategory(meds: seq<CategoryRow>) returns (keys: seq<string>, grouped: map<string, CategoryDistribution>)
    ensures Grouped(meds, keys, grouped)
  {
    keys := [];
    grouped := map[];
    var k := 0;
    while k < |meds|
      invariant 0 <= k <= |meds|
      invariant Grouped(meds[..k], keys, grouped)
    {
      var med := meds[k];
      var g := if med.category in grouped then grouped[med.category] else CategoryDistribution(med.category, 0, 0);
      var keys' := if med.category in grouped then keys else keys + [med.category];
      var grouped' := grouped[med.category := g.(count := g.count + 1, value := g.value + med.quantity * med.unitPrice)];
      GroupStep(meds[..k], med, keys, grouped, keys', grouped');
      assert meds[..k + 1] == meds[..k] + [med];
      keys, grouped := keys', grouped';
      k := k + 1;
    }
    assert meds[..k] == meds;
  }

  /**
   * `categoryDistribution`: group the rows by category (first-seen order),
   * counting rows and summing quantity times unit price. Every category is
   * listed once, every row's category is listed, and the counts sum to the
   * number of rows.
   */
  method CategoryDistributionOf(meds: seq<CategoryRow>) returns (result: seq<CategoryDistribution>)
    ensures DistinctStrings(CategoriesOf(result))
    ensures forall i :: 0 <= i < |result| ==>
              result[i].count == CountIn(meds, result[i].category) && result[i].value == ValueIn(meds, result[i].category)
    ensures forall i :: 0 <= i < |result| ==> result[i].count >= 1
    ensures forall k :: 0 <= k < |meds| ==> meds[k].category in CategoriesOf(result)
    ensures SumCounts(result) == |meds|
  {
    var keys, grouped := GroupByCategory(meds);
    result := seq(|keys|, i requires 0 <= i < |keys| => grouped[keys[i]]);
    DistributionEntries(meds, keys, grouped, result);
    DistributionSums(meds, keys, grouped, result);
  }

  /** Each entry of the distribution is its category's bucket, listed once, and every row's category is listed. */
  lemma {:induction false} DistributionEntries(meds: seq<CategoryRow>, keys: seq<string>, grouped: map<string, CategoryDistribution>,
                            result: seq<CategoryDistribution>)
    requires Grouped(meds, keys, grouped)
    requires result == seq(|keys|, i requires 0 <= i < |keys| => grouped[keys[i]])
    ensures DistinctStrings(CategoriesOf(result))
    ensures forall i :: 0 <= i < |result| ==>
              result[i].count == CountIn(meds, result[i].category) && result[i].value == ValueIn(meds, result[i].category)
    ensures forall i :: 0 <= i < |result| ==> result[i].count >= 1
    ensures forall k :: 0 <= k < |meds| ==> meds[k].category in CategoriesOf(result)
  {
    assert CategoriesOf(result) == keys;
  }

  /** The per-category counts of the distribution add up to the number of rows. */
  lemma {:induction false} DistributionSums(meds: seq<CategoryRow>, keys: seq<string>, grouped: map<string, CategoryDistribution>,
                         result: seq<CategoryDistribution>)
    requires Grouped(meds, keys, grouped)
    requires result == seq(|keys|, i requires 0 <= i < |keys| => grouped[keys[i]])
    ensures SumCounts(result) == |meds|
  {
    assert CategoriesOf(result) == keys;
    SumCountsIsCountAcross(result, meds);
    CountAcrossCovers(keys, meds);
  }

  // ===========================================================================
  // Fast and slow moving items

  /** A `stock_movements` row as the moving-items query reads it. */
  datatype MovementRow = MovementRow(medicineId: string, quantity: int, kind: MovementType)

  /** A `medicines` row as the moving-items query reads it. */
  datatype MedicineRef = MedicineRef(id: string, name: string)

  datatype Speed = Fast | Slow

  datatype MovingItem = MovingItem(id: string, name: string, totalMovement: int, movementType: Speed)

  /** Some movement in the window names this medicine. */
  predicate HasMovement(ms: seq<MovementRow>, id: string) {
    exists k :: 0 <= k < |ms| && ms[k].medicineId == id
  }

  /** Sum of the quantities of every movement of this medicine, whatever its direction. */
  function TotalFor(ms: seq<MovementRow>, id: string): int {
    if ms == [] then 0
    else
      var m := ms[|ms| - 1];
      TotalFor(ms[..|ms| - 1], id) + (if m.medicineId == id then m.quantity else 0)
  }

  /** The `movementMap` loop: one entry per medicine that moved, holding its total. */
  method MovementTotals(ms: seq<MovementRow>) returns (totals: map<string, int>)
    ensures forall id :: id in totals <==> HasMovement(ms, id)
    ensures forall id :: id in totals ==> totals[id] == TotalFor(ms, id)
  {
    totals := map[];
    var k := 0;
    while k < |ms|
      invariant 0 <= k <= |ms|
      invariant forall id :: id in totals <==> HasMovement(ms[..k], id)
      invariant forall id :: id in totals ==> totals[id] == TotalFor(ms[..k], id)
      invariant forall id :: id !in totals ==> TotalFor(ms[..k], id) == 0
    {
      var m := ms[k];
      assert ms[..k + 1][..k] == ms[..k];
      assert ms[..k + 1][k] == m;
      forall id | HasMovement(ms[..k], id) ensures HasMovement(ms[..k + 1], id) {
        var j :| 0 <= j < k && ms[..k][j].medicineId == id;
        assert ms[..k + 1][j].medicineId == id;
      }
      forall id | HasMovement(ms[..k + 1], id) && id != m.medicineId ensures HasMovement(ms[..k], id) {
        var j :| 0 <= j < k + 1 && ms[..k + 1][j].medicineId == id;
        assert ms[..k][j].medicineId == id;
      }
      // a zero running total is reset to zero, as the falsy test in the source does
      if m.medicineId !in totals || totals[m.medicineId] == 0 {
        totals := totals[m.medicineId := 0];
      }
      totals := totals[m.medicineId := totals[m.medicineId] + m.quantity];
      k := k + 1;
    }
    assert ms[..k] == ms;
  }

  /** The medicines that moved, in query order. */
  function WithMovement(meds: seq<MedicineRef>, ms: seq<MovementRow>): seq<MedicineRef> {
    if meds == [] then []
    else if HasMovement(ms, meds[0].id) then [meds[0]] + WithMovement(meds[1..], ms)
    else WithMovement(meds[1..], ms)
  }

  /** A medicine is kept exactly when it was queried and it moved. */
  lemma {:induction false} WithMovementExact(meds: seq<MedicineRef>, ms: seq<MovementRow>, m: MedicineRef)
    ensures m in WithMovement(meds, ms) <==> m in meds && HasMovement(ms, m.id)
  {
    if meds != [] {
      WithMovementExact(meds[1..], ms, m);
      assert m in meds <==> m == meds[0] || m in meds[1..];
    }
  }

  /** The `filter`/`map` step: every medicine present in the totals map, marked fast. */
  function Collect(meds: seq<MedicineRef>, totals: map<string, int>): (r: seq<MovingItem>)
    ensures |r| <= |meds|
    ensures forall i :: 0 <= i < |r| ==>
              r[i].id in totals && r[i].totalMovement == totals[r[i].id] && r[i].movementType == Fast
  {
    if meds == [] then []
    else if meds[0].id in totals then
      [MovingItem(meds[0].id, meds[0].name, totals[meds[0].id], Fast)] + Collect(meds[1..], totals)
    else Collect(meds[1..], totals)
  }

  /** The medicine each item stands for. */
  function Refs(items: seq<MovingItem>): seq<MedicineRef> {
    if items == [] then [] else [MedicineRef(items[0].id, items[0].name)] + Refs(items[1..])
  }

  /** With the totals of `MovementTotals`, the collected items are exactly the medicines that moved. */
  lemma {:induction false} CollectIsWithMovement(meds: seq<MedicineRef>, totals: map<string, int>, ms: seq<MovementRow>)
    requires forall id :: id in totals <==> HasMovement(ms, id)
    ensures Refs(Collect(meds, totals)) == WithMovement(meds, ms)
  {
    if meds != [] {
      CollectIsWithMovement(meds[1..], totals, ms);
    }
  }

  predicate NonIncreasing(s: seq<MovingItem>) {
    forall i, j :: 0 <= i < j < |s| ==> s[i].totalMovement >= s[j].totalMovement
  }

  /** Place x before the first item whose total does not exceed it. */
  function InsertByMovement(x: MovingItem, sorted: seq<MovingItem>): seq<MovingItem> {
    if sorted == [] || sorted[0].totalMovement <= x.totalMovement then [x] + sorted
    else [sorted[0]] + InsertByMovement(x, sorted[1..])
  }

  /**
   * `sort((a, b) => b.totalMovement - a.totalMovement)`: a stable sort by
   * descending total, so items with equal totals keep their query order.
   */
  function SortByMovement(items: seq<MovingItem>): seq<MovingItem> {
    if items == [] then [] else InsertByMovement(items[0], SortByMovement(items[1..]))
  }

  lemma {:induction false} InsertKeepsOrder(x: MovingItem, sorted: seq<MovingItem>)
    requires NonIncreasing(sorted)
    ensures NonIncreasing(InsertByMovement(x, sorted))
    ensures InsertByMovement(x, sorted)[0] == x || InsertByMovement(x, sorted)[0] == sorted[0]
  {
    if sorted != [] && sorted[0].totalMovement > x.totalMovement {
      InsertKeepsOrder(x, sorted[1..]);
    }
  }

  lemma {:induction false} InsertKeepsItems(x: MovingItem, sorted: seq<MovingItem>)
    ensures multiset(InsertByMovement(x, sorted)) == multiset(sorted) + multiset{x}
  {
    if sorted != [] && sorted[0].totalMovement > x.totalMovement {
      var rest := InsertByMovement(x, sorted[1..]);
      InsertKeepsItems(x, sorted[1..]);
      assert InsertByMovement(x, sorted) == [sorted[0]] + rest;
      assert sorted == [sorted[0]] + sorted[1..];
      assert multiset(sorted) == multiset{sorted[0]} + multiset(sorted[1..]);
    }
  }

  lemma {:induction false} InsertKeepsRefs(x: MovingItem, sorted: seq<MovingItem>)
    ensures multiset(Refs(InsertByMovement(x, sorted))) == multiset(Refs(sorted)) + multiset{MedicineRef(x.id, x.name)}
  {
    if sorted == [] || sorted[0].totalMovement <= x.totalMovement {
      var r := [x] + sorted;
      assert r[0] == x && r[1..] == sorted;
      assert Refs(r) == [MedicineRef(x.id, x.name)] + Refs(sorted);
    } else {
      var rest := InsertByMovement(x, sorted[1..]);
      InsertKeepsRefs(x, sorted[1..]);
      var r := [sorted[0]] + rest;
      assert r[0] == sorted[0] && r[1..] == rest;
      assert Refs(r) == [MedicineRef(sorted[0].id, sorted[0].name)] + Refs(rest);
      assert Refs(sorted) == [MedicineRef(sorted[0].id, sorted[0].name)] + Refs(sorted[1..]);
    }
  }

  /** The sorted list is non-increasing by total. */
  lemma {:induction false} SortIsOrdered(items: seq<MovingItem>)
    ensures NonIncreasing(SortByMovement(items))
  {
    if items != [] {
      SortIsOrdered(items[1..]);
      InsertKeepsOrder(items[0], SortByMovement(items[1..]));
    }
  }

  /** The sorted list holds exactly the same items. */
  lemma {:induction false} SortIsPermutation(items: seq<MovingItem>)
    ensures multiset(SortByMovement(items)) == multiset(items)
  {
    if items != [] {
      SortIsPermutation(items[1..]);
      InsertKeepsItems(items[0], SortByMovement(items[1..]));
      assert items == [items[0]] + items[1..];
    }
  }

  /** Sorting keeps the medicines the items stand for. */
  lemma {:induction false} SortKeepsRefs(items: seq<MovingItem>)
    ensures multiset(Refs(SortByMovement(items))) == multiset(Refs(items))
  {
    if items != [] {
      SortKeepsRefs(items[1..]);
      InsertKeepsRefs(items[0], SortByMovement(items[1..]));
    }
  }

  /** Relabelling leaves ids and names alone. */
  lemma {:induction false} RefsIgnoreLabels(a: seq<MovingItem>, b: seq<MovingItem>)
    requires |a| == |b|
    requires forall i :: 0 <= i < |a| ==> a[i].id == b[i].id && a[i].name == b[i].name
    ensures Refs(a) == Refs(b)
  {
    if a != [] {
      RefsIgnoreLabels(a[1..], b[1..]);
    }
  }

  /** Each item is fast and carries the total the map holds for its medicine. */
  predicate Tallied(items: seq<MovingItem>, totals: map<string, int>) {
    forall i :: 0 <= i < |items| ==>
      items[i].id in totals && items[i].totalMovement == totals[items[i].id] && items[i].movementType == Fast
  }

  /** Sorting keeps the length and the per-item tallies, since it only reorders. */
  lemma {:induction false} SortKeepsTallies(items: seq<MovingItem>, totals: map<string, int>)
    requires Tallied(items, totals)
    ensures |SortByMovement(items)| == |items|
    ensures Tallied(SortByMovement(items), totals)
  {
    var sorted := SortByMovement(items);
    SortIsPermutation(items);
    assert |multiset(sorted)| == |multiset(items)|;
    forall i | 0 <= i < |sorted|
      ensures sorted[i].id in totals && sorted[i].totalMovement == totals[sorted[i].id]
      ensures sorted[i].movementType == Fast
    {
      assert sorted[i] in multiset(items);
      var k :| 0 <= k < |items| && items[k] == sorted[i];
    }
  }

  /** The items whose total is `t`, in list order. */
  function WithTotal(items: seq<MovingItem>, t: int): seq<MovingItem> {
    if items == [] then []
    else (if items[0].totalMovement == t then [items[0]] else []) + WithTotal(items[1..], t)
  }

  /** The medicines that moved with exactly the total `t`, in query order. */
  function MovedWithTotal(meds: seq<MedicineRef>, ms: seq<MovementRow>, t: int): seq<MedicineRef> {
    if meds == [] then []
    else (if HasMovement(ms, meds[0].id) && TotalFor(ms, meds[0].id) == t then [meds[0]] else [])
         + MovedWithTotal(meds[1..], ms, t)
  }

  /** Items the inserted one passes have a larger total, so among equal totals it comes first. */
  lemma {:induction false} InsertIsStable(x: MovingItem, sorted: seq<MovingItem>, t: int)
    ensures WithTotal(InsertByMovement(x, sorted), t) == (if x.totalMovement == t then [x] else []) + WithTotal(sorted, t)
  {
    var r := InsertByMovement(x, sorted);
    if sorted == [] || sorted[0].totalMovement <= x.totalMovement {
      assert r == [x] + sorted;
      assert r[0] == x && r[1..] == sorted;
    } else {
      var tail := InsertByMovement(x, sorted[1..]);
      InsertIsStable(x, sorted[1..], t);
      assert r == [sorted[0]] + tail;
      assert r[0] == sorted[0] && r[1..] == tail;
      var rest := WithTotal(sorted[1..], t);
      if x.totalMovement == t {
        assert sorted[0].totalMovement != t;
        assert WithTotal(r, t) == WithTotal(tail, t) == [x] + rest;
        assert WithTotal(sorted, t) == rest;
      } else if sorted[0].totalMovement == t {
        assert WithTotal(r, t) == [sorted[0]] + WithTotal(tail, t);
        assert WithTotal(tail, t) == rest;
        assert WithTotal(sorted, t) == [sorted[0]] + rest;
      } else {
        assert WithTotal(r, t) == WithTotal(tail, t) == rest;
        assert WithTotal(sorted, t) == rest;
      }
    }
  }

  /** The sort is stable: items with equal totals keep their relative order. */
  lemma {:induction false} SortIsStable(items: seq<MovingItem>, t: int)
    ensures WithTotal(SortByMovement(items), t) == WithTotal(items, t)
  {
    if items != [] {
      SortIsStable(items[1..], t);
      InsertIsStable(items[0], SortByMovement(items[1..]), t);
    }
  }

  /** Relabelling leaves the items of each total, as medicines, where they were. */
  lemma {:induction false} WithTotalIgnoresLabels(a: seq<MovingItem>, b: seq<MovingItem>, t: int)
    requires |a| == |b|
    requires forall i :: 0 <= i < |a| ==> a[i].(movementType := Fast) == b[i].(movementType := Fast)
    ensures Refs(WithTotal(a, t)) == Refs(WithTotal(b, t))
  {
    if a != [] {
      WithTotalIgnoresLabels(a[1..], b[1..], t);
      assert a[0].(movementType := Fast) == b[0].(movementType := Fast);
      var ra := WithTotal(a[1..], t);
      var rb := WithTotal(b[1..], t);
      if a[0].totalMovement == t {
        assert Refs([a[0]] + ra) == [MedicineRef(a[0].id, a[0].name)] + Refs(ra);
        assert Refs([b[0]] + rb) == [MedicineRef(b[0].id, b[0].name)] + Refs(rb);
      } else {
        assert WithTotal(a, t) == ra && WithTotal(b, t) == rb;
      }
    }
  }

  /** With the totals of `MovementTotals`, the collected items of each total are the medicines that moved that much. */
  lemma {:induction false} CollectWithTotal(meds: seq<MedicineRef>, totals: map<string, int>, ms: seq<MovementRow>, t: int)
    requires forall id :: id in totals <==> HasMovement(ms, id)
    requires forall id :: id in totals ==> totals[id] == TotalFor(ms, id)
    ensures Refs(WithTotal(Collect(meds, totals), t)) == MovedWithTotal(meds, ms, t)
  {
    if meds != [] {
      CollectWithTotal(meds[1..], totals, ms, t);
      var rest := Collect(meds[1..], totals);
      if meds[0].id in totals {
        var x := MovingItem(meds[0].id, meds[0].name, totals[meds[0].id], Fast);
        assert Collect(meds, totals) == [x] + rest;
        assert ([x] + rest)[1..] == rest;
        if x.totalMovement == t {
          var w := WithTotal(rest, t);
          assert WithTotal([x] + rest, t) == [x] + w;
          assert Refs([x] + w) == [MedicineRef(x.id, x.name)] + Refs(w);
        } else {
          assert WithTotal([x] + rest, t) == WithTotal(rest, t);
        }
      }
    }
  }

  /** The in-place relabelling: items at index floor(n/2) and beyond become slow. */
  method LabelHalves(items: seq<MovingItem>) returns (labelled: seq<MovingItem>)
    ensures |labelled| == |items|
    ensures forall i :: 0 <= i < |items| ==>
              labelled[i] == items[i].(movementType := if i >= |items| / 2 then Slow else items[i].movementType)
  {
    labelled := items;
    var midpoint := |items| / 2;
    var index := 0;
    while index < |labelled|
      invariant |labelled| == |items|
      invariant 0 <= index <= |items|
      invariant forall i :: 0 <= i < index ==>
                  labelled[i] == items[i].(movementType := if i >= midpoint then Slow else items[i].movementType)
      invariant forall i :: index <= i < |items| ==> labelled[i] == items[i]
    {
      if index >= midpoint {
        labelled := labelled[index := labelled[index].(movementType := Slow)];
      }
      index := index + 1;
    }
  }

  /**
   * `movingItems`: the medicines that moved (each once per query row), each
   * with the summed quantity of its movements, ordered by descending total
   * with equal totals left in query order, the first half fast and the rest
   * slow.
   */
  method MovingItems(ms: seq<MovementRow>, meds: seq<MedicineRef>) returns (items: seq<MovingItem>)
    ensures multiset(Refs(items)) == multiset(WithMovement(meds, ms))
    ensures forall i :: 0 <= i < |items| ==>
              HasMovement(ms, items[i].id) && items[i].totalMovement == TotalFor(ms, items[i].id)
    ensures forall i, j :: 0 <= i < j < |items| ==> items[i].totalMovement >= items[j].totalMovement
    ensures forall i :: 0 <= i < |items| ==> (items[i].movementType == Fast <==> i < |items| / 2)
    ensures forall t :: Refs(WithTotal(items, t)) == MovedWithTotal(meds, ms, t)
  {
    var totals := MovementTotals(ms);
    var candidates := Collect(meds, totals);
    CollectIsWithMovement(meds, totals, ms);
    var sorted := SortByMovement(candidates);
    SortIsOrdered(candidates);
    SortKeepsTallies(candidates, totals);
    items := LabelHalves(sorted);
    RefsIgnoreLabels(items, sorted);
    SortKeepsRefs(candidates);
    forall t ensures Refs(WithTotal(items, t)) == MovedWithTotal(meds, ms, t) {
      WithTotalIgnoresLabels(items, sorted, t);
      SortIsStable(candidates, t);
      CollectWithTotal(meds, totals, ms, t);
    }
  }

  /** A lone moving item is slow; with two or more, the first is fast and the last slow. */
  lemma MidpointSplit(items: seq<MovingItem>)
    requires forall i :: 0 <= i < |items| ==> (items[i].movementType == Fast <==> i < |items| / 2)
    ensures |items| == 1 ==> items[0].movementType == Slow
    ensures |items| >= 2 ==> items[0].movementType == Fast && items[|items| - 1].movementType == Slow
  {
  }

  // ===========================================================================
  // Expiry loss

  /**
   * A `medicines` row as the expiry-loss query reads it: `expiryDate` is the
   * stored date text and `expiryDay` the day index it denotes.
   */
  datatype ExpiryRow = ExpiryRow(id: string, name: string, quantity: int, unitPrice: int,
                                 expiryDate: string, expiryDay: int)

  datatype ExpiryLossData = ExpiryLossData(
    id: string, name: string, quantity: int, unitPrice: int,
    expiryDate: string, daysUntilExpiry: int, potentialLoss: int)

  /** The backend filter of the query: expiring within thirty days, with stock on hand. */
  predicate ExpiryCandidate(row: ExpiryRow, today: int) {
    row.expiryDay <= today + 30 && row.quantity > 0
  }

  function ExpiryLossOf(row: ExpiryRow, today: int): ExpiryLossData {
    ExpiryLossData(row.id, row.name, row.quantity, row.unitPrice, row.expiryDate,
                   row.expiryDay - today, row.quantity * row.unitPrice)
  }

  /** `expiryLoss`: the query rows mapped one for one, in query order. */
  function ExpiryLoss(rows: seq<ExpiryRow>, today: int): (r: seq<ExpiryLossData>)
    ensures |r| == |rows|
    ensures forall i :: 0 <= i < |rows| ==>
              r[i].id == rows[i].id && r[i].name == rows[i].name && r[i].expiryDate == rows[i].expiryDate &&
              r[i].quantity == rows[i].quantity && r[i].unitPrice == rows[i].unitPrice
    ensures forall i :: 0 <= i < |rows| ==>
              r[i].daysUntilExpiry == rows[i].expiryDay - today &&
              r[i].potentialLoss == rows[i].quantity * rows[i].unitPrice
  {
    if rows == [] then [] else [ExpiryLossOf(rows[0], today)] + ExpiryLoss(rows[1..], today)
  }

  /**
   * Rows the query selects are due within thirty days and, with a positive
   * unit price, carry a positive loss of at least the unit price.
   */
  lemma {:induction false} ExpiryLossBounds(rows: seq<ExpiryRow>, today: int, i: int)
    requires forall k :: 0 <= k < |rows| ==> ExpiryCandidate(rows[k], today)
    requires 0 <= i < |rows|
    ensures ExpiryLoss(rows, today)[i].daysUntilExpiry <= 30
    ensures rows[i].unitPrice > 0 ==> ExpiryLoss(rows, today)[i].potentialLoss >= rows[i].unitPrice
    ensures ExpiryLoss(rows, today)[i].potentialLoss == ExpiryLoss(rows, today)[i].quantity * ExpiryLoss(rows, today)[i].unitPrice
  {
    if i > 0 {
      ExpiryLossBounds(rows[1..], today, i - 1);
    }
  }

  /** Rows ordered by expiry date give non-decreasing day counts. */
  lemma {:induction false} ExpiryLossOrdered(rows: seq<ExpiryRow>, today: int)
    requires forall i, j :: 0 <= i < j < |rows| ==> rows[i].expiryDay <= rows[j].expiryDay
    ensures forall i, j :: 0 <= i < j < |rows| ==>
              ExpiryLoss(rows, today)[i].daysUntilExpiry <= ExpiryLoss(rows, today)[j].daysUntilExpiry
  {
    if rows != [] {
      ExpiryLossOrdered(rows[1..], today);
    }
  }

  // ===========================================================================
  // Supplier performance

  datatype SupplierRef = SupplierRef(id: string, name: string)

  /** A `purchase_orders` row; the two dates are day indices when present. */
  datatype PurchaseOrder = PurchaseOrder(
    supplierId: Option<string>, status: string, totalAmount: int,
    createdAt: Option<int>, deliveredDate: Option<int>)

  datatype SupplierPerformance = SupplierPerformance(
    id: string, name: string, totalOrders: int, deliveredOrders: int,
    avgDeliveryDays: int, totalAmount: int)

  /** `Math.round(a / b)` for a positive divisor: the nearest integer, halves rounded up. */
  function RoundDiv(a: int, b: int): (r: int)
    requires b > 0
    ensures 2 * b * r - b <= 2 * a < 2 * b * r + b
  {
    (2 * a + b) / (2 * b)
  }

  /** The orders whose `supplier_id` is this supplier's id, in query order. */
  function OrdersOf(orders: seq<PurchaseOrder>, id: string): (r: seq<PurchaseOrder>)
    ensures |r| <= |orders|
    ensures forall o :: o in r <==> o in orders && o.supplierId == Some(id)
  {
    if orders == [] then []
    else
      var o := orders[|orders| - 1];
      assert orders == orders[..|orders| - 1] + [o];
      OrdersOf(orders[..|orders| - 1], id) + (if o.supplierId == Some(id) then [o] else [])
  }

  /** A supplier's orders keep their query order. */
  lemma {:induction false} OrdersOfInOrder(orders: seq<PurchaseOrder>, id: string)
    ensures Subsequence(OrdersOf(orders, id), orders)
  {
    if orders != [] {
      var init := orders[..|orders| - 1];
      var o := orders[|orders| - 1];
      var kept := OrdersOf(init, id);
      OrdersOfInOrder(init, id);
      assert init + [o] == orders;
      if o.supplierId == Some(id) {
        SubsequenceSnocBoth(kept, init, o);
        assert OrdersOf(orders, id) == kept + [o];
      } else {
        SubsequenceSnocRight(kept, init, o);
        assert OrdersOf(orders, id) == kept;
      }
    }
  }

  /** `orders.filter(o => o.status === 'delivered')` */
  function Delivered(orders: seq<PurchaseOrder>): (r: seq<PurchaseOrder>)
    ensures |r| <= |orders|
    ensures forall o :: o in r <==> o in orders && o.status == "delivered"
  {
    if orders == [] then []
    else
      assert orders == [orders[0]] + orders[1..];
      (if orders[0].status == "delivered" then [orders[0]] else []) + Delivered(orders[1..])
  }

  /** The delivered orders keep their order. */
  lemma {:induction false} DeliveredInOrder(orders: seq<PurchaseOrder>)
    ensures Subsequence(Delivered(orders), orders)
  {
    if orders != [] {
      DeliveredInOrder(orders[1..]);
      var r := Delivered(orders);
      if orders[0].status == "delivered" {
        assert r[0] == orders[0] && r[1..] == Delivered(orders[1..]);
      } else {
        assert r == Delivered(orders[1..]);
      }
    }
  }

  /** Both dates present: the order took part in the average. */
  predicate Dated(o: PurchaseOrder) {
    o.deliveredDate.Some? && o.createdAt.Some?
  }

  function DatedCount(orders: seq<PurchaseOrder>): nat {
    if orders == [] then 0
    else DatedCount(orders[..|orders| - 1]) + (if Dated(orders[|orders| - 1]) then 1 else 0)
  }

  function DeliveryDaySum(orders: seq<PurchaseOrder>): int {
    if orders == [] then 0
    else
      var o := orders[|orders| - 1];
      DeliveryDaySum(orders[..|orders| - 1]) + (if Dated(o) then o.deliveredDate.value - o.createdAt.value else 0)
  }

  function AmountSum(orders: seq<PurchaseOrder>): int {
    if orders == [] then 0 else orders[0].totalAmount + AmountSum(orders[1..])
  }

  /** The `totalDeliveryDays`/`deliveryCount` loop and the rounded average. */
  method AverageDeliveryDays(delivered: seq<PurchaseOrder>) returns (avg: int)
    ensures DatedCount(delivered) == 0 ==> avg == 0
    ensures DatedCount(delivered) > 0 ==>
              2 * DatedCount(delivered) * avg - DatedCount(delivered) <= 2 * DeliveryDaySum(delivered)
              < 2 * DatedCount(delivered) * avg + DatedCount(delivered)
  {
    var totalDeliveryDays := 0;
    var deliveryCount := 0;
    var k := 0;
    while k < |delivered|
      invariant 0 <= k <= |delivered|
      invariant totalDeliveryDays == DeliveryDaySum(delivered[..k])
      invariant deliveryCount == DatedCount(delivered[..k])
    {
      var order := delivered[k];
      assert delivered[..k + 1][..k] == delivered[..k];
      if order.deliveredDate.Some? && order.createdAt.Some? {
        var days := order.deliveredDate.value - order.createdAt.value;
        totalDeliveryDays := totalDeliveryDays + days;
        deliveryCount := deliveryCount + 1;
      }
      k := k + 1;
    }
    assert delivered[..k] == delivered;
    avg := if deliveryCount > 0 then RoundDiv(totalDeliveryDays, deliveryCount) else 0;
  }

  lemma MulNonneg(x: int, y: int)
    requires x >= 0 && y >= 0
    ensures x * y >= 0
  {
  }

  /** When every dated delivery took between lo and hi days, the sum lies between n * lo and n * hi. */
  lemma {:induction false} DaySumBounds(orders: seq<PurchaseOrder>, lo: int, hi: int)
    requires forall k :: 0 <= k < |orders| && Dated(orders[k]) ==>
               lo <= orders[k].deliveredDate.value - orders[k].createdAt.value <= hi
    ensures lo * DatedCount(orders) <= DeliveryDaySum(orders) <= hi * DatedCount(orders)
  {
    if orders != [] {
      var init := orders[..|orders| - 1];
      var o := orders[|orders| - 1];
      DaySumBounds(init, lo, hi);
      var n := DatedCount(init);
      if Dated(o) {
        assert lo * (n + 1) == lo * n + lo;
        assert hi * (n + 1) == hi * n + hi;
      }
    }
  }

  /** The rounded average lies between the shortest and the longest delivery. */
  lemma AverageWithinBounds(orders: seq<PurchaseOrder>, avg: int, lo: int, hi: int)
    requires forall k :: 0 <= k < |orders| && Dated(orders[k]) ==>
               lo <= orders[k].deliveredDate.value - orders[k].createdAt.value <= hi
    requires DatedCount(orders) > 0
    requires 2 * DatedCount(orders) * avg - DatedCount(orders) <= 2 * DeliveryDaySum(orders)
             < 2 * DatedCount(orders) * avg + DatedCount(orders)
    ensures lo <= avg <= hi
  {
    DaySumBounds(orders, lo, hi);
    RoundedBetween(DatedCount(orders), DeliveryDaySum(orders), avg, lo, hi);
  }

  /** A rounded quotient of a sum between n * lo and n * hi lies between lo and hi. */
  lemma RoundedBetween(n: int, sum: int, avg: int, lo: int, hi: int)
    requires n > 0
    requires lo * n <= sum <= hi * n
    requires 2 * n * avg - n <= 2 * sum < 2 * n * avg + n
    ensures lo <= avg <= hi
  {
    if avg < lo {
      MulNonneg(n, lo - 1 - avg);
      assert false;
    }
    if avg > hi {
      MulNonneg(n, avg - 1 - hi);
      assert false;
    }
  }

  /**
   * The entry `r` reports on supplier `s`: its orders, its delivered orders,
   * the rounded average delivery days of the delivered orders that carry
   * both dates (0 when none does), and the summed order amounts.
   */
  predicate Reports(r: SupplierPerformance, s: SupplierRef, orders: seq<PurchaseOrder>) {
    var mine := OrdersOf(orders, s.id);
    var delivered := Delivered(mine);
    && r.id == s.id && r.name == s.name
    && r.totalOrders == |mine|
    && r.deliveredOrders == |delivered|
    && r.deliveredOrders <= r.totalOrders
    && r.totalAmount == AmountSum(mine)
    && (DatedCount(delivered) == 0 ==> r.avgDeliveryDays == 0)
    && (DatedCount(delivered) > 0 ==> r.avgDeliveryDays == RoundDiv(DeliveryDaySum(delivered), DatedCount(delivered)))
  }

  /**
   * `supplierPerformance`: one entry per supplier, in query order, counting
   * its orders and delivered orders, averaging the delivery days of the
   * delivered orders that carry both dates, and summing the order amounts.
   */
  method SupplierPerformanceOf(suppliers: seq<SupplierRef>, orders: seq<PurchaseOrder>)
    returns (result: seq<SupplierPerformance>)
    ensures |result| == |suppliers|
    ensures forall i :: 0 <= i < |suppliers| ==> Reports(result[i], suppliers[i], orders)
  {
    result := [];
    var i := 0;
    while i < |suppliers|
      invariant 0 <= i <= |suppliers| && |result| == i
      invariant forall j :: 0 <= j < i ==> Reports(result[j], suppliers[j], orders)
    {
      var supplier := suppliers[i];
      var supplierOrders := OrdersOf(orders, supplier.id);
      var deliveredOrders := Delivered(supplierOrders);
      var avg := AverageDeliveryDays(deliveredOrders);
      ghost var n := DatedCount(deliveredOrders);
      if n > 0 {
        RoundDivUnique(DeliveryDaySum(deliveredOrders), n, avg);
      }
      var entry := SupplierPerformance(supplier.id, supplier.name, |supplierOrders|, |deliveredOrders|,
                                       avg, AmountSum(supplierOrders));
      assert Reports(entry, supplier, orders);
      result := result + [entry];
      i := i + 1;
    }
  }

  /** `Math.round` is pinned down by its bracket: only one integer lies within half of a / b. */
  lemma RoundDivUnique(a: int, b: int, r: int)
    requires b > 0
    requires 2 * b * r - b <= 2 * a < 2 * b * r + b
    ensures r == RoundDiv(a, b)
  {
    var q := RoundDiv(a, b);
    if r < q {
      MulNonneg(b, q - r - 1);
      assert false;
    } else if r > q {
      MulNonneg(b, r - q - 1);
      assert false;
    }
  }

  /** Orders per supplier, summed over a list of supplier ids. */
  function OrdersAcross(ids: seq<string>, orders: seq<PurchaseOrder>): int {
    if ids == [] then 0 else |OrdersOf(orders, ids[0])| + OrdersAcross(ids[1..], orders)
  }

  /** Orders whose `supplier_id` names none of the listed suppliers. */
  function Unmatched(ids: seq<string>, orders: seq<PurchaseOrder>): nat {
    if orders == [] then 0
    else
      var o := orders[|orders| - 1];
      Unmatched(ids, orders[..|orders| - 1]) + (if o.supplierId.Some? && o.supplierId.value in ids then 0 else 1)
  }

  lemma {:induction false} OrdersAcrossSnoc(ids: seq<string>, orders: seq<PurchaseOrder>, o: PurchaseOrder)
    requires DistinctStrings(ids)
    ensures OrdersAcross(ids, orders + [o])
            == OrdersAcross(ids, orders) + (if o.supplierId.Some? && o.supplierId.value in ids then 1 else 0)
  {
    if ids != [] {
      assert (orders + [o])[..|orders + [o]| - 1] == orders;
      OrdersAcrossSnoc(ids[1..], orders, o);
      assert o.supplierId.Some? && o.supplierId.value in ids[1..] ==> o.supplierId.value != ids[0];
      assert o.supplierId.Some? ==> (o.supplierId.value in ids <==> o.supplierId.value == ids[0] || o.supplierId.value in ids[1..]);
    }
  }

  lemma {:induction false} OrdersAcrossEmpty(ids: seq<string>)
    ensures OrdersAcross(ids, []) == 0
  {
    if ids != [] {
      OrdersAcrossEmpty(ids[1..]);
    }
  }

  /**
   * Over suppliers with distinct ids, every order is counted for its own
   * supplier once, and an order with no matching supplier for none: the
   * per-supplier totals add up to the orders minus the unmatched ones.
   */
  lemma {:induction false} OrderCountsAddUp(ids: seq<string>, orders: seq<PurchaseOrder>)
    requires DistinctStrings(ids)
    ensures OrdersAcross(ids, orders) == |orders| - Unmatched(ids, orders)
    ensures OrdersAcross(ids, orders) <= |orders|
  {
    if orders == [] {
      OrdersAcrossEmpty(ids);
    } else {
      var init := orders[..|orders| - 1];
      OrderCountsAddUp(ids, init);
      OrdersAcrossSnoc(ids, init, orders[|orders| - 1]);
      assert init + [orders[|orders| - 1]] == orders;
    }
  }

  // ===========================================================================
  // Dashboard counters

  /** A `medicines` row as the dashboard query reads it. */
  datatype StatsRow = StatsRow(quantity: int, unitPrice: int, expiryDate: int, minStockLevel: int)

  datatype DashboardStats = DashboardStats(
    totalMedicines: int, totalStock: int, lowStockItems: int, expiringSoonItems: int,
    expiredItems: int, todaysSales: int, totalValue: int)

  /** Strictly below the minimum level and strictly above zero. */
  predicate IsLowStock(m: StatsRow) {
    m.quantity < m.minStockLevel && m.quantity > 0
  }

  /** The expiry date is today or earlier. */
  predicate IsExpired(m: StatsRow, today: int) {
    m.expiryDate <= today
  }

  /** The expiry date is after today and within thirty days. */
  predicate IsExpiringSoon(m: StatsRow, today: int) {
    today < m.expiryDate <= today + 30
  }

  function LowStockCount(meds: seq<StatsRow>): nat {
    if meds == [] then 0 else (if IsLowStock(meds[0]) then 1 else 0) + LowStockCount(meds[1..])
  }

  function ExpiredCount(meds: seq<StatsRow>, today: int): nat {
    if meds == [] then 0 else (if IsExpired(meds[0], today) then 1 else 0) + ExpiredCount(meds[1..], today)
  }

  function ExpiringSoonCount(meds: seq<StatsRow>, today: int): nat {
    if meds == [] then 0 else (if IsExpiringSoon(meds[0], today) then 1 else 0) + ExpiringSoonCount(meds[1..], today)
  }

  function StockSum(meds: seq<StatsRow>): int {
    if meds == [] then 0 else meds[0].quantity + StockSum(meds[1..])
  }

  function ValueSum(meds: seq<StatsRow>): int {
    if meds == [] then 0 else meds[0].quantity * meds[0].unitPrice + ValueSum(meds[1..])
  }

  function SalesSum(amounts: seq<int>): int {
    if amounts == [] then 0 else amounts[0] + SalesSum(amounts[1..])
  }

  /** A medicine is never both expired and expiring soon, so the two counts fit in the total. */
  lemma {:induction false} ExpiryCountsDisjoint(meds: seq<StatsRow>, today: int)
    ensures ExpiredCount(meds, today) + ExpiringSoonCount(meds, today) <= |meds|
  {
    if meds != [] {
      ExpiryCountsDisjoint(meds[1..], today);
    }
  }

  lemma {:induction false} LowStockAtMostAll(meds: seq<StatsRow>)
    ensures LowStockCount(meds) <= |meds|
  {
    if meds != [] {
      LowStockAtMostAll(meds[1..]);
    }
  }

  /**
   * A row adds one to the low-stock count exactly when its stock is above
   * zero and strictly below its minimum level; at the minimum, or with no
   * stock, it adds nothing.
   */
  lemma {:induction false} LowStockIsStrict(meds: seq<StatsRow>, m: StatsRow)
    ensures 0 < m.quantity < m.minStockLevel ==> LowStockCount(meds + [m]) == LowStockCount(meds) + 1
    ensures m.quantity >= m.minStockLevel || m.quantity <= 0 ==> LowStockCount(meds + [m]) == LowStockCount(meds)
  {
    if meds != [] {
      assert (meds + [m])[1..] == meds[1..] + [m];
      LowStockIsStrict(meds[1..], m);
    } else {
      assert ([] + [m])[1..] == [];
    }
  }

  /** `dashboardStats`: counters over the medicine rows and today's sale amounts. */
  function DashboardStatsOf(meds: seq<StatsRow>, todaysSales: seq<int>, today: int): (r: DashboardStats)
    ensures r.totalMedicines == |meds|
    ensures r.totalStock == StockSum(meds) && r.totalValue == ValueSum(meds)
    ensures r.lowStockItems == LowStockCount(meds)
    ensures r.expiredItems == ExpiredCount(meds, today) && r.expiringSoonItems == ExpiringSoonCount(meds, today)
    ensures r.todaysSales == SalesSum(todaysSales)
    ensures r.expiredItems + r.expiringSoonItems <= r.totalMedicines
    ensures 0 <= r.lowStockItems <= r.totalMedicines
  {
    ExpiryCountsDisjoint(meds, today);
    LowStockAtMostAll(meds);
    DashboardStats(|meds|, StockSum(meds), LowStockCount(meds), ExpiringSoonCount(meds, today),
                   ExpiredCount(meds, today), SalesSum(todaysSales), ValueSum(meds))
  }
}

=== FILE: app_routes.dfy ===
/**
 * The route table: which page each path shows and which gate props wrap it.
 */
module AppRoutes {
  import opened Domain
  import opened ProtectedRoute

  datatype Page = AuthPage | Dashboard | MedicinesPage | StockInPage | StockOutPage
                | AlertsPage | ReportsPage | SuppliersPage | SettingsPage | NotFound

  /** The declared paths; anything else falls through to the catch-all route. */
  function PageFor(path: string): Page {
    if path == "/auth" then AuthPage
    else if path == "/" then Dashboard
    else if path == "/medicines" then MedicinesPage
    else if path == "/stock-in" then StockInPage
    else if path == "/stock-out" then StockOutPage
    else if path == "/alerts" then AlertsPage
    else if path == "/reports" then ReportsPage
    else if path == "/suppliers" then SuppliersPage
    else if path == "/settings" then SettingsPage
    else NotFound
  }

  /** The gate props each page is declared with; `None` for an unguarded page. */
  function GuardFor(p: Page): Option<Guard> {
    match p
    case AuthPage => None
    case NotFound => None
    case Dashboard => Some(Guard(None, None))
    case AlertsPage => Some(Guard(None, None))
    case ReportsPage => Some(Guard(None, None))
    case MedicinesPage => Some(Guard(Some([Admin, Pharmacist, StoreManager]), Some(true)))
    case StockInPage => Some(Guard(Some([Admin, Pharmacist, StoreManager]), Some(true)))
    case StockOutPage => Some(Guard(Some([Admin, Pharmacist, StoreManager]), Some(true)))
    case SuppliersPage => Some(Guard(Some([Admin, StoreManager]), Some(true)))
    case SettingsPage => Some(Guard(Some([Admin]), Some(true)))
  }

  /** What navigating to a path shows: an unguarded page directly, otherwise the gate's decision. */
  function Navigate(path: string, s: Session): Gate {
    match GuardFor(PageFor(path))
    case None => Granted
    case Some(g) => Decide(s, g)
  }

  predicate SignedInStaff(s: Session) {
    !s.isLoading && s.user.Some? && s.isStaff
  }

  /** The sign-in page and unknown paths are shown to everyone, even while loading. */
  lemma UnguardedPaths(path: string, s: Session)
    requires PageFor(path) in {AuthPage, NotFound}
    ensures Navigate(path, s) == Granted
  {
  }

  /** The dashboard, alerts and reports admit every signed-in staff member, whatever roles they hold. */
  lemma StaffOnlyPaths(path: string, s: Session)
    requires path in {"/", "/alerts", "/reports"}
    ensures Navigate(path, s) == Granted <==> SignedInStaff(s)
  {
  }

  /** Medicines and both stock pages need one of admin, pharmacist or store manager. */
  lemma InventoryPaths(path: string, s: Session)
    requires path in {"/medicines", "/stock-in", "/stock-out"}
    requires SignedInStaff(s)
    ensures Navigate(path, s) == Granted <==> Admin in s.roles || Pharmacist in s.roles || StoreManager in s.roles
  {
    var required := [Admin, Pharmacist, StoreManager];
    if Admin in s.roles || Pharmacist in s.roles || StoreManager in s.roles {
      var r :| r in required && r in s.roles;
    }
  }

  /** Suppliers need admin or store manager; settings need admin. */
  lemma AdministrationPaths(s: Session)
    requires SignedInStaff(s)
    ensures Navigate("/suppliers", s) == Granted <==> Admin in s.roles || StoreManager in s.roles
    ensures Navigate("/settings", s) == Granted <==> Admin in s.roles
  {
    if Admin in s.roles {
      assert Admin in [Admin, StoreManager] && Admin in [Admin];
    } else if StoreManager in s.roles {
      assert StoreManager in [Admin, StoreManager];
    }
  }

  /** A signed-in admin is admitted everywhere. */
  lemma AdminEverywhere(path: string, s: Session)
    requires SignedInStaff(s) && Admin in s.roles
    ensures Navigate(path, s) == Granted
  {
    match GuardFor(PageFor(path))
    case None =>
    case Some(g) =>
      if g.requiredRoles.Some? && |g.requiredRoles.value| > 0 {
        assert Admin in g.requiredRoles.value;
      }
  }

  /** A staff member holding only the doctor role is refused the five role-gated pages. */
  lemma DoctorOnlyDenied(path: string, s: Session)
    requires SignedInStaff(s) && s.roles == [Doctor]
    requires path in {"/medicines", "/stock-in", "/stock-out", "/suppliers", "/settings"}
    ensures Navigate(path, s) == AccessDenied
  {
  }
}

=== FILE: csv.dfy ===
/**
 * The comma-separated export shared by the analytics tables: each row's
 * cells are joined by ',' and the rows by '\n', with no quoting or escaping.
 */
module Csv {
  import opened Text

  /** `rows.map((row) => row.join(','))`. */
  function Lines(rows: seq<seq<string>>): (r: seq<string>)
    ensures |r| == |rows|
    ensures forall i :: 0 <= i < |rows| ==> r[i] == Join(rows[i], ',')
  {
    if rows == [] then [] else [Join(rows[0], ',')] + Lines(rows[1..])
  }

  /** `rows.map((row) => row.join(',')).join('\n')`. */
  function Render(rows: seq<seq<string>>): string {
    Join(Lines(rows), '\n')
  }

  /** A cell that holds neither separator. */
  predicate Plain(cell: string) {
    Free(cell, ',') && Free(cell, '\n')
  }

  /** Rendered integers and dollar amounts never hold a separator. */
  lemma NumberIsPlain(n: int)
    ensures Plain(IntToString(n))
  {
  }

  lemma AmountIsPlain(cents: int)
    ensures Plain(Dollars(cents))
  {
  }

  /** A row none of whose cells holds a separator. */
  predicate RowPlain(row: seq<string>) {
    forall j :: 0 <= j < |row| ==> Plain(row[j])
  }

  /** A row whose cells contain neither separator is plain (the form the solver checks quickly on literals). */
  lemma RowWithoutSeparators(row: seq<string>)
    requires forall j :: 0 <= j < |row| ==> ',' !in row[j] && '\n' !in row[j]
    ensures RowPlain(row)
  {
    forall j | 0 <= j < |row| ensures Plain(row[j]) {
      assert ',' !in row[j] && '\n' !in row[j];
    }
  }

  predicate AllPlain(rows: seq<seq<string>>) {
    forall i :: 0 <= i < |rows| ==> RowPlain(rows[i])
  }

  /** A separator-free header line on top of separator-free rows. */
  lemma PlainWithHeader(header: seq<string>, rows: seq<seq<string>>)
    requires RowPlain(header)
    requires AllPlain(rows)
    ensures AllPlain([header] + rows)
  {
    var all := [header] + rows;
    forall i | 0 <= i < |all| ensures RowPlain(all[i]) {
      if i > 0 {
        assert all[i] == rows[i - 1];
      }
    }
  }

  /**
   * When no cell holds a separator, splitting the text at '\n' and then each
   * line at ',' gives the table back, row for row and cell for cell.
   */
  lemma RenderSplits(rows: seq<seq<string>>)
    requires |rows| >= 1
    requires forall i :: 0 <= i < |rows| ==> |rows[i]| >= 1
    requires AllPlain(rows)
    ensures |Split(Render(rows), '\n')| == |rows|
    ensures forall i :: 0 <= i < |rows| ==> Split(Split(Render(rows), '\n')[i], ',') == rows[i]
  {
    var lines := Lines(rows);
    forall i | 0 <= i < |rows|
      ensures Free(lines[i], '\n')
      ensures Split(lines[i], ',') == rows[i]
    {
      JoinFree(rows[i], ',', '\n');
      SplitJoin(rows[i], ',');
    }
    SplitJoin(lines, '\n');
  }

  /**
   * A cell holding a comma comes back as two cells, because the export does
   * not quote: a row whose first cell is `a,b` splits into `a`, `b` and the
   * second cell.
   */
  lemma UnquotedCommaSplitsCell(a: string, b: string, c: string)
    requires ',' !in a && ',' !in b && ',' !in c
    ensures Split(Render([[a + "," + b, c]]), ',') == [a, b, c]
  {
    var row := [a + "," + b, c];
    assert Lines([row]) == [Join(row, ',')];
    assert Join(row, ',') == a + [','] + (b + [','] + c);
    NotInIsFree(a, ',');
    NotInIsFree(b, ',');
    NotInIsFree(c, ',');
    SplitPrefix(a, ',', b + [','] + c);
    SplitPrefix(b, ',', c);
    SplitFree(c, ',');
  }
}

=== FILE: domain.dfy ===
/**
 * Entities shared by the inventory client: the derived medicine status,
 * stock movement directions, user roles, the database medicine row and the
 * client-side medicine and alert records.
 *
 * Calendar dates are day indices (days since a fixed epoch, local midnight)
 * and money amounts are integer cents.
 */
module Domain {

  datatype Option<T> = None | Some(value: T) {
    function GetOr(default: T): T {
      match this
      case Some(v) => v
      case None => default
    }
  }

  /** `a` is `b` with some elements removed, the rest in their order. */
  predicate Subsequence<T(==)>(a: seq<T>, b: seq<T>)
    decreases |b|
  {
    a == [] || (b != [] && ((a[0] == b[0] && Subsequence(a[1..], b[1..])) || Subsequence(a, b[1..])))
  }

  /** An element added at the end of the longer list only may be skipped. */
  lemma {:induction false} SubsequenceSnocRight<T>(a: seq<T>, b: seq<T>, x: T)
    requires Subsequence(a, b)
    ensures Subsequence(a, b + [x])
    decreases |b|
  {
    if a != [] {
      assert (b + [x])[1..] == b[1..] + [x];
      if a[0] == b[0] && Subsequence(a[1..], b[1..]) {
        SubsequenceSnocRight(a[1..], b[1..], x);
      } else {
        SubsequenceSnocRight(a, b[1..], x);
      }
    }
  }

  /** An element added at the end of both lists is kept. */
  lemma {:induction false} SubsequenceSnocBoth<T>(a: seq<T>, b: seq<T>, x: T)
    requires Subsequence(a, b)
    ensures Subsequence(a + [x], b + [x])
    decreases |b|
  {
    if b == [] {
      assert a == [];
      assert Subsequence([x][1..], [x][1..]);
    } else {
      assert (b + [x])[1..] == b[1..] + [x];
      if a != [] && a[0] == b[0] && Subsequence(a[1..], b[1..]) {
        SubsequenceSnocBoth(a[1..], b[1..], x);
        assert (a + [x])[1..] == a[1..] + [x];
      } else {
        SubsequenceSnocBoth(a, b[1..], x);
      }
    }
  }

  /** The five inventory statuses (src/types/medicine.ts:14). */
  datatype Status = InStock | LowStock | OutOfStock | Expired | ExpiringSoon

  /** The string stored in the `status` column and used by status filters. */
  function StatusName(s: Status): string {
    match s
    case InStock => "in-stock"
    case LowStock => "low-stock"
    case OutOfStock => "out-of-stock"
    case Expired => "expired"
    case ExpiringSoon => "expiring-soon"
  }

  /** Distinct statuses have distinct names, so filtering by name is filtering by status. */
  lemma StatusNameInjective(a: Status, b: Status)
    ensures StatusName(a) == StatusName(b) <==> a == b
  {
  }

  /** 'stock-in' | 'stock-out' */
  datatype MovementType = StockIn | StockOut

  function MovementTypeName(t: MovementType): string {
    match t
    case StockIn => "stock-in"
    case StockOut => "stock-out"
  }

  /** The `app_role` enumeration of the database schema. */
  datatype Role = Admin | Pharmacist | Doctor | StoreManager

  /**
   * A row of the `medicines` table as the hooks read it. The `*_date` and
   * timestamp columns are day indices; `unitPrice` is in cents.
   */
  datatype DbMedicine = DbMedicine(
    id: string,
    name: string,
    genericName: Option<string>,
    category: string,
    manufacturer: Option<string>,
    batchNumber: string,
    quantity: int,
    minStockLevel: int,
    unitPrice: int,
    expiryDate: int,
    location: Option<string>,
    barcode: Option<string>,
    status: Status,
    createdAt: string,
    updatedAt: string)

  /** A row inserted into `stock_movements`. */
  datatype StockMovement = StockMovement(
    medicineId: string,
    kind: MovementType,
    quantity: int,
    batchNumber: string,
    reason: string,
    performedBy: Option<string>)

  /** The client-side medicine record used by the mock pages and forms. */
  datatype Medicine = Medicine(
    id: string,
    name: string,
    genericName: string,
    category: string,
    manufacturer: string,
    batchNumber: string,
    quantity: int,
    minStockLevel: int,
    unitPrice: int,
    expiryDate: string,
    location: string,
    barcode: Option<string>,
    status: Status,
    createdAt: string,
    updatedAt: string)

  datatype AlertType = ExpiryAlert | LowStockAlert | OutOfStockAlert | SystemAlert
  datatype Severity = Info | Warning | Critical

  datatype Alert = Alert(
    id: string,
    kind: AlertType,
    severity: Severity,
    title: string,
    message: string,
    medicineId: Option<string>,
    medicineName: Option<string>,
    isRead: bool,
    createdAt: string)
}

=== FILE: expiry_badge.dfy ===
/**
 * The expiry badge: a colour band and a label for the number of whole days
 * from today's midnight to the expiry date, or "Invalid Date" when the date
 * does not parse (the day count is then absent).
 */
module ExpiryBadge {
  import opened Domain
  import opened Text

  datatype Tone = Muted | ExpiredTone | CriticalTone | WarningTone | LowStockTone

  datatype Badge = Badge(tone: Tone, caption: string)

  function Plural(n: int, word: string): string {
    if n != 1 then word + "s" else word
  }

  /** The badge for the given day count, or for an unparsable date. */
  function BadgeFor(daysUntilExpiry: Option<int>): (b: Badge)
    ensures daysUntilExpiry.None? ==> b.caption == "Invalid Date"
    ensures b.tone == Muted <==> daysUntilExpiry.None? || daysUntilExpiry.value > 90
    ensures b.tone == ExpiredTone <==> daysUntilExpiry.Some? && daysUntilExpiry.value < 0
    ensures b.tone == CriticalTone <==> daysUntilExpiry.Some? && 0 <= daysUntilExpiry.value <= 7
    ensures b.tone == WarningTone <==> daysUntilExpiry.Some? && 8 <= daysUntilExpiry.value <= 30
    ensures b.tone == LowStockTone <==> daysUntilExpiry.Some? && 31 <= daysUntilExpiry.value <= 90
  {
    match daysUntilExpiry
    case None => Badge(Muted, "Invalid Date")
    case Some(d) =>
      if d < 0 then Badge(ExpiredTone, "Expired " + NatToString(-d) + " days ago")
      else if d == 0 then Badge(CriticalTone, "Expires Today")
      else if d <= 7 then Badge(CriticalTone, NatToString(d) + " " + Plural(d, "day") + " left")
      else if d <= 30 then Badge(WarningTone, NatToString(d) + " days left")
      else if d <= 90 then Badge(LowStockTone, NatToString(d) + " days left")
      else
        var months := d / 30;
        Badge(Muted, NatToString(months) + " " + Plural(months, "month") + " left")
  }

  /** Between one and ninety days the label starts with the day count itself. */
  lemma DayLabelShowsCount(d: int)
    requires 1 <= d <= 90
    ensures ParseInt(BadgeFor(Some(d)).caption) == Some(d)
  {
    var rest := if d <= 7 then " " + Plural(d, "day") + " left" else " days left";
    assert BadgeFor(Some(d)).caption == NatToString(d) + rest;
    ParseLeadingCount(d, rest);
  }

  /** "day" is singular exactly for one day. */
  lemma SingularOnlyForOne(d: int)
    requires 1 <= d <= 7
    ensures BadgeFor(Some(d)).caption == NatToString(d) + (if d == 1 then " day left" else " days left")
  {
  }

  /** Past ninety days the label counts whole thirty-day months, always at least three of them. */
  lemma MonthLabel(d: int)
    requires d > 90
    ensures d / 30 >= 3
    ensures BadgeFor(Some(d)).caption == NatToString(d / 30) + " months left"
    ensures ParseInt(BadgeFor(Some(d)).caption) == Some(d / 30)
  {
    var months := d / 30;
    assert months >= 3;
    assert BadgeFor(Some(d)).caption == NatToString(months) + " " + Plural(months, "month") + " left";
    assert Plural(months, "month") == "months";
    assert NatToString(months) + " " + "months" + " left" == NatToString(months) + " months left";
    ParseLeadingCount(months, " months left");
  }

  /** Only an unparsable date is labelled "Invalid Date". */
  lemma OnlyInvalidDateSaysSo(d: int)
    ensures BadgeFor(Some(d)).caption != "Invalid Date"
  {
    var c := BadgeFor(Some(d)).caption;
    if d < 0 || d == 0 {
      assert c[0] == 'E';
    } else if d <= 90 {
      assert IsDigit(NatToString(d)[0]);
      assert c[0] == NatToString(d)[0];
    } else {
      MonthLabel(d);
      assert IsDigit(NatToString(d / 30)[0]);
      assert c[0] == NatToString(d / 30)[0];
    }
  }

  /** An expired date reports how many days ago it expired, as a positive count. */
  lemma ExpiredLabel(d: int)
    requires d < 0
    ensures var caption := BadgeFor(Some(d)).caption;
            caption[..8] == "Expired " && ParseInt(caption[8..]) == Some(-d)
  {
    var head := "Expired ";
    var tail := NatToString(-d) + " days ago";
    var caption := BadgeFor(Some(d)).caption;
    assert caption == head + tail;
    assert |head| == 8;
    assert caption[..8] == head;
    assert caption[8..] == tail;
    ParseLeadingCount(-d, " days ago");
  }
}

=== FILE: expiry_loss_table.dfy ===
/**
 * The near-expiry loss table of the analytics page: the total potential
 * loss, the severity badge of each row and the CSV export.
 */
module ExpiryLossTable {
  import opened Domain
  import opened Text
  import opened Csv
  import Analytics
  import ExpiryBadge

  type LossRow = Analytics.ExpiryLossData

  /** `data.reduce((sum, item) => sum + item.potentialLoss, 0)`. */
  function TotalLoss(data: seq<LossRow>): int {
    if data == [] then 0 else data[0].potentialLoss + TotalLoss(data[1..])
  }

  /** The total of two runs of rows is the sum of their totals. */
  lemma {:induction false} TotalLossAppend(a: seq<LossRow>, b: seq<LossRow>)
    ensures TotalLoss(a + b) == TotalLoss(a) + TotalLoss(b)
  {
    if a == [] {
      assert a + b == b;
    } else {
      assert (a + b)[1..] == a[1..] + b;
      TotalLossAppend(a[1..], b);
    }
  }

  /** With no negative loss the total is non-negative and at least every single loss. */
  lemma {:induction false} TotalLossBounds(data: seq<LossRow>)
    requires forall k :: 0 <= k < |data| ==> data[k].potentialLoss >= 0
    ensures TotalLoss(data) >= 0
    ensures forall k :: 0 <= k < |data| ==> data[k].potentialLoss <= TotalLoss(data)
  {
    if data != [] {
      TotalLossBounds(data[1..]);
      assert forall k :: 1 <= k < |data| ==> data[k] == data[1..][k - 1];
    }
  }

  /**
   * For the rows the expiry query selects, with non-negative unit prices,
   * the headline total bounds each row's loss.
   */
  lemma QueryTotalBoundsEachLoss(rows: seq<Analytics.ExpiryRow>, today: int)
    requires forall k :: 0 <= k < |rows| ==> Analytics.ExpiryCandidate(rows[k], today)
    requires forall k :: 0 <= k < |rows| ==> rows[k].unitPrice >= 0
    ensures TotalLoss(Analytics.ExpiryLoss(rows, today)) >= 0
    ensures forall k :: 0 <= k < |rows| ==>
              Analytics.ExpiryLoss(rows, today)[k].potentialLoss <= TotalLoss(Analytics.ExpiryLoss(rows, today))
  {
    var data := Analytics.ExpiryLoss(rows, today);
    forall k | 0 <= k < |rows|
      ensures data[k].potentialLoss >= 0
    {
      Analytics.ExpiryLossBounds(rows, today, k);
      Analytics.MulNonneg(data[k].quantity, data[k].unitPrice);
    }
    TotalLossBounds(data);
  }

  // ---------------------------------------------------------------------------
  // Severity badge

  datatype Severity = ExpiredSeverity | CriticalSeverity | WarningSeverity | SoonSeverity

  function SeverityText(s: Severity): string {
    match s
    case ExpiredSeverity => "Expired"
    case CriticalSeverity => "Critical"
    case WarningSeverity => "Warning"
    case SoonSeverity => "Soon"
  }

  /** `getSeverityBadge`: the four bands partition the day counts. */
  function SeverityOf(days: int): (s: Severity)
    ensures s == ExpiredSeverity <==> days <= 0
    ensures s == CriticalSeverity <==> 1 <= days <= 7
    ensures s == WarningSeverity <==> 8 <= days <= 14
    ensures s == SoonSeverity <==> days >= 15
  {
    if days <= 0 then ExpiredSeverity
    else if days <= 7 then CriticalSeverity
    else if days <= 14 then WarningSeverity
    else SoonSeverity
  }

  /** How pressing a band is: Expired most, Soon least. */
  function Urgency(s: Severity): nat {
    match s
    case ExpiredSeverity => 3
    case CriticalSeverity => 2
    case WarningSeverity => 1
    case SoonSeverity => 0
  }

  /** Fewer days left never gives a milder badge. */
  lemma SeverityMonotone(d1: int, d2: int)
    requires d1 <= d2
    ensures Urgency(SeverityOf(d1)) >= Urgency(SeverityOf(d2))
  {
  }

  /**
   * On the expiry day itself this table already says "Expired", while the
   * inventory's expiry badge still says "Expires Today" with the critical tone.
   */
  lemma ExpiryDayDisagreesWithBadge()
    ensures SeverityText(SeverityOf(0)) == "Expired"
    ensures ExpiryBadge.BadgeFor(Some(0)).caption == "Expires Today"
    ensures ExpiryBadge.BadgeFor(Some(0)).tone == ExpiryBadge.CriticalTone
  {
  }

  // ---------------------------------------------------------------------------
  // CSV export

  const Header: seq<string> :=
    ["Medicine", "Quantity", "Unit Price", "Expiry Date", "Days Until Expiry", "Potential Loss"]

  /** The six exported cells of one row, in header order. */
  function Cells(item: LossRow): (r: seq<string>)
    ensures |r| == |Header|
  {
    [item.name, IntToString(item.quantity), Dollars(item.unitPrice),
     item.expiryDate, IntToString(item.daysUntilExpiry), Dollars(item.potentialLoss)]
  }

  function DataRows(data: seq<LossRow>): (r: seq<seq<string>>)
    ensures |r| == |data|
    ensures forall i :: 0 <= i < |data| ==> r[i] == Cells(data[i])
  {
    seq(|data|, i requires 0 <= i < |data| => Cells(data[i]))
  }

  /** `handleExport`: the header line, then one line per row. */
  function ExportCsv(data: seq<LossRow>): string {
    Render([Header] + DataRows(data))
  }

  /** The cells of one row are separator-free when its name and date text are. */
  lemma CellsPlain(item: LossRow)
    requires Plain(item.name) && Plain(item.expiryDate)
    ensures RowPlain(Cells(item))
  {
    var c := Cells(item);
    forall j | 0 <= j < |c| ensures Plain(c[j]) {
      if j == 1 {
        NumberIsPlain(item.quantity);
      } else if j == 2 {
        AmountIsPlain(item.unitPrice);
      } else if j == 4 {
        NumberIsPlain(item.daysUntilExpiry);
      } else if j == 5 {
        AmountIsPlain(item.potentialLoss);
      }
    }
  }

  /** The quantity and day columns read back as the row's own numbers. */
  lemma CellsReadBack(item: LossRow)
    ensures ParseInt(Cells(item)[1]) == Some(item.quantity)
    ensures ParseInt(Cells(item)[4]) == Some(item.daysUntilExpiry)
    ensures Cells(item)[2] == Dollars(item.unitPrice) && Cells(item)[5] == Dollars(item.potentialLoss)
  {
    var c := Cells(item);
    assert c[1] == IntToString(item.quantity);
    assert c[4] == IntToString(item.daysUntilExpiry);
    ParseIntToString(item.quantity);
    ParseIntToString(item.daysUntilExpiry);
  }

  lemma HeaderIsPlain()
    ensures RowPlain(Header)
  {
    forall j | 0 <= j < |Header| ensures ',' !in Header[j] && '\n' !in Header[j] {
    }
    RowWithoutSeparators(Header);
  }

  lemma RowsPlain(data: seq<LossRow>)
    requires forall k :: 0 <= k < |data| ==> Plain(data[k].name) && Plain(data[k].expiryDate)
    ensures AllPlain(DataRows(data))
  {
    var rows := DataRows(data);
    forall i | 0 <= i < |rows| ensures RowPlain(rows[i]) {
      assert rows[i] == Cells(data[i]);
      CellsPlain(data[i]);
    }
  }

  lemma TablePlain(data: seq<LossRow>)
    requires forall k :: 0 <= k < |data| ==> Plain(data[k].name) && Plain(data[k].expiryDate)
    ensures AllPlain([Header] + DataRows(data))
  {
    HeaderIsPlain();
    RowsPlain(data);
    PlainWithHeader(Header, DataRows(data));
  }

  /**
   * When no name or date text holds a comma or line break, the export has
   * one line per row after the header, every line has the six columns, the
   * numeric columns read back as the row's own values and the two money
   * columns are the row's price and loss in dollars.
   */
  lemma ExportColumns(data: seq<LossRow>)
    requires forall k :: 0 <= k < |data| ==> Plain(data[k].name) && Plain(data[k].expiryDate)
    ensures |Split(ExportCsv(data), '\n')| == |data| + 1
    ensures Split(Split(ExportCsv(data), '\n')[0], ',') == Header
    ensures forall k :: 0 <= k < |data| ==>
              var fields := Split(Split(ExportCsv(data), '\n')[k + 1], ',');
              |fields| == 6 && fields[0] == data[k].name && fields[3] == data[k].expiryDate &&
              ParseInt(fields[1]) == Some(data[k].quantity) &&
              ParseInt(fields[4]) == Some(data[k].daysUntilExpiry) &&
              fields[2] == Dollars(data[k].unitPrice) && fields[5] == Dollars(data[k].potentialLoss) &&
              fields == Cells(data[k])
  {
    var rows := [Header] + DataRows(data);
    TablePlain(data);
    RenderSplits(rows);
    var lines := Split(ExportCsv(data), '\n');
    forall k | 0 <= k < |data|
      ensures Split(lines[k + 1], ',') == Cells(data[k])
      ensures ParseInt(Cells(data[k])[1]) == Some(data[k].quantity)
      ensures ParseInt(Cells(data[k])[4]) == Some(data[k].daysUntilExpiry)
      ensures Cells(data[k])[2] == Dollars(data[k].unitPrice) && Cells(data[k])[5] == Dollars(data[k].potentialLoss)
    {
      assert rows[k + 1] == Cells(data[k]);
      CellsReadBack(data[k]);
    }
  }
}

=== FILE: medicine_table.dfy ===
/**
 * The inventory table's client-side filter: a case-insensitive search over
 * name, generic name and batch number, combined with exact category and
 * status filters that the value "all" switches off.
 */
module MedicineTable {
  import opened Domain
  import opened Text

  /** Whether one medicine passes the three filters. */
  predicate Matches(m: Medicine, searchTerm: string, categoryFilter: string, statusFilter: string) {
    (ContainsIgnoreCase(m.name, searchTerm)
     || ContainsIgnoreCase(m.genericName, searchTerm)
     || ContainsIgnoreCase(m.batchNumber, searchTerm))
    && (categoryFilter == "all" || m.category == categoryFilter)
    && (statusFilter == "all" || StatusName(m.status) == statusFilter)
  }

  /** `filteredMedicines`: the medicines that pass, in list order. */
  function Filtered(meds: seq<Medicine>, searchTerm: string, categoryFilter: string, statusFilter: string)
    : (r: seq<Medicine>)
    ensures |r| <= |meds|
    ensures forall i :: 0 <= i < |r| ==> Matches(r[i], searchTerm, categoryFilter, statusFilter) && r[i] in meds
  {
    if meds == [] then []
    else
      var rest := Filtered(meds[1..], searchTerm, categoryFilter, statusFilter);
      if Matches(meds[0], searchTerm, categoryFilter, statusFilter) then [meds[0]] + rest else rest
  }

  /** Every listed medicine that passes is shown. */
  lemma {:induction false} FilteredComplete(meds: seq<Medicine>, searchTerm: string, categoryFilter: string,
                                            statusFilter: string, m: Medicine)
    requires m in meds && Matches(m, searchTerm, categoryFilter, statusFilter)
    ensures m in Filtered(meds, searchTerm, categoryFilter, statusFilter)
  {
    if m != meds[0] {
      FilteredComplete(meds[1..], searchTerm, categoryFilter, statusFilter, m);
    }
  }

  /** The shown list keeps the order of the full list. */
  lemma {:induction false} FilteredIsSubsequence(meds: seq<Medicine>, searchTerm: string, categoryFilter: string,
                                                 statusFilter: string)
    ensures Subsequence(Filtered(meds, searchTerm, categoryFilter, statusFilter), meds)
  {
    if meds != [] {
      FilteredIsSubsequence(meds[1..], searchTerm, categoryFilter, statusFilter);
      var r := Filtered(meds, searchTerm, categoryFilter, statusFilter);
      if Matches(meds[0], searchTerm, categoryFilter, statusFilter) {
        assert r[0] == meds[0] && r[1..] == Filtered(meds[1..], searchTerm, categoryFilter, statusFilter);
      }
    }
  }

  /** Filtering the shown list again with the same filters changes nothing. */
  lemma {:induction false} FilteredIdempotent(meds: seq<Medicine>, searchTerm: string, categoryFilter: string,
                                              statusFilter: string)
    ensures var once := Filtered(meds, searchTerm, categoryFilter, statusFilter);
            Filtered(once, searchTerm, categoryFilter, statusFilter) == once
  {
    if meds != [] {
      FilteredIdempotent(meds[1..], searchTerm, categoryFilter, statusFilter);
      var once := Filtered(meds, searchTerm, categoryFilter, statusFilter);
      if Matches(meds[0], searchTerm, categoryFilter, statusFilter) {
        assert once[0] == meds[0] && once[1..] == Filtered(meds[1..], searchTerm, categoryFilter, statusFilter);
      }
    }
  }

  /** With an empty search and both filters at "all", the whole list is shown. */
  lemma {:induction false} NoFilterShowsAll(meds: seq<Medicine>)
    ensures Filtered(meds, "", "all", "all") == meds
  {
    if meds != [] {
      EmptyNeedle(meds[0].name);
      NoFilterShowsAll(meds[1..]);
    }
  }
}

=== FILE: medicine_table_enhanced.dfy ===
/**
 * The paged, sortable inventory table: its sort toggle, page count,
 * previous/next clamping, the five-link page window and the page reset
 * when a filter changes. Rows are fetched through the medicines hook with
 * a page size of ten.
 */
module MedicineTableEnhanced {
  import opened MedicinesHook

  const PageSize := 10

  datatype SortField = Name | Category | Quantity | ExpiryDate | StatusColumn

  /** The column name passed to the hook. */
  function ColumnOf(f: SortField): string {
    match f
    case Name => "name"
    case Category => "category"
    case Quantity => "quantity"
    case ExpiryDate => "expiry_date"
    case StatusColumn => "status"
  }

  datatype SortState = SortState(sortBy: SortField, sortOrder: SortOrder)

  /** `handleSort`: the same column flips the order, another column sorts ascending by it. */
  function NextSort(s: SortState, field: SortField): (r: SortState)
    ensures r.sortBy == field
    ensures field != s.sortBy ==> r.sortOrder == Asc
    ensures field == s.sortBy ==> r.sortOrder != s.sortOrder
  {
    if s.sortBy == field then SortState(field, if s.sortOrder == Asc then Desc else Asc)
    else SortState(field, Asc)
  }

  /** Clicking the sorted column twice restores the sort. */
  lemma ToggleTwice(s: SortState)
    ensures NextSort(NextSort(s, s.sortBy), s.sortBy) == s
  {
  }

  /** `Math.ceil(totalCount / pageSize)` for a page size of ten. */
  function PageCount(totalCount: nat): (n: nat)
    ensures n * PageSize >= totalCount
    ensures n > 0 ==> (n - 1) * PageSize < totalCount
  {
    (totalCount + PageSize - 1) / PageSize
  }

  function Min(a: int, b: int): int { if a <= b then a else b }
  function Max(a: int, b: int): int { if a >= b then a else b }

  /** The number on the i-th link of the page window. */
  function PageNumber(page: int, totalPages: nat, i: int): int {
    if totalPages <= 5 then i + 1
    else if page <= 3 then i + 1
    else if page >= totalPages - 2 then totalPages - 4 + i
    else page - 2 + i
  }

  /** `Array.from({ length: Math.min(5, totalPages) }, ...)`. */
  function PageWindow(page: int, totalPages: nat): seq<int> {
    seq(Min(5, totalPages), i => PageNumber(page, totalPages, i))
  }

  /** The window holds min(5, totalPages) consecutive page numbers. */
  lemma PageWindowShape(page: int, totalPages: nat)
    ensures |PageWindow(page, totalPages)| == Min(5, totalPages)
    ensures forall i :: 0 < i < |PageWindow(page, totalPages)| ==>
              PageWindow(page, totalPages)[i] == PageWindow(page, totalPages)[i - 1] + 1
  {
  }

  /** For a current page within range, every link is a real page and one of them is the current page. */
  lemma PageWindowInRange(page: int, totalPages: nat)
    requires 1 <= page <= totalPages
    ensures forall i :: 0 <= i < |PageWindow(page, totalPages)| ==> 1 <= PageWindow(page, totalPages)[i] <= totalPages
    ensures page in PageWindow(page, totalPages)
  {
    var w := PageWindow(page, totalPages);
    var i := if totalPages <= 5 || page <= 3 then page - 1
             else if page >= totalPages - 2 then page - totalPages + 4
             else 2;
    assert w[i] == page;
  }

  class TableState {
    var searchTerm: string
    var categoryFilter: string
    var statusFilter: string
    var page: int
    var sort: SortState
    /** The row count the hook last reported. */
    var totalCount: nat

    constructor ()
      ensures searchTerm == "" && categoryFilter == "all" && statusFilter == "all"
      ensures page == 1 && sort == SortState(Name, Asc) && totalCount == 0
    {
      searchTerm := "";
      categoryFilter := "all";
      statusFilter := "all";
      page := 1;
      sort := SortState(Name, Asc);
      totalCount := 0;
    }

    function TotalPages(): nat
      reads this
    {
      PageCount(totalCount)
    }

    /** The previous/next links and the window are rendered only beyond one page. */
    function ShowsPagination(): (shown: bool)
      reads this
      ensures shown <==> totalCount > PageSize
    {
      TotalPages() > 1
    }

    /** The options the table passes to the medicines hook. */
    function Options(): (o: FetchOptions)
      reads this
      ensures o.pageSize == PageSize && o.page == page
      ensures o.sortBy == ColumnOf(sort.sortBy) && o.sortOrder == sort.sortOrder
      ensures o.searchTerm == searchTerm && o.categoryFilter == categoryFilter && o.statusFilter == statusFilter
    {
      FetchOptions(page, PageSize, ColumnOf(sort.sortBy), sort.sortOrder, searchTerm, categoryFilter, statusFilter)
    }

    method HandleSort(field: SortField)
      modifies this
      ensures sort == NextSort(old(sort), field)
      ensures page == old(page) && totalCount == old(totalCount)
      ensures searchTerm == old(searchTerm) && categoryFilter == old(categoryFilter) && statusFilter == old(statusFilter)
    {
      if sort.sortBy == field {
        sort := sort.(sortOrder := if sort.sortOrder == Asc then Desc else Asc);
      } else {
        sort := SortState(field, Asc);
      }
    }

    /** The previous link: one page back, never below the first page. */
    method Previous()
      modifies this
      ensures page == Max(1, old(page) - 1) && page >= 1
      ensures sort == old(sort) && totalCount == old(totalCount)
      ensures searchTerm == old(searchTerm) && categoryFilter == old(categoryFilter) && statusFilter == old(statusFilter)
    {
      page := Max(1, page - 1);
    }

    /** The next link: one page on, never beyond the last page. */
    method Next()
      modifies this
      ensures page == Min(TotalPages(), old(page) + 1) && page <= TotalPages()
      ensures sort == old(sort) && totalCount == old(totalCount)
      ensures searchTerm == old(searchTerm) && categoryFilter == old(categoryFilter) && statusFilter == old(statusFilter)
    {
      page := Min(TotalPages(), page + 1);
    }

    /** A page link sets the page to its number. */
    method GoTo(pageNum: int)
      modifies this
      ensures page == pageNum
      ensures sort == old(sort) && totalCount == old(totalCount)
      ensures searchTerm == old(searchTerm) && categoryFilter == old(categoryFilter) && statusFilter == old(statusFilter)
    {
      page := pageNum;
    }

    /**
     * New filter values take effect; when any of the three changed, the
     * reset effect puts the table back on the first page.
     */
    method SetFilters(search: string, category: string, status: string)
      modifies this
      ensures searchTerm == search && categoryFilter == category && statusFilter == status
      ensures (search != old(searchTerm) || category != old(categoryFilter) || status != old(statusFilter)) ==> page == 1
      ensures (search == old(searchTerm) && category == old(categoryFilter) && status == old(statusFilter)) ==> page == old(page)
      ensures sort == old(sort) && totalCount == old(totalCount)
    {
      var changed := search != searchTerm || category != categoryFilter || status != statusFilter;
      searchTerm, categoryFilter, statusFilter := search, category, status;
      if changed {
        page := 1;
      }
    }

    /** The hook reported a new row count. */
    method Loaded(count: nat)
      modifies this
      ensures totalCount == count
      ensures page == old(page) && sort == old(sort)
      ensures searchTerm == old(searchTerm) && categoryFilter == old(categoryFilter) && statusFilter == old(statusFilter)
    {
      totalCount := count;
    }
  }
}

=== FILE: medicines_hook.dfy ===
/**
 * The `useMedicines` hook: its copy of the status rule, the query it builds
 * for one page of the medicine list, the state it keeps from the response,
 * and the rows it sends on add and on partial update.
 *
 * The query is modelled as data (its filter clauses, ordering and row
 * range); `RowMatches` says what its filter clauses select. Executing it is
 * the backend's job, so a fetch takes the backend's response as a parameter.
 */
module MedicinesHook {
  import opened Domain
  import opened Text
  import StockOperations

  /** The hook's own copy of the status rule. */
  function CalculateStatus(quantity: int, minStockLevel: int, daysUntilExpiry: int): Status {
    if daysUntilExpiry < 0 then Expired
    else if daysUntilExpiry <= 30 then ExpiringSoon
    else if quantity == 0 then OutOfStock
    else if quantity <= minStockLevel then LowStock
    else InStock
  }

  /** Both copies of the rule agree on every input. */
  lemma SameStatusRule(quantity: int, minStockLevel: int, daysUntilExpiry: int)
    ensures CalculateStatus(quantity, minStockLevel, daysUntilExpiry)
         == StockOperations.CalculateStatus(quantity, minStockLevel, daysUntilExpiry)
  {
  }

  // ---------------------------------------------------------------------------
  // Pagination

  /** The inclusive row range `range(from, to)` requested for one page. */
  datatype Range = Range(from: int, to: int)

  function PageRange(page: int, pageSize: int): Range {
    var from := (page - 1) * pageSize;
    Range(from, from + pageSize - 1)
  }

  predicate InPage(i: int, page: int, pageSize: int) {
    PageRange(page, pageSize).from <= i <= PageRange(page, pageSize).to
  }

  /** A page spans exactly pageSize indices, and the next page starts right after it. */
  lemma PagesAreAdjacent(page: int, pageSize: int)
    ensures PageRange(page, pageSize).to - PageRange(page, pageSize).from + 1 == pageSize
    ensures PageRange(page + 1, pageSize).from == PageRange(page, pageSize).to + 1
  {
  }

  lemma MulMono(a: int, b: int, c: int)
    requires a <= b && c >= 0
    ensures a * c <= b * c
  {
  }

  /**
   * With a positive page size every row index i >= 0 lies on exactly one
   * page p >= 1, namely i / pageSize + 1: the pages tile the result set.
   */
  lemma {:induction false} EachIndexOnOnePage(i: int, pageSize: int)
    requires i >= 0 && pageSize > 0
    ensures InPage(i, i / pageSize + 1, pageSize)
    ensures forall p :: InPage(i, p, pageSize) ==> p == i / pageSize + 1
  {
    var k := i / pageSize;
    assert k * pageSize <= i < k * pageSize + pageSize;
    forall p | InPage(i, p, pageSize)
      ensures p == k + 1
    {
      var from := (p - 1) * pageSize;
      assert from <= i <= from + pageSize - 1;
      if p - 1 < k {
        MulMono(p, k, pageSize);
      } else if p - 1 > k {
        MulMono(k + 1, p - 1, pageSize);
      }
    }
  }

  // ---------------------------------------------------------------------------
  // The list query

  datatype SortOrder = Asc | Desc

  /** The hook's options after their defaults are applied. */
  datatype FetchOptions = FetchOptions(
    page: int,
    pageSize: int,
    sortBy: string,
    sortOrder: SortOrder,
    searchTerm: string,
    categoryFilter: string,
    statusFilter: string)

  /** The options as a caller passes them; absent ones take the hook's defaults. */
  datatype UseMedicinesOptions = UseMedicinesOptions(
    page: Option<int>,
    pageSize: Option<int>,
    sortBy: Option<string>,
    sortOrder: Option<SortOrder>,
    searchTerm: Option<string>,
    categoryFilter: Option<string>,
    statusFilter: Option<string>)

  function WithDefaults(o: UseMedicinesOptions): (r: FetchOptions)
    ensures o.page == None ==> r.page == 1
    ensures o.pageSize == None ==> r.pageSize == 10
    ensures o.sortBy == None ==> r.sortBy == "name"
    ensures o.sortOrder == None ==> r.sortOrder == Asc
    ensures o.searchTerm == None ==> r.searchTerm == ""
    ensures o.categoryFilter == None ==> r.categoryFilter == "all"
    ensures o.statusFilter == None ==> r.statusFilter == "all"
    ensures o.page.Some? ==> r.page == o.page.value
    ensures o.pageSize.Some? ==> r.pageSize == o.pageSize.value
    ensures o.sortBy.Some? ==> r.sortBy == o.sortBy.value
    ensures o.sortOrder.Some? ==> r.sortOrder == o.sortOrder.value
    ensures o.searchTerm.Some? ==> r.searchTerm == o.searchTerm.value
    ensures o.categoryFilter.Some? ==> r.categoryFilter == o.categoryFilter.value
    ensures o.statusFilter.Some? ==> r.statusFilter == o.statusFilter.value
  {
    FetchOptions(o.page.GetOr(1), o.pageSize.GetOr(10), o.sortBy.GetOr("name"), o.sortOrder.GetOr(Asc),
                 o.searchTerm.GetOr(""), o.categoryFilter.GetOr("all"), o.statusFilter.GetOr("all"))
  }

  /** A filter clause of the query. */
  datatype Clause =
    | SearchAny(term: string)   // name, generic_name or batch_number ILIKE %term%
    | CategoryIs(category: string)
    | StatusIs(status: string)

  datatype Query = Query(clauses: seq<Clause>, orderBy: string, ascending: bool, range: Range)

  /** `column ILIKE %term%`; a null column matches nothing. */
  predicate ILikeAnywhere(column: Option<string>, term: string) {
    column.Some? && ContainsIgnoreCase(column.value, term)
  }

  predicate ClauseMatches(c: Clause, row: DbMedicine) {
    match c
    case SearchAny(t) =>
      ILikeAnywhere(Some(row.name), t) || ILikeAnywhere(row.genericName, t) || ILikeAnywhere(Some(row.batchNumber), t)
    case CategoryIs(cat) => row.category == cat
    case StatusIs(st) => StatusName(row.status) == st
  }

  /** The rows a query's filter clauses select (all clauses must hold). */
  predicate RowMatches(clauses: seq<Clause>, row: DbMedicine) {
    forall k :: 0 <= k < |clauses| ==> ClauseMatches(clauses[k], row)
  }

  /** A filter value that is neither empty nor the `all` sentinel. */
  predicate Active(v: string) {
    v != "" && v != "all"
  }

  /** The selection the list promises for a set of options. */
  predicate Selected(o: FetchOptions, row: DbMedicine) {
    && (o.searchTerm != "" ==> ClauseMatches(SearchAny(o.searchTerm), row))
    && (Active(o.categoryFilter) ==> row.category == o.categoryFilter)
    && (Active(o.statusFilter) ==> StatusName(row.status) == o.statusFilter)
  }

  /**
   * `fetchMedicines` query construction: the search clause only for a
   * non-empty term, category and status clauses only for active values,
   * then the ordering and the page's row range.
   */
  method BuildQuery(o: FetchOptions) returns (q: Query)
    ensures forall row :: RowMatches(q.clauses, row) <==> Selected(o, row)
    ensures (exists k :: 0 <= k < |q.clauses| && q.clauses[k].SearchAny?) <==> o.searchTerm != ""
    ensures |q.clauses| <= 3
    ensures q.orderBy == o.sortBy && q.ascending == (o.sortOrder == Asc)
    ensures q.range == PageRange(o.page, o.pageSize)
  {
    var clauses: seq<Clause> := [];
    if o.searchTerm != "" {
      clauses := clauses + [SearchAny(o.searchTerm)];
    }
    forall row ensures RowMatches(clauses, row) <==> (o.searchTerm != "" ==> ClauseMatches(SearchAny(o.searchTerm), row)) {
      if o.searchTerm != "" { assert clauses[0] == SearchAny(o.searchTerm); }
    }
    ghost var afterSearch := clauses;
    if Active(o.categoryFilter) {
      AppendClause(clauses, CategoryIs(o.categoryFilter));
      clauses := clauses + [CategoryIs(o.categoryFilter)];
    }
    if Active(o.statusFilter) {
      AppendClause(clauses, StatusIs(o.statusFilter));
      clauses := clauses + [StatusIs(o.statusFilter)];
    }
    assert clauses[..|afterSearch|] == afterSearch;
    assert forall k :: |afterSearch| <= k < |clauses| ==> !clauses[k].SearchAny?;
    if o.searchTerm != "" {
      assert clauses[0] == afterSearch[0] == SearchAny(o.searchTerm);
    }
    var from := (o.page - 1) * o.pageSize;
    var to := from + o.pageSize - 1;
    q := Query(clauses, o.sortBy, o.sortOrder == Asc, Range(from, to));
  }

  /** Appending a clause to a query narrows it by exactly that clause. */
  lemma AppendClause(cs: seq<Clause>, c: Clause)
    ensures forall row :: RowMatches(cs + [c], row) <==> RowMatches(cs, row) && ClauseMatches(c, row)
  {
    forall row ensures RowMatches(cs + [c], row) <==> RowMatches(cs, row) && ClauseMatches(c, row) {
      if RowMatches(cs, row) && ClauseMatches(c, row) {
        forall k | 0 <= k < |cs + [c]| ensures ClauseMatches((cs + [c])[k], row) {
          if k < |cs| { assert (cs + [c])[k] == cs[k]; }
        }
      }
      if RowMatches(cs + [c], row) {
        forall k | 0 <= k < |cs| ensures ClauseMatches(cs[k], row) {
          assert (cs + [c])[k] == cs[k];
        }
        assert (cs + [c])[|cs|] == c;
      }
    }
  }

  /** With no active filter every row is selected. */
  lemma {:induction false} NoFilterSelectsAll(o: FetchOptions, row: DbMedicine)
    requires o.searchTerm == "" && !Active(o.categoryFilter) && !Active(o.statusFilter)
    ensures Selected(o, row)
  {
  }

  // ---------------------------------------------------------------------------
  // Hook state

  /** What the backend answers to the list query. */
  datatype Response =
    | Rows(data: Option<seq<DbMedicine>>, count: Option<int>)
    | Failed(message: string)

  /** `count || 0`. */
  function TotalCountOf(count: Option<int>): (n: int)
    ensures count == None ==> n == 0
    ensures count.Some? ==> n == count.value
  {
    count.GetOr(0)
  }

  /** The first loaded row with the given id, as `medicines.find(m => m.id === id)`. */
  function FindById(rows: seq<DbMedicine>, id: string): (r: Option<DbMedicine>)
    ensures r.None? <==> forall k :: 0 <= k < |rows| ==> rows[k].id != id
    ensures r.Some? ==> exists k :: 0 <= k < |rows| && rows[k] == r.value && r.value.id == id
                           && forall j :: 0 <= j < k ==> rows[j].id != id
  {
    if rows == [] then None
    else if rows[0].id == id then Some(rows[0])
    else
      var r := FindById(rows[1..], id);
      if r.Some? then
        ghost var k :| 0 <= k < |rows[1..]| && rows[1..][k] == r.value && r.value.id == id
                       && forall j :: 0 <= j < k ==> rows[1..][j].id != id;
        assert rows[k + 1] == r.value;
        r
      else r
  }

  /** `Partial<MedicineFormData>`: the fields an edit supplies. */
  datatype MedicinePatch = MedicinePatch(
    name: Option<string>,
    genericName: Option<string>,
    category: Option<string>,
    manufacturer: Option<string>,
    batchNumber: Option<string>,
    quantity: Option<int>,
    minStockLevel: Option<int>,
    unitPrice: Option<int>,
    expiryDate: Option<int>,
    location: Option<string>,
    barcode: Option<string>)

  /** The record sent to `medicines.update`: the patch, plus a status when one was recomputed. */
  datatype UpdatePayload = UpdatePayload(fields: MedicinePatch, status: Option<Status>)

  /** `MedicineFormData`: the fields the add form submits. */
  datatype MedicineFormData = MedicineFormData(
    name: string,
    genericName: Option<string>,
    category: string,
    manufacturer: Option<string>,
    batchNumber: string,
    quantity: int,
    minStockLevel: int,
    unitPrice: int,
    expiryDate: int,
    location: Option<string>,
    barcode: Option<string>)

  /** The row inserted by `addMedicine`; id and timestamps are assigned by the database. */
  datatype NewMedicineRow = NewMedicineRow(
    name: string,
    genericName: Option<string>,
    category: string,
    manufacturer: Option<string>,
    batchNumber: string,
    quantity: int,
    minStockLevel: int,
    unitPrice: int,
    expiryDate: int,
    location: Option<string>,
    barcode: Option<string>,
    status: Status)

  /** `s || null`: an absent or empty optional string is stored as null. */
  function NullIfEmpty(s: Option<string>): (r: Option<string>)
    ensures r.None? <==> s.None? || s.value == ""
    ensures r.Some? ==> r == s
  {
    if s.Some? && s.value != "" then s else None
  }

  /** The row `addMedicine` inserts for the submitted form on day `today`. */
  function InsertRow(data: MedicineFormData, today: int): (r: NewMedicineRow)
    ensures r.status == StockOperations.CalculateStatus(data.quantity, data.minStockLevel, data.expiryDate - today)
    ensures r.genericName == NullIfEmpty(data.genericName) && r.manufacturer == NullIfEmpty(data.manufacturer)
    ensures r.location == NullIfEmpty(data.location) && r.barcode == NullIfEmpty(data.barcode)
    ensures r.quantity == data.quantity && r.minStockLevel == data.minStockLevel && r.expiryDate == data.expiryDate
    ensures r.name == data.name && r.category == data.category
    ensures r.batchNumber == data.batchNumber && r.unitPrice == data.unitPrice
  {
    SameStatusRule(data.quantity, data.minStockLevel, data.expiryDate - today);
    NewMedicineRow(
      data.name,
      NullIfEmpty(data.genericName),
      data.category,
      NullIfEmpty(data.manufacturer),
      data.batchNumber,
      data.quantity,
      data.minStockLevel,
      data.unitPrice,
      data.expiryDate,
      NullIfEmpty(data.location),
      NullIfEmpty(data.barcode),
      CalculateStatus(data.quantity, data.minStockLevel, data.expiryDate - today))
  }

  /** The hook's React state. */
  class MedicinesState {
    var medicines: seq<DbMedicine>
    var totalCount: int
    var isLoading: bool
    var error: Option<string>

    constructor ()
      ensures medicines == [] && totalCount == 0 && isLoading && error == None
    {
      medicines := [];
      totalCount := 0;
      isLoading := true;
      error := None;
    }

    /**
     * `fetchMedicines`: build the query for the options, then take the
     * backend's response. A successful response replaces the page and the
     * count (`data || []`, `count || 0`); an error keeps them and records
     * the message.
     */
    method FetchMedicines(o: FetchOptions, response: Response) returns (q: Query)
      modifies this
      ensures forall row :: RowMatches(q.clauses, row) <==> Selected(o, row)
      ensures (exists k :: 0 <= k < |q.clauses| && q.clauses[k].SearchAny?) <==> o.searchTerm != ""
      ensures |q.clauses| <= 3
      ensures q.orderBy == o.sortBy && q.ascending == (o.sortOrder == Asc)
      ensures q.range == PageRange(o.page, o.pageSize)
      ensures !isLoading
      ensures response.Rows? ==> medicines == response.data.GetOr([])
                                 && totalCount == TotalCountOf(response.count) && error == None
      ensures response.Failed? ==> medicines == old(medicines) && totalCount == old(totalCount)
                                   && error == Some(response.message)
    {
      isLoading := true;
      error := None;
      q := BuildQuery(o);
      match response {
        case Failed(message) =>
          error := Some(message);
        case Rows(data, count) =>
          medicines := data.GetOr([]);
          totalCount := TotalCountOf(count);
      }
      isLoading := false;
    }

    /**
     * `updateMedicine` payload: the supplied fields, plus a status recomputed
     * from the supplied driving fields and the loaded row's other ones, only
     * when a driving field is supplied and the row is on the loaded page.
     */
    method UpdatePayloadFor(id: string, data: MedicinePatch, today: int) returns (u: UpdatePayload)
      ensures u.fields == data
      ensures u.status.Some? <==>
                (data.quantity.Some? || data.minStockLevel.Some? || data.expiryDate.Some?)
                && exists k :: 0 <= k < |medicines| && medicines[k].id == id
      ensures u.status.Some? ==>
                var cur := FindById(medicines, id).value;
                u.status.value == StockOperations.CalculateStatus(
                  data.quantity.GetOr(cur.quantity),
                  data.minStockLevel.GetOr(cur.minStockLevel),
                  data.expiryDate.GetOr(cur.expiryDate) - today)
    {
      u := UpdatePayload(data, None);
      if data.quantity.Some? || data.minStockLevel.Some? || data.expiryDate.Some? {
        var current := FindById(medicines, id);
        if current.Some? {
          var cur := current.value;
          var q := data.quantity.GetOr(cur.quantity);
          var lvl := data.minStockLevel.GetOr(cur.minStockLevel);
          var exp := data.expiryDate.GetOr(cur.expiryDate);
          SameStatusRule(q, lvl, exp - today);
          u := u.(status := Some(CalculateStatus(q, lvl, exp - today)));
        }
      }
    }
  }
}

=== FILE: medicines_page.dfy ===
/**
 * The in-memory medicine list of the medicines page: delete, edit and add,
 * and the selection that decides whether a dialog submission edits or adds.
 * The new id and the current timestamp are inputs.
 */
module MedicinesPage {
  import opened Domain

  /** `Partial<Medicine>`: the fields a submission may carry. */
  datatype MedicinePartial = MedicinePartial(
    name: Option<string>,
    genericName: Option<string>,
    category: Option<string>,
    manufacturer: Option<string>,
    batchNumber: Option<string>,
    quantity: Option<int>,
    minStockLevel: Option<int>,
    unitPrice: Option<int>,
    expiryDate: Option<string>,
    location: Option<string>,
    barcode: Option<string>)

  /** `prev.filter(m => m.id !== id)` */
  function Without(meds: seq<Medicine>, id: string): (r: seq<Medicine>)
    ensures |r| <= |meds|
    ensures forall i :: 0 <= i < |r| ==> r[i].id != id && r[i] in meds
  {
    if meds == [] then []
    else if meds[0].id == id then Without(meds[1..], id)
    else [meds[0]] + Without(meds[1..], id)
  }

  /** Deleting keeps every medicine with another id. */
  lemma {:induction false} WithoutKeepsOthers(meds: seq<Medicine>, id: string, m: Medicine)
    requires m in meds && m.id != id
    ensures m in Without(meds, id)
  {
    if meds[0] != m {
      WithoutKeepsOthers(meds[1..], id, m);
    }
  }

  /** Deleting keeps the order of the medicines that stay. */
  lemma {:induction false} WithoutInOrder(meds: seq<Medicine>, id: string)
    ensures Subsequence(Without(meds, id), meds)
  {
    if meds != [] {
      WithoutInOrder(meds[1..], id);
      var r := Without(meds, id);
      if meds[0].id != id {
        assert r[0] == meds[0] && r[1..] == Without(meds[1..], id);
      }
    }
  }

  /** Deleting an id no medicine has changes nothing. */
  lemma {:induction false} WithoutAbsentId(meds: seq<Medicine>, id: string)
    requires forall i :: 0 <= i < |meds| ==> meds[i].id != id
    ensures Without(meds, id) == meds
  {
    if meds != [] {
      WithoutAbsentId(meds[1..], id);
    }
  }

  /** A field after a spread: the supplied value when there is one, the fallback otherwise. */
  predicate Spread<T(==)>(supplied: Option<T>, fallback: T, field: T) {
    (supplied.Some? ==> field == supplied.value) && (supplied.None? ==> field == fallback)
  }

  /** `{ ...m, ...data, updatedAt: now }`: supplied fields override, the timestamp is refreshed. */
  function Apply(m: Medicine, data: MedicinePartial, now: string): (r: Medicine)
    ensures r.id == m.id && r.status == m.status && r.createdAt == m.createdAt && r.updatedAt == now
    ensures Spread(data.name, m.name, r.name) && Spread(data.genericName, m.genericName, r.genericName)
    ensures Spread(data.category, m.category, r.category) && Spread(data.manufacturer, m.manufacturer, r.manufacturer)
    ensures Spread(data.batchNumber, m.batchNumber, r.batchNumber) && Spread(data.quantity, m.quantity, r.quantity)
    ensures Spread(data.minStockLevel, m.minStockLevel, r.minStockLevel)
    ensures Spread(data.unitPrice, m.unitPrice, r.unitPrice) && Spread(data.expiryDate, m.expiryDate, r.expiryDate)
    ensures Spread(data.location, m.location, r.location)
    ensures data.barcode.Some? ==> r.barcode == data.barcode
    ensures data.barcode.None? ==> r.barcode == m.barcode
  {
    m.(name := data.name.GetOr(m.name),
       genericName := data.genericName.GetOr(m.genericName),
       category := data.category.GetOr(m.category),
       manufacturer := data.manufacturer.GetOr(m.manufacturer),
       batchNumber := data.batchNumber.GetOr(m.batchNumber),
       quantity := data.quantity.GetOr(m.quantity),
       minStockLevel := data.minStockLevel.GetOr(m.minStockLevel),
       unitPrice := data.unitPrice.GetOr(m.unitPrice),
       expiryDate := data.expiryDate.GetOr(m.expiryDate),
       location := data.location.GetOr(m.location),
       barcode := if data.barcode.Some? then data.barcode else m.barcode,
       updatedAt := now)
  }

  /** The edit: every entry with the selected id is patched, the others are untouched. */
  function Edited(meds: seq<Medicine>, id: string, data: MedicinePartial, now: string): (r: seq<Medicine>)
    ensures |r| == |meds|
    ensures forall i :: 0 <= i < |meds| ==> r[i] == if meds[i].id == id then Apply(meds[i], data, now) else meds[i]
  {
    seq(|meds|, i requires 0 <= i < |meds| => if meds[i].id == id then Apply(meds[i], data, now) else meds[i])
  }

  /** The edit keeps the ids in place, so list order is unchanged. */
  lemma EditKeepsIds(meds: seq<Medicine>, id: string, data: MedicinePartial, now: string)
    ensures forall i :: 0 <= i < |meds| ==> Edited(meds, id, data, now)[i].id == meds[i].id
  {
  }

  /** The medicine an add creates: missing text fields become "", missing numbers 0, status in stock. */
  function NewMedicine(data: MedicinePartial, id: string, now: string): (r: Medicine)
    ensures r.id == id && r.status == InStock && r.createdAt == now && r.updatedAt == now
    ensures Spread(data.name, "", r.name) && Spread(data.genericName, "", r.genericName)
    ensures Spread(data.category, "", r.category) && Spread(data.manufacturer, "", r.manufacturer)
    ensures Spread(data.batchNumber, "", r.batchNumber) && Spread(data.quantity, 0, r.quantity)
    ensures Spread(data.minStockLevel, 0, r.minStockLevel) && Spread(data.unitPrice, 0, r.unitPrice)
    ensures Spread(data.expiryDate, "", r.expiryDate) && Spread(data.location, "", r.location)
    ensures r.barcode == data.barcode
  {
    Medicine(id, data.name.GetOr(""), data.genericName.GetOr(""), data.category.GetOr(""),
             data.manufacturer.GetOr(""), data.batchNumber.GetOr(""), data.quantity.GetOr(0),
             data.minStockLevel.GetOr(0), data.unitPrice.GetOr(0), data.expiryDate.GetOr(""),
             data.location.GetOr(""), data.barcode, InStock, now, now)
  }

  /** An added medicine is in stock even when it has no stock or has already expired. */
  lemma AddedIsAlwaysInStock(data: MedicinePartial, id: string, now: string)
    requires data.quantity == Some(0)
    ensures NewMedicine(data, id, now).status == InStock && NewMedicine(data, id, now).quantity == 0
  {
  }

  // ---------------------------------------------------------------------------
  // The dialog hand-off

  /**
   * What the medicine dialog submits (its `MedicineFormData`): every field,
   * under the database's snake_case names for generic name, batch number,
   * minimum level, unit price and expiry date.
   */
  datatype DialogData = DialogData(
    name: string, generic_name: string, category: string, manufacturer: string,
    batch_number: string, quantity: int, min_stock_level: int, unit_price: int,
    expiry_date: string, location: string, barcode: string)

  /**
   * The submission as the page reads it: only the keys the two records
   * share by name (name, category, manufacturer, quantity, location and
   * barcode) reach it; the snake_case ones are not read at all.
   */
  function PatchAsWritten(d: DialogData): MedicinePartial {
    MedicinePartial(Some(d.name), None, Some(d.category), Some(d.manufacturer), None, Some(d.quantity),
                    None, None, None, Some(d.location), Some(d.barcode))
  }

  /** The submission with every dialog field carried over under its page name. */
  function DialogPatch(d: DialogData): MedicinePartial {
    MedicinePartial(Some(d.name), Some(d.generic_name), Some(d.category), Some(d.manufacturer),
                    Some(d.batch_number), Some(d.quantity), Some(d.min_stock_level), Some(d.unit_price),
                    Some(d.expiry_date), Some(d.location), Some(d.barcode))
  }

  /**
   * As written, a medicine added through the dialog loses what was typed
   * for generic name, batch number, minimum level, unit price and expiry date.
   */
  lemma AddLosesDialogFields(d: DialogData, id: string, now: string)
    ensures var m := NewMedicine(PatchAsWritten(d), id, now);
            && m.genericName == "" && m.batchNumber == "" && m.minStockLevel == 0
            && m.unitPrice == 0 && m.expiryDate == ""
            && (d.batch_number != "" ==> m.batchNumber != d.batch_number)
            && (d.unit_price != 0 ==> m.unitPrice != d.unit_price)
  {
  }

  /** For instance, a typed batch "B-17", minimum 10, price 250 and expiry are all lost. */
  lemma AddLosesTypedValues()
    ensures var d := DialogData("Amoxicillin", "amoxicillin", "Antibiotics", "Acme", "B-17", 40, 10, 250,
                                "2026-01-31", "Shelf 2", "");
            var m := NewMedicine(PatchAsWritten(d), "1", "now");
            m.batchNumber != d.batch_number && m.minStockLevel != d.min_stock_level
            && m.unitPrice != d.unit_price && m.expiryDate != d.expiry_date && m.genericName != d.generic_name
  {
    AddLosesDialogFields(DialogData("Amoxicillin", "amoxicillin", "Antibiotics", "Acme", "B-17", 40, 10, 250,
                                    "2026-01-31", "Shelf 2", ""), "1", "now");
  }

  /**
   * As written, an edit through the dialog leaves the generic name, batch
   * number, minimum level, unit price and expiry date as they were, whatever
   * was typed.
   */
  lemma EditIgnoresDialogFields(m: Medicine, d: DialogData, now: string)
    ensures var r := Apply(m, PatchAsWritten(d), now);
            r.genericName == m.genericName && r.batchNumber == m.batchNumber
            && r.minStockLevel == m.minStockLevel && r.unitPrice == m.unitPrice && r.expiryDate == m.expiryDate
  {
  }

  /** With the fields carried over, an added medicine holds exactly what was typed. */
  lemma AddKeepsDialogFields(d: DialogData, id: string, now: string)
    ensures var m := NewMedicine(DialogPatch(d), id, now);
            m.name == d.name && m.genericName == d.generic_name && m.category == d.category
            && m.manufacturer == d.manufacturer && m.batchNumber == d.batch_number
            && m.quantity == d.quantity && m.minStockLevel == d.min_stock_level
            && m.unitPrice == d.unit_price && m.expiryDate == d.expiry_date
            && m.location == d.location && m.barcode == Some(d.barcode)
  {
  }

  /** With the fields carried over, an edit through the dialog stores every typed value. */
  lemma EditKeepsDialogFields(m: Medicine, d: DialogData, now: string)
    ensures var r := Apply(m, DialogPatch(d), now);
            r.batchNumber == d.batch_number && r.minStockLevel == d.min_stock_level
            && r.unitPrice == d.unit_price && r.expiryDate == d.expiry_date && r.genericName == d.generic_name
  {
  }

  class Page {
    var medicines: seq<Medicine>
    var dialogOpen: bool
    var selectedMedicine: Option<Medicine>

    constructor (initial: seq<Medicine>)
      ensures medicines == initial && !dialogOpen && selectedMedicine.None?
    {
      medicines := initial;
      dialogOpen := false;
      selectedMedicine := None;
    }

    /** `handleAddNew`: clear the selection, so the next submission adds. */
    method HandleAddNew()
      modifies this
      ensures selectedMedicine.None? && dialogOpen && medicines == old(medicines)
    {
      selectedMedicine := None;
      dialogOpen := true;
    }

    /** `handleEdit`: select the medicine, so the next submission edits it. */
    method HandleEdit(m: Medicine)
      modifies this
      ensures selectedMedicine == Some(m) && dialogOpen && medicines == old(medicines)
    {
      selectedMedicine := Some(m);
      dialogOpen := true;
    }

    /** `handleDelete`: drop every medicine with that id. */
    method HandleDelete(m: Medicine)
      modifies this
      ensures medicines == Without(old(medicines), m.id)
      ensures selectedMedicine == old(selectedMedicine) && dialogOpen == old(dialogOpen)
    {
      medicines := Without(medicines, m.id);
    }

    /** `handleSubmit`: edit the selected medicine when there is one, otherwise prepend a new one. */
    method HandleSubmit(data: MedicinePartial, newId: string, now: string)
      modifies this
      ensures old(selectedMedicine).Some? ==> medicines == Edited(old(medicines), old(selectedMedicine).value.id, data, now)
      ensures old(selectedMedicine).None? ==> medicines == [NewMedicine(data, newId, now)] + old(medicines)
      ensures |medicines| == |old(medicines)| + (if old(selectedMedicine).None? then 1 else 0)
      ensures selectedMedicine == old(selectedMedicine) && dialogOpen == old(dialogOpen)
    {
      match selectedMedicine {
        case Some(sel) =>
          medicines := Edited(medicines, sel.id, data, now);
        case None =>
          medicines := [NewMedicine(data, newId, now)] + medicines;
      }
    }

    /** The dialog's submission, handed over with every field under its page name. */
    method SubmitDialog(d: DialogData, newId: string, now: string)
      modifies this
      ensures old(selectedMedicine).None? ==> medicines == [NewMedicine(DialogPatch(d), newId, now)] + old(medicines)
      ensures old(selectedMedicine).None? ==> medicines[0].batchNumber == d.batch_number
      ensures old(selectedMedicine).Some? ==> medicines == Edited(old(medicines), old(selectedMedicine).value.id, DialogPatch(d), now)
      ensures selectedMedicine == old(selectedMedicine) && dialogOpen == old(dialogOpen)
    {
      HandleSubmit(DialogPatch(d), newId, now);
    }
  }
}

=== FILE: protected_route.dfy ===
/**
 * The access gate every guarded page is wrapped in: a first-match chain of
 * loading, signed-in, staff and role checks. The signed-in user, the held
 * roles and the staff flag come from the authentication context, which is
 * an input here.
 */
module ProtectedRoute {
  import opened Domain

  /** What the gate renders. */
  datatype Gate = Spinner | RedirectToAuth | PendingApproval | AccessDenied | Granted

  /** What the authentication context reports. */
  datatype Session = Session(isLoading: bool, user: Option<string>, roles: seq<Role>, isStaff: bool)

  /** The gate's props; an absent `requireAnyRole` defaults to true. */
  datatype Guard = Guard(requiredRoles: Option<seq<Role>>, requireAnyRole: Option<bool>)

  /** `requiredRoles.some(role => roles.includes(role))` */
  predicate HoldsAny(required: seq<Role>, roles: seq<Role>) {
    exists r :: r in required && r in roles
  }

  /** `requiredRoles.every(role => roles.includes(role))` */
  predicate HoldsAll(required: seq<Role>, roles: seq<Role>) {
    forall r :: r in required ==> r in roles
  }

  /** The role check, made only when a non-empty role list is given. */
  predicate HasAccess(guard: Guard, roles: seq<Role>) {
    match guard.requiredRoles
    case None => true
    case Some(required) =>
      |required| == 0 ||
      (if guard.requireAnyRole.GetOr(true) then HoldsAny(required, roles) else HoldsAll(required, roles))
  }

  function Decide(s: Session, guard: Guard): Gate {
    if s.isLoading then Spinner
    else if s.user.None? then RedirectToAuth
    else if !s.isStaff then PendingApproval
    else if !HasAccess(guard, s.roles) then AccessDenied
    else Granted
  }

  /** While loading, the spinner is shown before any other check. */
  lemma LoadingFirst(s: Session, guard: Guard)
    ensures s.isLoading <==> Decide(s, guard) == Spinner
  {
  }

  /** Loaded and signed out: redirect to the sign-in page, whatever the guard. */
  lemma SignedOutRedirects(s: Session, guard: Guard)
    ensures Decide(s, guard) == RedirectToAuth <==> !s.isLoading && s.user.None?
  {
  }

  /** A signed-in user without staff standing waits for approval, whatever roles are required. */
  lemma NonStaffPending(s: Session, guard: Guard)
    ensures Decide(s, guard) == PendingApproval <==> !s.isLoading && s.user.Some? && !s.isStaff
  {
  }

  /** Staff pass a gate that names no roles, or an empty list of them. */
  lemma NoRolesRequired(s: Session, guard: Guard)
    requires !s.isLoading && s.user.Some? && s.isStaff
    requires guard.requiredRoles.None? || guard.requiredRoles == Some([])
    ensures Decide(s, guard) == Granted
  {
  }

  /**
   * For signed-in staff and a non-empty role list: in any-of mode (the
   * default) access is granted iff some required role is held, in all-of
   * mode iff every required role is held.
   */
  lemma RoleModes(s: Session, required: seq<Role>, any: Option<bool>)
    requires !s.isLoading && s.user.Some? && s.isStaff && |required| > 0
    ensures any != Some(false) ==>
              (Decide(s, Guard(Some(required), any)) == Granted <==> exists r :: r in required && r in s.roles)
    ensures any == Some(false) ==>
              (Decide(s, Guard(Some(required), any)) == Granted <==> forall r :: r in required ==> r in s.roles)
    ensures Decide(s, Guard(Some(required), any)) in {Granted, AccessDenied}
  {
  }

  /** Holding more roles never turns a grant into a denial. */
  lemma MoreRolesKeepGrant(s: Session, guard: Guard, more: seq<Role>)
    requires forall r :: r in s.roles ==> r in more
    requires Decide(s, guard) == Granted
    ensures Decide(s.(roles := more), guard) == Granted
  {
    if guard.requiredRoles.Some? && |guard.requiredRoles.value| > 0 && guard.requireAnyRole.GetOr(true) {
      var r :| r in guard.requiredRoles.value && r in s.roles;
      assert r in more;
    }
  }

  /** With a single required role, the any-of and all-of modes agree. */
  lemma SingleRoleModesAgree(s: Session, role: Role)
    ensures Decide(s, Guard(Some([role]), Some(true))) == Decide(s, Guard(Some([role]), Some(false)))
    ensures Decide(s, Guard(Some([role]), None)) == Decide(s, Guard(Some([role]), Some(false)))
  {
    assert HoldsAny([role], s.roles) <==> role in s.roles by {
      if role in s.roles {
        assert role in [role];
      }
    }
  }
}

=== FILE: quick_stock_scanner.dfy ===
/**
 * The barcode quick-stock dialog: a scan looks the medicine up by barcode,
 * and submit validates the typed quantity against the scanned snapshot
 * before running the stock operation, then resets and closes on success.
 */
module QuickStockScanner {
  import opened Domain
  import opened Text
  import StockOperations

  /** The medicine as the barcode lookup returns it (a snapshot of its row). */
  datatype ScannedMedicine = ScannedMedicine(id: string, name: string, barcode: Option<string>, quantity: int,
                                             batchNumber: string)

  /** The barcode lookup's answer: one row, no row, or an error. */
  datatype Lookup = Found(medicine: ScannedMedicine) | NotFound | LookupError

  /** How a submit ends. */
  datatype SubmitResult = Ignored | InvalidQuantity | InsufficientStock | OperationFailed | Completed

  /** What submit decides before any call: stop with a result, or run this request. */
  datatype Decision = Stop(result: SubmitResult) | Proceed(request: StockOperations.StockOperationData)

  /** The reason sent when none was typed. */
  function DefaultReason(kind: MovementType): string {
    "Quick " + MovementTypeName(kind) + " via barcode"
  }

  /** The checks of `handleSubmit` in order, and the request it builds. */
  function Decide(medicine: Option<ScannedMedicine>, quantity: string, reason: string, kind: MovementType): Decision {
    if medicine.None? || quantity == "" then Stop(Ignored)
    else
      var qty := ParseInt(quantity);
      if qty.None? || qty.value <= 0 then Stop(InvalidQuantity)
      else if kind == StockOut && qty.value > medicine.value.quantity then Stop(InsufficientStock)
      else
        var m := medicine.value;
        Proceed(StockOperations.StockOperationData(
          m.id, qty.value, Some(m.batchNumber), if reason == "" then DefaultReason(kind) else reason, kind))
  }

  /**
   * A request is built only for a scanned medicine and a quantity that
   * parses to a positive number, at most the scanned stock for a stock-out;
   * it carries the medicine's own batch and a non-empty reason.
   */
  lemma ProceedOnlyWhenValid(medicine: Option<ScannedMedicine>, quantity: string, reason: string, kind: MovementType)
    requires Decide(medicine, quantity, reason, kind).Proceed?
    ensures var r := Decide(medicine, quantity, reason, kind).request;
            medicine.Some? && ParseInt(quantity) == Some(r.quantity) && r.quantity > 0
            && r.medicineId == medicine.value.id && r.kind == kind
            && r.batchNumber == Some(medicine.value.batchNumber)
            && (kind == StockOut ==> r.quantity <= medicine.value.quantity)
            && (reason == "" ==> r.reason == DefaultReason(kind))
            && (reason != "" ==> r.reason == reason)
  {
  }

  /** The reset quantity "1" submits one unit. */
  lemma DefaultQuantityIsOne(m: ScannedMedicine, reason: string)
    ensures Decide(Some(m), "1", reason, StockIn).Proceed?
    ensures Decide(Some(m), "1", reason, StockIn).request.quantity == 1
  {
    ParseLeadingCount(1, "");
    assert NatToString(1) + "" == "1";
  }

  /** A stock-out that the scanned snapshot allows never drives the stored quantity negative. */
  lemma SnapshotCheckKeepsStock(s: StockOperations.Store, m: ScannedMedicine, quantity: string, reason: string,
                                userId: Option<string>, today: int, faults: StockOperations.Faults)
    requires Decide(Some(m), quantity, reason, StockOut).Proceed?
    requires m.id in s.medicines && s.medicines[m.id].quantity >= 0
    ensures var out := StockOperations.Step(s, Decide(Some(m), quantity, reason, StockOut).request, userId, today, faults);
            out.store.medicines[m.id].quantity >= 0
  {
    var r := Decide(Some(m), quantity, reason, StockOut).request;
    StockOperations.StockOutNeverNegative(s, r, userId, today, faults);
  }

  class Scanner {
    const kind: MovementType
    const inventory: StockOperations.Inventory
    var showScanner: bool
    var medicine: Option<ScannedMedicine>
    var quantity: string
    var reason: string
    var isLoading: bool
    var isSearching: bool

    constructor (kind: MovementType, inventory: StockOperations.Inventory)
      ensures this.kind == kind && this.inventory == inventory
      ensures !showScanner && medicine.None? && quantity == "1" && reason == "" && !isLoading && !isSearching
    {
      this.kind := kind;
      this.inventory := inventory;
      showScanner := false;
      medicine := None;
      quantity := "1";
      reason := "";
      isLoading := false;
      isSearching := false;
    }

    /** `handleScan`: a found row becomes the selected medicine and hides the camera; otherwise nothing is selected anew. */
    method HandleScan(lookup: Lookup)
      modifies this
      ensures lookup.Found? ==> medicine == Some(lookup.medicine) && !showScanner
      ensures !lookup.Found? ==> medicine == old(medicine) && showScanner == old(showScanner)
      ensures quantity == old(quantity) && reason == old(reason) && !isSearching && isLoading == old(isLoading)
    {
      isSearching := true;
      if lookup.Found? {
        medicine := Some(lookup.medicine);
        showScanner := false;
      }
      isSearching := false;
    }

    /**
     * `handleSubmit`: stop on a missing medicine or quantity, an invalid
     * quantity, or a stock-out above the scanned stock; otherwise run the
     * stock operation, and on success clear the dialog (the caller's
     * completion and close callbacks then run).
     */
    method HandleSubmit(userId: Option<string>, today: int, faults: StockOperations.Faults)
      returns (result: SubmitResult)
      modifies this, inventory
      ensures var d := Decide(old(medicine), old(quantity), old(reason), kind);
              (d.Stop? ==> result == d.result && inventory.State() == old(inventory.State()))
              && (d.Proceed? ==>
                    StockOperations.Step(old(inventory.State()), d.request, userId, today, faults)
                    == StockOperations.Outcome(inventory.State(), result == Completed)
                    && (result == Completed || result == OperationFailed))
      ensures result == Completed ==> medicine.None? && quantity == "1" && reason == ""
      ensures result != Completed ==> medicine == old(medicine) && quantity == old(quantity) && reason == old(reason)
      ensures (result == Completed || result == OperationFailed) ==> !isLoading
      ensures result in {Ignored, InvalidQuantity, InsufficientStock} ==> isLoading == old(isLoading)
      ensures showScanner == old(showScanner) && isSearching == old(isSearching)
    {
      var d := Decide(medicine, quantity, reason, kind);
      ghost var before := inventory.State();
      if medicine.None? || quantity == "" {
        assert d == Stop(Ignored) && inventory.State() == before;
        return Ignored;
      }
      var qty := ParseInt(quantity);
      if qty.None? || qty.value <= 0 {
        assert d == Stop(InvalidQuantity) && inventory.State() == before;
        return InvalidQuantity;
      }
      if kind == StockOut && qty.value > medicine.value.quantity {
        assert d == Stop(InsufficientStock) && inventory.State() == before;
        return InsufficientStock;
      }
      isLoading := true;
      var m := medicine.value;
      var request := StockOperations.StockOperationData(
        m.id, qty.value, Some(m.batchNumber), if reason == "" then DefaultReason(kind) else reason, kind);
      assert d == Proceed(request);
      var success := inventory.PerformStockOperation(request, userId, today, faults);
      assert StockOperations.Step(before, request, userId, today, faults)
             == StockOperations.Outcome(inventory.State(), success);
      if !success {
        isLoading := false;
        return OperationFailed;
      }
      medicine := None;
      quantity := "1";
      reason := "";
      isLoading := false;
      result := Completed;
    }

    /** `handleClose`: the same three fields a successful submit clears. */
    method HandleClose()
      modifies this
      ensures medicine.None? && quantity == "1" && reason == ""
      ensures isLoading == old(isLoading) && isSearching == old(isSearching) && showScanner == old(showScanner)
    {
      medicine := None;
      quantity := "1";
      reason := "";
    }
  }
}

=== FILE: stock_operation_form.dfy ===
/**
 * The manual stock-in / stock-out form: its submit validation and reset,
 * the clear button, the remaining-stock preview and the medicine picker's
 * search. Submitting only reports; it changes no inventory.
 */
module StockOperationForm {
  import opened Domain
  import opened Text

  /** `medicines.find(m => m.id === id)`: the first medicine with that id. */
  function FindMedicine(meds: seq<Medicine>, id: string): (r: Option<Medicine>)
    ensures r.None? <==> forall k :: 0 <= k < |meds| ==> meds[k].id != id
    ensures r.Some? ==> exists k :: 0 <= k < |meds| && meds[k] == r.value && r.value.id == id
                                   && forall j :: 0 <= j < k ==> meds[j].id != id
  {
    if meds == [] then None
    else if meds[0].id == id then Some(meds[0])
    else
      var r := FindMedicine(meds[1..], id);
      if r.Some? then
        var k :| 0 <= k < |meds[1..]| && meds[1..][k] == r.value && r.value.id == id
                 && forall j :: 0 <= j < k ==> meds[1..][j].id != id;
        assert meds[k + 1] == r.value;
        r
      else r
  }

  /** What pressing submit reports. */
  datatype Verdict =
    | ValidationError
    | InsufficientStock(requested: int, available: int)
    | Submitted(quantity: int, medicineName: Option<string>)

  /**
   * The submit checks in order: a medicine must be chosen and the quantity
   * positive; a stock-out may not exceed the chosen medicine's stock when
   * that medicine is in the list.
   */
  function Validate(kind: MovementType, selected: string, quantity: int, meds: seq<Medicine>): Verdict {
    if selected == "" || quantity <= 0 then ValidationError
    else
      var found := FindMedicine(meds, selected);
      if kind == StockOut && found.Some? && quantity > found.value.quantity then
        InsufficientStock(quantity, found.value.quantity)
      else
        Submitted(quantity, if found.Some? then Some(found.value.name) else None)
  }

  /** A submission goes through only with a chosen medicine and a positive quantity. */
  lemma SubmittedIsValid(kind: MovementType, selected: string, quantity: int, meds: seq<Medicine>)
    requires Validate(kind, selected, quantity, meds).Submitted?
    ensures selected != "" && quantity > 0 && Validate(kind, selected, quantity, meds).quantity == quantity
  {
  }

  /** Stock-in has no upper bound: only the first check can stop it. */
  lemma StockInUnbounded(selected: string, quantity: int, meds: seq<Medicine>)
    ensures !Validate(StockIn, selected, quantity, meds).InsufficientStock?
    ensures selected != "" && quantity > 0 ==> Validate(StockIn, selected, quantity, meds).Submitted?
  {
  }

  /** A stock-out that goes through never leaves the listed medicine's preview negative. */
  lemma StockOutPreviewNonNegative(selected: string, quantity: int, meds: seq<Medicine>)
    requires Validate(StockOut, selected, quantity, meds).Submitted?
    requires FindMedicine(meds, selected).Some?
    ensures Preview(StockOut, FindMedicine(meds, selected).value.quantity, quantity) >= 0
  {
  }

  /** "New total" for stock-in, "Remaining" for stock-out. */
  function Preview(kind: MovementType, current: int, quantity: int): (r: int)
    ensures kind == StockIn ==> r - current == quantity
    ensures kind == StockOut ==> current - r == quantity
  {
    if kind == StockIn then current + quantity else current - quantity
  }

  /** The picker searches name and generic name, ignoring case. */
  predicate PickerMatches(m: Medicine, searchTerm: string) {
    ContainsIgnoreCase(m.name, searchTerm) || ContainsIgnoreCase(m.genericName, searchTerm)
  }

  /** `filteredMedicines` of the picker: the medicines the search matches, in list order. */
  function PickerFiltered(meds: seq<Medicine>, searchTerm: string): (r: seq<Medicine>)
    ensures |r| <= |meds|
    ensures forall m :: m in r <==> m in meds && PickerMatches(m, searchTerm)
  {
    if meds == [] then []
    else
      assert meds == [meds[0]] + meds[1..];
      if PickerMatches(meds[0], searchTerm) then [meds[0]] + PickerFiltered(meds[1..], searchTerm)
      else PickerFiltered(meds[1..], searchTerm)
  }

  /** The picker keeps the order of the medicine list. */
  lemma {:induction false} PickerInOrder(meds: seq<Medicine>, searchTerm: string)
    ensures Subsequence(PickerFiltered(meds, searchTerm), meds)
  {
    if meds != [] {
      PickerInOrder(meds[1..], searchTerm);
      var r := PickerFiltered(meds, searchTerm);
      if PickerMatches(meds[0], searchTerm) {
        assert r[0] == meds[0] && r[1..] == PickerFiltered(meds[1..], searchTerm);
      }
    }
  }

  /** The list with every batch number blanked, to compare lists that may differ only in batch. */
  function IgnoringBatch(meds: seq<Medicine>): (r: seq<Medicine>)
    ensures |r| == |meds|
    ensures forall k :: 0 <= k < |meds| ==> r[k] == meds[k].(batchNumber := "")
  {
    if meds == [] then [] else [meds[0].(batchNumber := "")] + IgnoringBatch(meds[1..])
  }

  /**
   * The batch number plays no part in the picker search: after changing one
   * medicine's batch, that medicine matches as before and the picker lists
   * the same medicines, in the same order, apart from batch numbers.
   */
  lemma {:induction false} PickerIgnoresBatch(meds: seq<Medicine>, searchTerm: string, i: int, batch: string)
    requires 0 <= i < |meds|
    ensures PickerMatches(meds[i].(batchNumber := batch), searchTerm) == PickerMatches(meds[i], searchTerm)
    ensures IgnoringBatch(PickerFiltered(meds[i := meds[i].(batchNumber := batch)], searchTerm))
            == IgnoringBatch(PickerFiltered(meds, searchTerm))
  {
    var changed := meds[i := meds[i].(batchNumber := batch)];
    assert changed[0] == (if i == 0 then meds[0].(batchNumber := batch) else meds[0]);
    if i > 0 {
      PickerIgnoresBatch(meds[1..], searchTerm, i - 1, batch);
      assert changed[1..] == meds[1..][i - 1 := meds[i].(batchNumber := batch)];
    } else {
      assert changed[1..] == meds[1..];
    }
  }

  /** The empty search lists every medicine. */
  lemma {:induction false} EmptyPickerSearch(meds: seq<Medicine>)
    ensures PickerFiltered(meds, "") == meds
  {
    if meds != [] {
      EmptyNeedle(meds[0].name);
      EmptyPickerSearch(meds[1..]);
    }
  }

  class Form {
    const kind: MovementType
    const medicines: seq<Medicine>
    var selectedMedicine: string
    var quantity: int
    var batchNumber: string
    var reason: string
    var searchTerm: string

    constructor (kind: MovementType, medicines: seq<Medicine>)
      ensures this.kind == kind && this.medicines == medicines
      ensures selectedMedicine == "" && quantity == 0 && batchNumber == "" && reason == "" && searchTerm == ""
    {
      this.kind := kind;
      this.medicines := medicines;
      selectedMedicine := "";
      quantity := 0;
      batchNumber := "";
      reason := "";
      searchTerm := "";
    }

    /** `setQuantity(parseInt(value) || 0)`: an unparsable entry, or zero, stores 0. */
    method SetQuantity(parsed: Option<int>)
      modifies this
      ensures quantity == parsed.GetOr(0)
      ensures selectedMedicine == old(selectedMedicine) && batchNumber == old(batchNumber)
      ensures reason == old(reason) && searchTerm == old(searchTerm)
    {
      quantity := if parsed.Some? then parsed.value else 0;
    }

    /** `handleSubmit`: report the verdict; a submission that goes through clears the four fields. */
    method HandleSubmit() returns (v: Verdict)
      modifies this
      ensures v == Validate(kind, old(selectedMedicine), old(quantity), medicines)
      ensures v.Submitted? ==> selectedMedicine == "" && quantity == 0 && batchNumber == "" && reason == ""
      ensures !v.Submitted? ==>
                selectedMedicine == old(selectedMedicine) && quantity == old(quantity)
                && batchNumber == old(batchNumber) && reason == old(reason)
      ensures searchTerm == old(searchTerm)
    {
      if selectedMedicine == "" || quantity <= 0 {
        return ValidationError;
      }
      var selectedMedicineData := FindMedicine(medicines, selectedMedicine);
      if kind == StockOut && selectedMedicineData.Some? && quantity > selectedMedicineData.value.quantity {
        return InsufficientStock(quantity, selectedMedicineData.value.quantity);
      }
      v := Submitted(quantity, if selectedMedicineData.Some? then Some(selectedMedicineData.value.name) else None);
      selectedMedicine := "";
      quantity := 0;
      batchNumber := "";
      reason := "";
    }

    /** The clear button: the same four fields a submission resets. */
    method Clear()
      modifies this
      ensures selectedMedicine == "" && quantity == 0 && batchNumber == "" && reason == ""
      ensures searchTerm == old(searchTerm)
    {
      selectedMedicine := "";
      quantity := 0;
      batchNumber := "";
      reason := "";
    }
  }
}

=== FILE: stock_operations.dfy ===
/**
 * The status rule and the stock-in / stock-out operation of the
 * `useStockOperations` hook.
 *
 * The hosted database is abstracted as an `Inventory` object: a map from
 * medicine id to its row and the append-only sequence of movement rows.
 * Whether each of the three backend calls fails is given by a `Faults`
 * record, since that is decided outside the client.
 */
module StockOperations {
  import opened Domain

  /**
   * The ordered first-match status rule. Expiry dominates stock level:
   * exactly one status holds, and the stock-based ones only when more than
   * 30 days remain.
   */
  function CalculateStatus(quantity: int, minStockLevel: int, daysUntilExpiry: int): (s: Status)
    ensures s == Expired <==> daysUntilExpiry < 0
    ensures s == ExpiringSoon <==> 0 <= daysUntilExpiry <= 30
    ensures s == OutOfStock <==> daysUntilExpiry > 30 && quantity == 0
    ensures s == LowStock <==> daysUntilExpiry > 30 && quantity != 0 && quantity <= minStockLevel
    ensures s == InStock <==> daysUntilExpiry > 30 && quantity != 0 && quantity > minStockLevel
  {
    if daysUntilExpiry < 0 then Expired
    else if daysUntilExpiry <= 30 then ExpiringSoon
    else if quantity == 0 then OutOfStock
    else if quantity <= minStockLevel then LowStock
    else InStock
  }

  /** Adding stock never makes a positive, unexpired item's status worse on the stock axis. */
  lemma StatusAfterRestock(q: int, n: int, minStockLevel: int, d: int)
    requires 0 <= q && 0 < n && d > 30
    ensures CalculateStatus(q + n, minStockLevel, d) != OutOfStock
    ensures CalculateStatus(q, minStockLevel, d) == InStock ==> CalculateStatus(q + n, minStockLevel, d) == InStock
  {
  }

  /** The request passed to `performStockOperation`. */
  datatype StockOperationData = StockOperationData(
    medicineId: string,
    quantity: int,
    batchNumber: Option<string>,
    reason: string,
    kind: MovementType)

  /** Which of the three backend calls (fetch, update, insert) report an error. */
  datatype Faults = Faults(fetchFails: bool, updateFails: bool, insertFails: bool)

  const NoFaults := Faults(false, false, false)

  /** The `updateData` record sent to `medicines.update`. */
  datatype MedicineUpdate = MedicineUpdate(quantity: int, status: Status, batchNumber: Option<string>)

  /** A non-empty optional string, as JavaScript truthiness reads it. */
  predicate Present(s: Option<string>) {
    s.Some? && s.value != ""
  }

  function NewQuantity(current: int, data: StockOperationData): (q: int)
    ensures data.kind == StockIn ==> q - current == data.quantity
    ensures data.kind == StockOut ==> current - q == data.quantity
  {
    if data.kind == StockIn then current + data.quantity else current - data.quantity
  }

  /** The row after `medicines.update(u)`: only quantity, status and (when sent) batch change. */
  function ApplyUpdate(m: DbMedicine, u: MedicineUpdate): (r: DbMedicine)
    ensures r.quantity == u.quantity && r.status == u.status
    ensures r.batchNumber == u.batchNumber.GetOr(m.batchNumber)
    ensures r.(quantity := m.quantity, status := m.status, batchNumber := m.batchNumber) == m
  {
    m.(quantity := u.quantity, status := u.status, batchNumber := u.batchNumber.GetOr(m.batchNumber))
  }

  /** The updated row for a request that passed validation. */
  function Updated(m: DbMedicine, data: StockOperationData, today: int): (r: DbMedicine)
    ensures r.quantity == NewQuantity(m.quantity, data)
    ensures r.status == CalculateStatus(r.quantity, m.minStockLevel, m.expiryDate - today)
    ensures r.batchNumber != m.batchNumber ==> data.kind == StockIn && Present(data.batchNumber)
    ensures data.kind == StockIn && Present(data.batchNumber) ==> r.batchNumber == data.batchNumber.value
    ensures r.id == m.id && r.minStockLevel == m.minStockLevel && r.expiryDate == m.expiryDate
  {
    var q := NewQuantity(m.quantity, data);
    var batch := if data.kind == StockIn && Present(data.batchNumber) then data.batchNumber else None;
    ApplyUpdate(m, MedicineUpdate(q, CalculateStatus(q, m.minStockLevel, m.expiryDate - today), batch))
  }

  /** The movement row recorded for a request on medicine `m` by user `userId`. */
  function MovementFor(m: DbMedicine, data: StockOperationData, userId: Option<string>): (mv: StockMovement)
    ensures mv.medicineId == data.medicineId && mv.kind == data.kind && mv.quantity == data.quantity
    ensures mv.reason == data.reason
    ensures mv.batchNumber == if Present(data.batchNumber) then data.batchNumber.value else m.batchNumber
    ensures mv.performedBy.Some? <==> Present(userId)
    ensures mv.performedBy.Some? ==> mv.performedBy == userId
  {
    StockMovement(
      data.medicineId,
      data.kind,
      data.quantity,
      if Present(data.batchNumber) then data.batchNumber.value else m.batchNumber,
      data.reason,
      if Present(userId) then userId else None)
  }

  /** What the database holds: medicine rows by id and the movement ledger. */
  datatype Store = Store(medicines: map<string, DbMedicine>, movements: seq<StockMovement>)

  /** The outcome of one call: the new store and the boolean the operation returns. */
  datatype Outcome = Outcome(store: Store, ok: bool)

  /**
   * The effect of `performStockOperation` on the store. Validation failures
   * and the fetch and update errors leave the store as it was; an insert error
   * leaves the medicine already updated (the two writes are not atomic).
   */
  function Step(s: Store, data: StockOperationData, userId: Option<string>, today: int, faults: Faults): Outcome {
    if faults.fetchFails || data.medicineId !in s.medicines then Outcome(s, false)
    else
      var m := s.medicines[data.medicineId];
      if data.kind == StockOut && data.quantity > m.quantity then Outcome(s, false)
      else if faults.updateFails then Outcome(s, false)
      else
        var meds := s.medicines[data.medicineId := Updated(m, data, today)];
        if faults.insertFails then Outcome(Store(meds, s.movements), false)
        else Outcome(Store(meds, s.movements + [MovementFor(m, data, userId)]), true)
  }

  /** Every stored status agrees with the status rule as of `today`. */
  ghost predicate Consistent(s: Store, today: int) {
    forall id :: id in s.medicines ==>
      s.medicines[id].status == CalculateStatus(s.medicines[id].quantity, s.medicines[id].minStockLevel, s.medicines[id].expiryDate - today)
  }

  /** An unknown id fails with no update and no movement written. */
  lemma UnknownMedicineFails(s: Store, data: StockOperationData, userId: Option<string>, today: int, faults: Faults)
    requires data.medicineId !in s.medicines
    ensures Step(s, data, userId, today, faults) == Outcome(s, false)
  {
  }

  /**
   * A stock-out beyond the current quantity fails before any write, and a
   * stock-out that succeeds never leaves a negative quantity.
   */
  lemma {:induction false} StockOutNeverNegative(s: Store, data: StockOperationData, userId: Option<string>, today: int, faults: Faults)
    requires data.kind == StockOut && data.medicineId in s.medicines
    ensures data.quantity > s.medicines[data.medicineId].quantity ==> Step(s, data, userId, today, faults) == Outcome(s, false)
    ensures Step(s, data, userId, today, faults).ok ==> Step(s, data, userId, today, faults).store.medicines[data.medicineId].quantity >= 0
  {
  }

  /**
   * A successful call changes only the requested medicine, and appends
   * exactly one movement whose signed quantity is the change in stock.
   */
  lemma {:induction false} SuccessKeepsLedgerInStep(s: Store, data: StockOperationData, userId: Option<string>, today: int, faults: Faults)
    requires Step(s, data, userId, today, faults).ok
    ensures var r := Step(s, data, userId, today, faults).store;
      && data.medicineId in s.medicines
      && r.medicines.Keys == s.medicines.Keys
      && (forall id :: id in s.medicines && id != data.medicineId ==> r.medicines[id] == s.medicines[id])
      && |r.movements| == |s.movements| + 1
      && r.movements[..|s.movements|] == s.movements
      && var mv := r.movements[|s.movements|];
         r.medicines[data.medicineId].quantity - s.medicines[data.medicineId].quantity
           == (if mv.kind == StockIn then mv.quantity else -mv.quantity)
  {
    var r := Step(s, data, userId, today, faults).store;
    assert r.movements[..|s.movements|] == s.movements;
  }

  /** The status invariant is preserved by every call on the same day, whatever fails. */
  lemma {:induction false} StepPreservesConsistency(s: Store, data: StockOperationData, userId: Option<string>, today: int, faults: Faults)
    requires Consistent(s, today)
    ensures Consistent(Step(s, data, userId, today, faults).store, today)
  {
    var r := Step(s, data, userId, today, faults).store;
    forall id | id in r.medicines
      ensures r.medicines[id].status == CalculateStatus(r.medicines[id].quantity, r.medicines[id].minStockLevel, r.medicines[id].expiryDate - today)
    {
      assert id in s.medicines;
    }
  }

  /**
   * An insert error after a successful update leaves the new quantity in
   * place with no movement recorded: the ledger no longer explains the stock.
   */
  lemma InsertFailureLeavesPartialWrite(s: Store, data: StockOperationData, userId: Option<string>, today: int)
    requires data.medicineId in s.medicines && data.quantity != 0
    requires data.kind == StockOut ==> data.quantity <= s.medicines[data.medicineId].quantity
    ensures var r := Step(s, data, userId, today, Faults(false, false, true));
      && !r.ok
      && r.store.movements == s.movements
      && r.store.medicines[data.medicineId].quantity != s.medicines[data.medicineId].quantity
  {
  }

  /**
   * Stock-in of N followed by stock-out of N on the same day restores the
   * quantity and the status and appends exactly two movements.
   */
  lemma {:induction false} StockInThenOutRestores(s: Store, id: string, n: int, batch: Option<string>, reason: string,
                                                   userId: Option<string>, today: int)
    requires id in s.medicines && s.medicines[id].quantity >= 0
    requires Consistent(s, today)
    ensures var first := Step(s, StockOperationData(id, n, batch, reason, StockIn), userId, today, NoFaults);
      var second := Step(first.store, StockOperationData(id, n, batch, reason, StockOut), userId, today, NoFaults);
      && first.ok && second.ok
      && second.store.medicines[id].quantity == s.medicines[id].quantity
      && second.store.medicines[id].status == s.medicines[id].status
      && |second.store.movements| == |s.movements| + 2
      && second.store.movements[..|s.movements|] == s.movements
  {
    var first := Step(s, StockOperationData(id, n, batch, reason, StockIn), userId, today, NoFaults);
    var m1 := first.store.medicines[id];
    assert m1.quantity == s.medicines[id].quantity + n;
    var second := Step(first.store, StockOperationData(id, n, batch, reason, StockOut), userId, today, NoFaults);
    assert second.store.movements[..|s.movements|] == s.movements;
  }

  /** The database as the hook sees it. */
  class Inventory {
    var medicines: map<string, DbMedicine>
    var movements: seq<StockMovement>

    function State(): Store
      reads this
    {
      Store(medicines, movements)
    }

    constructor (initial: map<string, DbMedicine>)
      ensures medicines == initial && movements == []
    {
      medicines := initial;
      movements := [];
    }

    /**
     * `performStockOperation`: look the medicine up, reject an over-large
     * stock-out, build `updateData` (batch only on stock-in), write it, then
     * append the movement row. Returns whether every step succeeded.
     */
    method PerformStockOperation(data: StockOperationData, userId: Option<string>, today: int, faults: Faults)
      returns (ok: bool)
      modifies this
      ensures Outcome(State(), ok) == Step(old(State()), data, userId, today, faults)
    {
      if faults.fetchFails || data.medicineId !in medicines {
        return false;
      }
      var medicine := medicines[data.medicineId];

      if data.kind == StockOut && data.quantity > medicine.quantity {
        return false;
      }

      var newQuantity := if data.kind == StockIn then medicine.quantity + data.quantity
                         else medicine.quantity - data.quantity;
      var newStatus := CalculateStatus(newQuantity, medicine.minStockLevel, medicine.expiryDate - today);

      var updateData := MedicineUpdate(newQuantity, newStatus, None);
      if data.kind == StockIn && Present(data.batchNumber) {
        updateData := updateData.(batchNumber := data.batchNumber);
      }

      if faults.updateFails {
        return false;
      }
      medicines := medicines[data.medicineId := ApplyUpdate(medicine, updateData)];

      if faults.insertFails {
        return false;
      }
      var batch := if Present(data.batchNumber) then data.batchNumber.value else medicine.batchNumber;
      var performedBy := if Present(userId) then userId else None;
      movements := movements + [StockMovement(data.medicineId, data.kind, data.quantity, batch, data.reason, performedBy)];
      ok := true;
    }
  }
}

=== FILE: supplier_performance_table.dfy ===
/**
 * The supplier performance table of the analytics page: the delivery rate
 * in whole percent, its rating badge, the average-days cell and the CSV
 * export.
 */
module SupplierPerformanceTable {
  import opened Domain
  import opened Text
  import opened Csv
  import Analytics

  type Row = Analytics.SupplierPerformance

  /**
   * The delivered share of the orders in whole percent, rounded to the
   * nearest (halves up); no orders gives 0.
   */
  function DeliveryRate(item: Row): (r: int)
    ensures item.totalOrders <= 0 ==> r == 0
    ensures item.totalOrders > 0 ==>
              2 * item.totalOrders * r - item.totalOrders <= 2 * (100 * item.deliveredOrders)
                < 2 * item.totalOrders * r + item.totalOrders
  {
    if item.totalOrders > 0 then Analytics.RoundDiv(100 * item.deliveredOrders, item.totalOrders) else 0
  }

  /**
   * A supplier who delivered part of their orders gets a rate between 0 and
   * 100; all delivered is exactly 100 and none delivered exactly 0.
   */
  lemma DeliveryRateBounds(item: Row)
    requires 0 <= item.deliveredOrders <= item.totalOrders
    ensures 0 <= DeliveryRate(item) <= 100
    ensures item.totalOrders > 0 && item.deliveredOrders == item.totalOrders ==> DeliveryRate(item) == 100
    ensures item.deliveredOrders == 0 ==> DeliveryRate(item) == 0
  {
    var t, d, r := item.totalOrders, item.deliveredOrders, DeliveryRate(item);
    if t > 0 {
      if r > 100 {
        Analytics.MulNonneg(t, r - 101);
        assert false;
      }
      if r < 0 {
        Analytics.MulNonneg(t, -r - 1);
        assert false;
      }
      if d == t {
        Analytics.RoundDivUnique(100 * d, t, 100);
      }
      if d == 0 {
        Analytics.RoundDivUnique(0, t, 0);
      }
    }
  }

  /** Every row the supplier query produces has a rate between 0 and 100. */
  lemma QueryRatesArePercentages(result: seq<Row>, i: int)
    requires 0 <= i < |result|
    requires forall k :: 0 <= k < |result| ==> 0 <= result[k].deliveredOrders <= result[k].totalOrders
    ensures 0 <= DeliveryRate(result[i]) <= 100
  {
    DeliveryRateBounds(result[i]);
  }

  // ---------------------------------------------------------------------------
  // Rating badge and cells

  datatype Rating = Excellent | Good | Average | Poor

  function RatingText(g: Rating): string {
    match g
    case Excellent => "Excellent"
    case Good => "Good"
    case Average => "Average"
    case Poor => "Poor"
  }

  /** `getDeliveryRateBadge`: the four bands partition the rates. */
  function RatingOf(rate: int): (g: Rating)
    ensures g == Excellent <==> rate >= 90
    ensures g == Good <==> 70 <= rate < 90
    ensures g == Average <==> 50 <= rate < 70
    ensures g == Poor <==> rate < 50
  {
    if rate >= 90 then Excellent
    else if rate >= 70 then Good
    else if rate >= 50 then Average
    else Poor
  }

  function Rank(g: Rating): nat {
    match g
    case Excellent => 3
    case Good => 2
    case Average => 1
    case Poor => 0
  }

  /** A higher rate never gets a worse rating. */
  lemma RatingMonotone(r1: int, r2: int)
    requires r1 <= r2
    ensures Rank(RatingOf(r1)) <= Rank(RatingOf(r2))
  {
  }

  /** The Performance column: the rating badge, or "-" for a supplier without orders. */
  function PerformanceCell(item: Row): string {
    if item.totalOrders > 0 then RatingText(RatingOf(DeliveryRate(item))) else "-"
  }

  /** The Avg Days column: "N days", or "-" when the average is not positive. */
  function AvgDaysCell(item: Row): string {
    if item.avgDeliveryDays > 0 then IntToString(item.avgDeliveryDays) + " days" else "-"
  }

  /** The dash appears exactly for suppliers without orders; one who delivered everything is excellent. */
  lemma PerformanceCellShape(item: Row)
    ensures PerformanceCell(item) == "-" <==> item.totalOrders <= 0
    ensures 0 < item.deliveredOrders == item.totalOrders ==> PerformanceCell(item) == "Excellent"
  {
    if 0 < item.deliveredOrders == item.totalOrders {
      DeliveryRateBounds(item);
    }
  }

  /** A positive average shows its own day count; otherwise the cell is a dash. */
  lemma AvgDaysCellShape(item: Row)
    ensures item.avgDeliveryDays > 0 ==> ParseInt(AvgDaysCell(item)) == Some(item.avgDeliveryDays)
    ensures item.avgDeliveryDays <= 0 <==> AvgDaysCell(item) == "-"
  {
    ParseLeadingInt(item.avgDeliveryDays, " days");
  }

  // ---------------------------------------------------------------------------
  // CSV export

  const Header: seq<string> :=
    ["Supplier", "Total Orders", "Delivered", "Delivery Rate", "Avg Delivery Days", "Total Amount"]

  /** The rate column of the export: "N%" with orders, "N/A" without. */
  function RateCell(item: Row): string {
    if item.totalOrders > 0 then IntToString(DeliveryRate(item)) + "%" else "N/A"
  }

  /** The six exported cells of one row, in header order. */
  function Cells(item: Row): (r: seq<string>)
    ensures |r| == |Header|
  {
    [item.name, IntToString(item.totalOrders), IntToString(item.deliveredOrders),
     RateCell(item), IntToString(item.avgDeliveryDays), Dollars(item.totalAmount)]
  }

  function DataRows(data: seq<Row>): (r: seq<seq<string>>)
    ensures |r| == |data|
    ensures forall i :: 0 <= i < |data| ==> r[i] == Cells(data[i])
  {
    seq(|data|, i requires 0 <= i < |data| => Cells(data[i]))
  }

  /** `handleExport`: the header line, then one line per supplier. */
  function ExportCsv(data: seq<Row>): string {
    Render([Header] + DataRows(data))
  }

  /** The rate cell reads back as the rate when there are orders and says "N/A" exactly when there are none. */
  lemma RateCellShape(item: Row)
    ensures RateCell(item) == "N/A" <==> item.totalOrders <= 0
    ensures item.totalOrders > 0 ==> ParseInt(RateCell(item)) == Some(DeliveryRate(item))
    ensures Plain(RateCell(item))
  {
    if item.totalOrders > 0 {
      ParseLeadingInt(DeliveryRate(item), "%");
      NumberIsPlain(DeliveryRate(item));
      var s := IntToString(DeliveryRate(item));
      assert RateCell(item) == s + "%";
      assert RateCell(item)[0] == s[0];
    }
  }

  /** The cells of one row are separator-free when the supplier name is. */
  lemma CellsPlain(item: Row)
    requires Plain(item.name)
    ensures RowPlain(Cells(item))
  {
    var c := Cells(item);
    forall j | 0 <= j < |c| ensures Plain(c[j]) {
      if j == 1 {
        NumberIsPlain(item.totalOrders);
      } else if j == 2 {
        NumberIsPlain(item.deliveredOrders);
      } else if j == 3 {
        RateCellShape(item);
      } else if j == 4 {
        NumberIsPlain(item.avgDeliveryDays);
      } else if j == 5 {
        AmountIsPlain(item.totalAmount);
      }
    }
  }

  /** The order counts and the average read back as the row's own numbers; the rate says "N/A" exactly without orders. */
  lemma CellsReadBack(item: Row)
    ensures ParseInt(Cells(item)[1]) == Some(item.totalOrders)
    ensures ParseInt(Cells(item)[2]) == Some(item.deliveredOrders)
    ensures ParseInt(Cells(item)[4]) == Some(item.avgDeliveryDays)
    ensures Cells(item)[3] == "N/A" <==> item.totalOrders <= 0
    ensures item.totalOrders > 0 ==> ParseInt(Cells(item)[3]) == Some(DeliveryRate(item))
    ensures Cells(item)[5] == Dollars(item.totalAmount)
  {
    var c := Cells(item);
    assert c[3] == RateCell(item);
    RateCellShape(item);
    assert c[1] == IntToString(item.totalOrders);
    assert c[2] == IntToString(item.deliveredOrders);
    assert c[4] == IntToString(item.avgDeliveryDays);
    ParseIntToString(item.totalOrders);
    ParseIntToString(item.deliveredOrders);
    ParseIntToString(item.avgDeliveryDays);
  }

  lemma HeaderIsPlain()
    ensures RowPlain(Header)
  {
    forall j | 0 <= j < |Header| ensures ',' !in Header[j] && '\n' !in Header[j] {
    }
    RowWithoutSeparators(Header);
  }

  lemma RowsPlain(data: seq<Row>)
    requires forall k :: 0 <= k < |data| ==> Plain(data[k].name)
    ensures AllPlain(DataRows(data))
  {
    var rows := DataRows(data);
    forall i | 0 <= i < |rows| ensures RowPlain(rows[i]) {
      assert rows[i] == Cells(data[i]);
      CellsPlain(data[i]);
    }
  }

  lemma TablePlain(data: seq<Row>)
    requires forall k :: 0 <= k < |data| ==> Plain(data[k].name)
    ensures AllPlain([Header] + DataRows(data))
  {
    HeaderIsPlain();
    RowsPlain(data);
    PlainWithHeader(Header, DataRows(data));
  }

  /**
   * When no supplier name holds a comma or line break, the export has one
   * line per supplier after the header, each with the six columns, the
   * counts read back as the row's own values, the rate column says "N/A"
   * exactly for suppliers without orders and otherwise reads back as the
   * rate, and the amount column is the row's amount in dollars.
   */
  lemma ExportColumns(data: seq<Row>)
    requires forall k :: 0 <= k < |data| ==> Plain(data[k].name)
    ensures |Split(ExportCsv(data), '\n')| == |data| + 1
    ensures Split(Split(ExportCsv(data), '\n')[0], ',') == Header
    ensures forall k :: 0 <= k < |data| ==>
              var fields := Split(Split(ExportCsv(data), '\n')[k + 1], ',');
              |fields| == 6 && fields[0] == data[k].name &&
              ParseInt(fields[1]) == Some(data[k].totalOrders) &&
              ParseInt(fields[2]) == Some(data[k].deliveredOrders) &&
              (fields[3] == "N/A" <==> data[k].totalOrders <= 0) &&
              (data[k].totalOrders > 0 ==> ParseInt(fields[3]) == Some(DeliveryRate(data[k]))) &&
              ParseInt(fields[4]) == Some(data[k].avgDeliveryDays) &&
              fields[5] == Dollars(data[k].totalAmount) && fields == Cells(data[k])
  {
    var rows := [Header] + DataRows(data);
    TablePlain(data);
    RenderSplits(rows);
    var lines := Split(ExportCsv(data), '\n');
    forall k | 0 <= k < |data|
      ensures Split(lines[k + 1], ',') == Cells(data[k])
      ensures ParseInt(Cells(data[k])[1]) == Some(data[k].totalOrders)
      ensures ParseInt(Cells(data[k])[2]) == Some(data[k].deliveredOrders)
      ensures Cells(data[k])[3] == "N/A" <==> data[k].totalOrders <= 0
      ensures ParseInt(Cells(data[k])[4]) == Some(data[k].avgDeliveryDays)
      ensures data[k].totalOrders > 0 ==> ParseInt(Cells(data[k])[3]) == Some(DeliveryRate(data[k]))
      ensures Cells(data[k])[5] == Dollars(data[k].totalAmount)
    {
      assert rows[k + 1] == Cells(data[k]);
      CellsReadBack(data[k]);
    }
  }
}

=== FILE: text.dfy ===
/**
 * String helpers shared by the filters, badges and CSV exports: ASCII case
 * folding, substring search, decimal rendering of integers and cents, and
 * the join/split pair that CSV export relies on.
 */
module Text {
  import opened Domain

  /** `String.prototype.toLowerCase` restricted to ASCII letters. */
  function LowerChar(c: char): char {
    if 'A' <= c <= 'Z' then (c as int + 32) as char else c
  }

  function Lower(s: string): (r: string)
    ensures |r| == |s|
    ensures forall i :: 0 <= i < |s| ==> r[i] == LowerChar(s[i])
  {
    if s == [] then [] else [LowerChar(s[0])] + Lower(s[1..])
  }

  /** `hay.includes(needle)`: needle is a prefix of hay or of one of its suffixes. */
  predicate Contains(hay: string, needle: string)
    decreases |hay|
  {
    needle <= hay || (|hay| > 0 && Contains(hay[1..], needle))
  }

  /** `hay.toLowerCase().includes(needle.toLowerCase())`. */
  predicate ContainsIgnoreCase(hay: string, needle: string) {
    Contains(Lower(hay), Lower(needle))
  }

  /** Every string contains the empty string. */
  lemma EmptyNeedle(hay: string)
    ensures ContainsIgnoreCase(hay, "")
  {
  }

  function DigitChar(d: nat): char
    requires d < 10
  {
    ('0' as int + d) as char
  }

  predicate IsDigit(c: char) {
    '0' <= c <= '9'
  }

  /** Decimal rendering of a non-negative integer, as `n.toString()`. */
  function NatToString(n: nat): (r: string)
    ensures |r| >= 1
    ensures forall i :: 0 <= i < |r| ==> IsDigit(r[i])
    ensures n < 10 <==> |r| == 1
  {
    if n < 10 then [DigitChar(n)] else NatToString(n / 10) + [DigitChar(n % 10)]
  }

  /** Decimal rendering of any integer, with a leading '-' when negative. */
  function IntToString(n: int): (r: string)
    ensures |r| >= 1
    ensures r[0] == '-' <==> n < 0
    ensures forall i :: 0 < i < |r| ==> IsDigit(r[i])
    ensures n >= 0 ==> IsDigit(r[0])
  {
    if n < 0 then "-" + NatToString(-n) else NatToString(n)
  }

  /** `"$" + (cents / 100).toFixed(2)` for an amount held exactly in cents. */
  function Dollars(cents: int): (r: string)
    ensures |r| >= 5 && r[0] == '$'
    ensures forall i :: 0 <= i < |r| ==> r[i] != ',' && r[i] != '\n'
  {
    var a := if cents < 0 then -cents else cents;
    var frac := a % 100;
    "$" + (if cents < 0 then "-" else "") + NatToString(a / 100) + "."
        + [DigitChar(frac / 10), DigitChar(frac % 10)]
  }

  predicate Free(s: string, sep: char) {
    forall i :: 0 <= i < |s| ==> s[i] != sep
  }

  /** The membership form of `Free`, which the solver checks quickly on literals. */
  lemma NotInIsFree(s: string, sep: char)
    requires sep !in s
    ensures Free(s, sep)
  {
    forall i | 0 <= i < |s| ensures s[i] != sep {
      assert s[i] in s;
    }
  }

  /** `fields.join(sep)`. */
  function Join(fields: seq<string>, sep: char): string {
    if fields == [] then ""
    else if |fields| == 1 then fields[0]
    else fields[0] + [sep] + Join(fields[1..], sep)
  }

  /** `s.split(sep)`: always at least one piece, the empty string gives `[""]`. */
  function Split(s: string, sep: char): (r: seq<string>)
    ensures |r| >= 1
  {
    if s == [] then [""]
    else if s[0] == sep then [""] + Split(s[1..], sep)
    else var rest := Split(s[1..], sep); [[s[0]] + rest[0]] + rest[1..]
  }

  /** A piece free of the separator, followed by the separator, splits off as one field. */
  lemma {:induction false} SplitPrefix(a: string, sep: char, tail: string)
    requires Free(a, sep)
    ensures Split(a + [sep] + tail, sep) == [a] + Split(tail, sep)
  {
    if a == [] {
      assert a + [sep] + tail == [sep] + tail;
      assert ([sep] + tail)[1..] == tail;
    } else {
      assert (a + [sep] + tail)[1..] == a[1..] + [sep] + tail;
      SplitPrefix(a[1..], sep, tail);
      assert [a[0]] + a[1..] == a;
    }
  }

  /** A piece free of the separator does not split at all. */
  lemma {:induction false} SplitFree(a: string, sep: char)
    requires Free(a, sep)
    ensures Split(a, sep) == [a]
  {
    if a != [] {
      SplitFree(a[1..], sep);
      assert [a[0]] + a[1..] == a;
    }
  }

  /** Splitting a join gives the fields back when no field holds the separator. */
  lemma {:induction false} SplitJoin(fields: seq<string>, sep: char)
    requires |fields| >= 1
    requires forall k :: 0 <= k < |fields| ==> Free(fields[k], sep)
    ensures Split(Join(fields, sep), sep) == fields
  {
    if |fields| == 1 {
      SplitFree(fields[0], sep);
    } else {
      SplitJoin(fields[1..], sep);
      SplitPrefix(fields[0], sep, Join(fields[1..], sep));
    }
  }

  /** A join of separator-free fields contains another character only if some field does. */
  lemma {:induction false} JoinFree(fields: seq<string>, sep: char, c: char)
    requires c != sep
    requires forall k :: 0 <= k < |fields| ==> Free(fields[k], c)
    ensures Free(Join(fields, sep), c)
  {
    if |fields| > 1 {
      JoinFree(fields[1..], sep, c);
    }
  }

  /** The value of a string of decimal digits. */
  function DigitsValue(s: string): nat
    requires forall i :: 0 <= i < |s| ==> IsDigit(s[i])
  {
    if s == [] then 0
    else
      assert IsDigit(s[|s| - 1]);
      DigitsValue(s[..|s| - 1]) * 10 + (s[|s| - 1] as int - '0' as int)
  }

  /** Length of the longest prefix made of decimal digits. */
  function DigitPrefix(s: string): (n: nat)
    ensures n <= |s|
    ensures forall i :: 0 <= i < n ==> IsDigit(s[i])
    ensures n < |s| ==> !IsDigit(s[n])
  {
    if s == [] || !IsDigit(s[0]) then 0 else 1 + DigitPrefix(s[1..])
  }

  /** The value of the leading run of digits, or `None` when the text does not start with a digit. */
  function ParseDigits(body: string): Option<nat> {
    var n := DigitPrefix(body);
    if n == 0 then None else Some(DigitsValue(body[..n]))
  }

  /**
   * `parseInt(s)` in base ten: an optional sign, then the longest run of
   * digits; no digits at all is `NaN`, here `None`.
   */
  function ParseInt(s: string): Option<int> {
    if |s| > 0 && s[0] == '-' then
      match ParseDigits(s[1..])
      case None => None
      case Some(v) => Some(-(v as int))
    else
      match ParseDigits(if |s| > 0 && s[0] == '+' then s[1..] else s)
      case None => None
      case Some(v) => Some(v as int)
  }

  /** `parseInt` gives `NaN` exactly when no digit follows the optional sign. */
  lemma NaNExactly(s: string)
    ensures var body := if |s| > 0 && (s[0] == '-' || s[0] == '+') then s[1..] else s;
            ParseInt(s).None? <==> body == [] || !IsDigit(body[0])
  {
  }

  /** A run of digits followed by a non-digit (or nothing) is the whole digit prefix. */
  lemma {:induction false} DigitPrefixOfRun(digits: string, rest: string)
    requires forall i :: 0 <= i < |digits| ==> IsDigit(digits[i])
    requires rest == [] || !IsDigit(rest[0])
    ensures DigitPrefix(digits + rest) == |digits|
  {
    if digits != [] {
      DigitPrefixOfRun(digits[1..], rest);
      assert (digits + rest)[1..] == digits[1..] + rest;
    }
  }

  lemma {:induction false} DigitsValueOfNat(n: nat)
    ensures DigitsValue(NatToString(n)) == n
  {
    if n >= 10 {
      DigitsValueOfNat(n / 10);
      var s := NatToString(n);
      assert s[..|s| - 1] == NatToString(n / 10);
    }
  }

  /** A run of digits followed by a non-digit (or nothing) reads as the value of the run. */
  lemma ParseDigitsOfRun(digits: string, rest: string)
    requires |digits| > 0
    requires forall i :: 0 <= i < |digits| ==> IsDigit(digits[i])
    requires rest == [] || !IsDigit(rest[0])
    ensures ParseDigits(digits + rest) == Some(DigitsValue(digits))
  {
    DigitPrefixOfRun(digits, rest);
    assert (digits + rest)[..|digits|] == digits;
  }

  /**
   * Parsing text that starts with the decimal rendering of a count, followed
   * by anything that does not start with a digit, gives the count back.
   */
  lemma ParseLeadingCount(n: nat, rest: string)
    requires rest == [] || !IsDigit(rest[0])
    ensures ParseInt(NatToString(n) + rest) == Some(n)
  {
    var digits := NatToString(n);
    assert (digits + rest)[0] == digits[0];
    ParseDigitsOfRun(digits, rest);
    DigitsValueOfNat(n);
  }

  /** A minus sign before a rendered count is read back as the negated count. */
  lemma ParseLeadingNegative(m: nat, rest: string)
    requires rest == [] || !IsDigit(rest[0])
    ensures ParseInt("-" + NatToString(m) + rest) == Some(-(m as int))
  {
    var digits := NatToString(m);
    var s := "-" + digits + rest;
    assert s[0] == '-';
    assert s[1..] == digits + rest;
    ParseDigitsOfRun(digits, rest);
    DigitsValueOfNat(m);
  }

  /** The sign of an amount as `toFixed` writes it. */
  function SignText(cents: int): string {
    if cents < 0 then "-" else ""
  }

  /** The point and the two cent digits `toFixed(2)` ends with. */
  function CentsText(a: nat): (r: string)
    ensures |r| == 3 && r[0] == '.'
  {
    var frac := a % 100;
    "." + [DigitChar(frac / 10), DigitChar(frac % 10)]
  }

  /** `Dollars` is the "$", the sign, the whole dollars and the cents, in that order. */
  lemma DollarsParts(cents: int)
    ensures var a := if cents < 0 then -cents else cents;
            Dollars(cents) == "$" + (SignText(cents) + NatToString(a / 100) + CentsText(a))
  {
  }

  /**
   * `Dollars` reads back: after the "$" comes the sign of the amount, then
   * the whole dollars as `parseInt` reads them.
   */
  lemma DollarsReadBack(cents: int)
    ensures var r := Dollars(cents);
            var a := if cents < 0 then -cents else cents;
            && (r[1] == '-' <==> cents < 0)
            && ParseInt(r[1..]) == Some(if cents < 0 then -(a / 100) else a / 100)
  {
    var a := if cents < 0 then -cents else cents;
    var digits := NatToString(a / 100);
    var tail := CentsText(a);
    var body := SignText(cents) + digits + tail;
    DollarsParts(cents);
    assert Dollars(cents)[1..] == body;
    assert Dollars(cents)[1] == body[0];
    if cents < 0 {
      assert body == "-" + digits + tail;
      ParseLeadingNegative(a / 100, tail);
    } else {
      assert body == digits + tail;
      assert body[0] == digits[0];
      ParseLeadingCount(a / 100, tail);
    }
  }

  /** `Dollars` ends with a point and the two digits of the cents. */
  lemma DollarsCents(cents: int)
    ensures var r := Dollars(cents);
            var a := if cents < 0 then -cents else cents;
            r[|r| - 3] == '.' && r[|r| - 2] == DigitChar(a % 100 / 10) && r[|r| - 1] == DigitChar(a % 100 % 10)
  {
    var a := if cents < 0 then -cents else cents;
    var head := "$" + (SignText(cents) + NatToString(a / 100));
    var tail := CentsText(a);
    DollarsParts(cents);
    var r := Dollars(cents);
    assert r == head + tail;
    assert r[|r| - 3] == tail[0] && r[|r| - 2] == tail[1] && r[|r| - 1] == tail[2];
  }

  /** The same for any integer: a leading minus sign is read back as a negative value. */
  lemma ParseLeadingInt(n: int, rest: string)
    requires rest == [] || !IsDigit(rest[0])
    ensures ParseInt(IntToString(n) + rest) == Some(n)
  {
    if n < 0 {
      ParseLeadingNegative(-n, rest);
      assert IntToString(n) + rest == "-" + NatToString(-n) + rest;
    } else {
      ParseLeadingCount(n, rest);
    }
  }

  /** `parseInt` reads the decimal rendering of an integer back as that integer. */
  lemma ParseIntToString(n: int)
    ensures ParseInt(IntToString(n)) == Some(n)
  {
    ParseLeadingInt(n, []);
    assert IntToString(n) + [] == IntToString(n);
  }
}
